=== FILE: README.md ===
# goodtimez core, modelled in Dafny

goodtimez is a creator-subscription platform built on Next.js. This project models
the part of it that makes decisions and moves value:

- who may stream a content item: signed, expiring URLs, then a first-match entitlement
  check, then view counting;
- how tokens move between wallets: the pay-per-view message unlock and the payment
  webhook (deposit, failed payment, chargeback dispute);
- the numbers computed from records: commission split, age checks, number suffixes,
  "time ago" buckets, churn score and retention campaign, sentiment score, the
  revenue chart and breakdown, the conversation list and the at-risk subscriber list;
- the host rewrite for creator subdomains, the demo credential check with its JWT and
  session callbacks, and the demo user table.

The database is a `Store.Database` class whose fields are the tables: maps keyed by id
for contents, wallets, users and creator profiles, and sequences in insertion order for
subscriptions, purchases, transactions, messages and takedowns. Route handlers that write
are methods with `modifies db`. Their `ensures` give the whole new state for every branch,
including the branch where a store update throws half way. Read-only logic is written as
functions. Proofs about those functions are lemmas.

Several things become parameters: the clock (`now`, milliseconds since the epoch), the
calendar date, the session, the random engagement flag of the churn score, the HMAC
function and the signing secret.

One module per source file:

| module | file |
|---|---|
| `ContentProtection` | lib/content-protection.ts |
| `ContentStreamRoute` | app/api/content/stream/route.ts |
| `MessageUnlockRoute` | app/api/messages/unlock/route.ts |
| `StripeWebhookRoute` | app/api/webhooks/stripe/route.ts |
| `Utils` | lib/utils.ts |
| `Compliance` | lib/compliance.ts |
| `Ai` | lib/ai.ts |
| `ChurnRiskRoute` | app/api/ai/churn-risk/route.ts |
| `RevenueRoute`, `RevenueChart` | app/api/analytics/revenue/route.ts |
| `ConversationsRoute` | app/api/messages/conversations/route.ts |
| `Middleware` | middleware.ts |
| `Auth` | lib/auth.ts |
| `DemoData` | lib/demo-data.ts |

Shared modules:

- `Wrappers` holds `Option`.
- `Http` holds the `Response` of a route: `Ok(body)` or `Error(status, message)`.
- `Strings` covers the JavaScript string operations the code relies on: `toString` of
  integers, `parseInt`, `includes`, `split`, `toLowerCase`.
- `Sorting` holds a stable sort by an integer key, which stands for `Array.prototype.sort`
  and the `orderBy` of the database.
- `Grouping` holds first-occurrence keys and groups, which give the insertion order of a
  JavaScript `Map` or object.

## Model

| member | source | states |
|---|---|---|
| `ContentProtection.SigningSecret` | lib/content-protection.ts:12 | The secret is never empty: it is the environment variable when that is set and non-empty, and "fallback-secret" otherwise. |
| `ContentProtection.GenerateSignedUrl` | lib/content-protection.ts:7-31 | The URL carries the given content and user ids. Its `expires` reads back through parseInt as now + expiresIn·1000. Its signature is the MAC of the ':'-joined fields. |
| `ContentProtection.VerifySignedUrl` | lib/content-protection.ts:36-57 | False whenever now is past the parsed expiry, whatever the signature. Up to the expiry it is true exactly when the signature is the MAC of the raw joined fields. When the expiry does not parse, only the signature is checked. |
| `ContentProtection.VerifyGenerated` | lib/content-protection.ts:13-20 | A generated URL verifies at every instant up to its expiry and at none after it. |
| `ContentProtection.SeparatorAmbiguity` | lib/content-protection.ts:16 | ("a:b", "c") and ("a", "b:c") produce the same signed message, so a signature for one pair verifies for the other. |
| `ContentProtection.ExpiryReadsNumericPrefix` | lib/content-protection.ts:45-56 | For an `expires` of "<n><tail>", where the tail starts with a non-digit (and, after a lone 0, not with 'x' or 'X'), the expiry check uses only n while the signature must cover the whole string. |
| `ContentProtection.FindActiveSubscription` | lib/content-protection.ts:147-154 | Finds a subscription exactly when one of this fan to this creator is active and expires strictly after now. |
| `ContentProtection.FindUnlockedPurchase` | lib/content-protection.ts:165-171 | Returns the first unlocked purchase of the item by the fan, or reports that there is none. |
| `ContentProtection.CheckContentAccess` | lib/content-protection.ts:120-186 | First match wins: a missing item, then the creator, then PUBLIC, then SUBSCRIBERS, then PPV with its view limit, then deny. A grant has no reason, and every denial carries one of five fixed reasons. |
| `ContentProtection.CountView` | lib/content-protection.ts:197-205 | Keeps the length. Every purchase row of (user, content) gains exactly one view, locked or not. Every other row is unchanged. |
| `ContentProtection.TrackContentView` | lib/content-protection.ts:191-214 | The purchases become CountView of the old ones. The item's currentViews goes up by one. A missing item leaves the contents as they were and reports failure. No other table changes. |
| `ContentProtection.CountViewAdvancesCheckedPurchase` | lib/content-protection.ts:165-205 | After a tracked view, the purchase the view-limit check reads is still the first match, and its count went up by one. |
| `ContentProtection.LastAllowedView` | lib/content-protection.ts:173-213 | One view short of a set limit, the PPV view is granted. After it is tracked, the same fan gets "View limit reached". |
| `ContentStreamRoute.CheckRequest` | app/api/content/stream/route.ts:11-67 | The guards come in source order: 401 without a session, 400 with a missing parameter, 403 "User mismatch", 403 "Invalid or expired URL". A request past those guards gets the item exactly when entitled, and otherwise 403 with the denial reason, or "Access denied" when the reason is empty. Success always means every guard passed. The 404 branch is never taken. |
| `ContentStreamRoute.DenialKeepsReason` | app/api/content/stream/route.ts:52 | A denial's reason is never empty, so the "Access denied" fallback never replaces it. |
| `ContentStreamRoute.Get` | app/api/content/stream/route.ts:7-87 | A failed guard returns its error and leaves the store unchanged. On success one view is tracked, and the item's file URL and its watermark and DRM flags are returned. |
| `MessageUnlockRoute.FindMessage` | app/api/messages/unlock/route.ts:24-26 | Finds a message with the given id, or reports that none has it. |
| `MessageUnlockRoute.CheckUnlock` | app/api/messages/unlock/route.ts:10-50 | Returns 401 without a session, 400 for a missing field, 404 for an unknown message, 400 for a message that is not PPV, and 400 "Insufficient tokens" for a missing wallet or a balance under the price. Otherwise it succeeds with the message. |
| `MessageUnlockRoute.UnlockRows` | app/api/messages/unlock/route.ts:73-92 | Exactly two COMPLETED token rows with no payment method: a PURCHASE of the price by the payer, described "Unlocked PPV message", and a TIP of 80% of it to the sender, described "PPV message earnings". |
| `MessageUnlockRoute.Post` | app/api/messages/unlock/route.ts:6-108 | A failed check returns its error and leaves the store unchanged. Otherwise the body's userId is debited the price and the sender is credited 80%, and the two rows are appended. If the sender has no wallet, the debit stays and the route answers 500. |
| `MessageUnlockRoute.UnlockBalances` | app/api/messages/unlock/route.ts:45-70 | After an unlock that passed the balance check, and with payer and sender different, the payer lost exactly the price and stays non-negative, and the sender gained 80% of it. When they are the same account, it loses 20% net. Every other wallet is untouched. |
| `Store.AddTokens` | app/api/webhooks/stripe/route.ts:34-41 | An increment of one wallet's token balance: the same keys, the USD balance kept and every other wallet untouched. |
| `StripeWebhookRoute.TokensFor` | app/api/webhooks/stripe/route.ts:28-31 | The tokens are cents/10, and never negative for a non-negative amount. |
| `StripeWebhookRoute.DepositRow` | app/api/webhooks/stripe/route.ts:44-77 | A DEPOSIT row of the intent's user, in dollars (cents/100) and USD, paid through "stripe", carrying the intent id as its payment id. A COMPLETED row is described "Purchased <tokens> tokens" and a FAILED one "Payment failed". |
| `StripeWebhookRoute.TokensText` | app/api/webhooks/stripe/route.ts:31-53 | The text of the tokens bought, cents/10: the whole tokens as `String` writes an integer ("-0" between -1 and 0), then a point and the tenths digit when there is one. |
| `StripeWebhookRoute.TokensTextParses` | app/api/webhooks/stripe/route.ts:31-53 | For a non-negative amount, parseInt reads the text back as the whole tokens, cents/10 rounded down. |
| `StripeWebhookRoute.FindByPaymentId` | app/api/webhooks/stripe/route.ts:88-90 | Returns the first transaction whose payment id is the charge id, or reports that there is none. |
| `StripeWebhookRoute.Post` | app/api/webhooks/stripe/route.ts:5-122 | A missing signature gives 400 with no change. A success credits cents/10 tokens and appends a COMPLETED deposit. A failure appends a FAILED deposit with no wallet change. Users change only on a dispute. A dispute marks the matched row DISPUTED and suspends its user, or changes nothing when no row matches. Other events change nothing. A missing wallet or user gives 400. |
| `StripeWebhookRoute.DisputeSkipsOtherDeposits` | app/api/webhooks/stripe/route.ts:52-90 | A deposit stored under the intent id is never the one a dispute finds when the charge id differs. |
| `StripeWebhookRoute.DeliverTwice` | app/api/webhooks/stripe/route.ts:25-55 | The same succeeded event delivered twice credits twice and writes two rows with the same payment id. |
| `Utils.CalculateCommission` | lib/utils.ts:100-118 | The three parts add up to the amount exactly. The platform fee is amount·rate. The agency fee is 0 for an absent or zero rate, and (amount − platform fee)·rate otherwise. |
| `Utils.CommissionNonNegative` | lib/utils.ts:109-111 | For a non-negative amount and rates in [0,1], no part is negative. |
| `Utils.IsValidAge` | lib/utils.ts:55-65 | True exactly when the 18th birthday is on or before today. A birthday falling today counts. |
| `Utils.FormatNumber` | lib/utils.ts:29-37 | The suffix is "M" iff num ≥ 1,000,000, "K" iff 1000 ≤ num < 1,000,000, and none otherwise. The printed value times the suffix's scale is num. |
| `Utils.ElapsedSeconds` | lib/utils.ts:124 | The floor of the elapsed milliseconds over 1000. |
| `Utils.Bucket` | lib/utils.ts:126-141 | "just now" iff the seconds are at most 60. Otherwise the unit is the largest one the seconds strictly exceed, and the count is at least 1. |
| `Utils.Render` | lib/utils.ts:127-141 | "just now" for a minute or less. Otherwise the count in decimal, then the unit's label, then " ago"; the text starts with a digit or '-'. |
| `Utils.TimeAgo` | lib/utils.ts:123-142 | The text is "just now" iff at most 60 seconds have passed. Otherwise it ends in " ago". |
| `Utils.TimeAgoCountParses` | lib/utils.ts:127-139 | Past one minute, parseInt of the printed text reads back the count of the chosen bucket. |
| `Compliance.Age` | lib/compliance.ts:10-15 | The computed age is the number of whole years: that birthday has been reached and the next one has not. |
| `Compliance.IsValidAge` | lib/compliance.ts:6-18 | True exactly when the minimumAge-th birthday is on or before today. |
| `Compliance.UtilsAgreesAtDefault` | lib/compliance.ts:6-18 | At the default minimum of 18, both age checks give the same answer on every input. |
| `Compliance.ValidAgeMonotone` | lib/compliance.ts:17 | Valid for a minimum m implies valid for every m' ≤ m. |
| `Compliance.GenerateConsentForm` | lib/compliance.ts:82-102 | The form id is "consent_" followed by the first clock reading, which parses back. The URL ends with the id. The form expires seven days after the second clock reading. |
| `Compliance.ProcessDmcaTakedown` | lib/compliance.ts:107-140 | Appends one PENDING takedown and makes the item PRIVATE, changing nothing else. For a missing item the record stays and no result comes back. |
| `Compliance.TakedownHidesContent` | lib/compliance.ts:129-134 | After a takedown the creator still gets in, and everybody else is denied with "Access denied". |
| `Ai.FindSubscription` | lib/ai.ts:86-96 | Finds the subscription with the given id, or reports that none has it. |
| `Ai.WholeDays` | lib/ai.ts:107-137 | The floor of the elapsed time in days. |
| `Ai.RiskOf` | lib/ai.ts:145-152 | High iff score ≥ 70, Medium iff 40 ≤ score < 70, and Low otherwise. |
| `Ai.Assessment` | lib/ai.ts:82-155 | The score is in [0,100], there are at most four factors, and the risk is RiskOf(score). A missing subscription gives low, 0 and no factors. For a found one, the score is the sum of the triggered weights (`Score`) and the factors list the triggered signals in order (`Factors`), both read from its signals. |
| `Ai.PredictChurnRisk` | lib/ai.ts:82-155 | The step-by-step accumulation computes exactly Assessment. |
| `Ai.RiskCountsFactors` | lib/ai.ts:112-152 | One factor per weight added. The score is in [0,100]. The risk is High iff at least three weights fire, Medium iff exactly two, and Low iff at most one. |
| `Ai.GenerateRetentionCampaign` | lib/ai.ts:160-185 | A discount, of 20, exactly for high risk. The exclusive-offer campaign is chosen exactly for high risk. |
| `Ai.CampaignIgnoresFactors` | lib/ai.ts:160-185 | The campaign depends on the risk alone, never on the factors. |
| `Ai.CampaignActionsDistinct` | lib/ai.ts:168-184 | Different risks get different actions. |
| `Ai.Matching` | lib/ai.ts:198-221 | Every listed word that occurs in the text, as many times as it is listed, and no other word. The list order is kept (`Ai.MatchingAppend`). |
| `Ai.MatchingAppend` | lib/ai.ts:219-221 | The keywords of both lists are the positive matches followed by the negative ones. |
| `Ai.Clamp` | lib/ai.ts:223 | The result lies in [0,1] and leaves values already in [0,1] alone. |
| `Ai.SentimentScore` | lib/ai.ts:208-217 | The score lies in [0,1]. It is at least 0.8 when positive words outnumber negative ones, at most 0.2 in the opposite case, and 0.5 exactly on a tie. |
| `Ai.AnalyzeSentiment` | lib/ai.ts:190-224 | The label is positive or negative by the larger count of matched words, and neutral on a tie. The score is `SentimentScore` of the two counts and lies in [0,1]. The keywords are the matched words. |
| `Ai.SentimentScoreMatchesLabel` | lib/ai.ts:208-223 | A positive result scores at least 0.8 and a negative one at most 0.2. The score is above 0.5 exactly for positive text and below 0.5 exactly for negative text. |
| `ChurnRiskRoute.ActiveSubscriptions` | app/api/ai/churn-risk/route.ts:28-40 | Every active subscription of this creator profile, as many times as it is in the table, and nothing else; table order is kept (`Grouping.SelectAppend`). |
| `ChurnRiskRoute.EntryFor` | app/api/ai/churn-risk/route.ts:48-59 | One entry iff the risk is high or medium, carrying that assessment's risk, score and factors. |
| `ChurnRiskRoute.AtRiskList` | app/api/ai/churn-risk/route.ts:43-60 | Only high and medium entries, all scoring between 40 and 100. Each entry's suggested action is the campaign for its own risk. Every subscription assessed high or medium has its entry, and there are exactly as many entries as such subscriptions. |
| `ChurnRiskRoute.CollectAtRisk` | app/api/ai/churn-risk/route.ts:43-60 | The loop builds exactly AtRiskList. |
| `ChurnRiskRoute.Get` | app/api/ai/churn-risk/route.ts:7-77 | Returns 401 for a non-creator and 404 without a profile. Otherwise it reports the active-subscription count and the at-risk count before the cut. The list is the first ten of the score-descending sort: at-risk only and ordered by score. |
| `ChurnRiskRoute.TopIsOrderedAtRisk` | app/api/ai/churn-risk/route.ts:63-68 | The returned entries are all at risk and in non-increasing score order. |
| `ChurnRiskRoute.TopDominates` | app/api/ai/churn-risk/route.ts:63-68 | No entry cut after the first ten scores above an entry that was kept. |
| `RevenueRoute.DaysOf` | app/api/analytics/revenue/route.ts:15 | An absent or empty parameter means 30 days. Any other value is read by parseInt. |
| `RevenueRoute.Filter` | app/api/analytics/revenue/route.ts:33-39 | Every COMPLETED tip, subscription or purchase of the user created at or after the start, as many times as it is in the table, and nothing else; table order is kept (`Grouping.SelectAppend`). |
| `RevenueRoute.RevenueRows` | app/api/analytics/revenue/route.ts:33-41 | The same rows, oldest first. |
| `RevenueRoute.SumBySource` | app/api/analytics/revenue/route.ts:57-71 | Each bucket is the total of its own transaction type. |
| `RevenueRoute.SourcesPartitionTotal` | app/api/analytics/revenue/route.ts:63-73 | Every counted row adds to exactly one bucket, so the three buckets add up to the total amount. |
| `RevenueRoute.PercentagesSumTo100` | app/api/analytics/revenue/route.ts:80-89 | With positive revenue the three percentages add up to 100. |
| `RevenueRoute.Get` | app/api/analytics/revenue/route.ts:6-100 | Returns 401 for a non-creator and 404 without a profile. An unparsable `days` gives 500. Otherwise the chart is the per-day grouping, the buckets are per-type totals, and the total equals the chart's sum. The percentages are bucket/total·100, or 0 when the total is 0. |
| `RevenueChart.Points` | app/api/analytics/revenue/route.ts:51-54 | One point per day, holding that day's revenue. |
| `RevenueChart.AccumulateByDate` | app/api/analytics/revenue/route.ts:44-48 | The dates come in first-occurrence order, and each holds the sum of its rows. |
| `RevenueChart.GroupByDate` | app/api/analytics/revenue/route.ts:44-54 | The chart is exactly ChartData of the rows. |
| `RevenueChart.ChartFromTotals` | app/api/analytics/revenue/route.ts:51-54 | Listing the accumulated map in date order gives the per-day chart. |
| `RevenueChart.ChartSumIsTotal` | app/api/analytics/revenue/route.ts:44-73 | The per-day revenues add up to the sum of all counted rows. |
| `ConversationsRoute.Involving` | app/api/messages/conversations/route.ts:17-20 | Only messages the user sent or received, drawn from the input. |
| `ConversationsRoute.NewestInvolving` | app/api/messages/conversations/route.ts:17-21 | The user's messages, all of them, newest first. |
| `ConversationsRoute.Recent` | app/api/messages/conversations/route.ts:17-23 | At most 100 of the user's messages, newest first, and all of them when there are no more than 100. |
| `ConversationsRoute.RecentKeepsNewest` | app/api/messages/conversations/route.ts:17-23 | The messages kept are the newest: every message of the user's that is left out is no newer than any kept one. |
| `ConversationsRoute.PartnerName` | app/api/messages/conversations/route.ts:45 | "Unknown" exactly when the partner is missing or has an empty or "Unknown" username. Otherwise the name is the username. |
| `ConversationsRoute.PartnerAvatar` | app/api/messages/conversations/route.ts:46-47 | The fan avatar if set, else the creator avatar if set, else none. Never empty. |
| `ConversationsRoute.UnreadCountExtremes` | app/api/messages/conversations/route.ts:58-60 | The unread count is 0 iff no message is unread for the user, and the full length iff every one is. |
| `ConversationsRoute.GroupByPartner` | app/api/messages/conversations/route.ts:26-63 | The loop over the map builds exactly Conversations, listed in order of first appearance. |
| `ConversationsRoute.Get` | app/api/messages/conversations/route.ts:6-73 | Returns 401 without a session. Otherwise the conversations come from the 100 newest messages of the user. |
| `ConversationsRoute.ConversationsWellFormed` | app/api/messages/conversations/route.ts:43-60 | Each conversation is non-empty and opens with its lastMessage. Its unread count is right, and it holds only messages with its partner. |
| `ConversationsRoute.PartnersDistinct` | app/api/messages/conversations/route.ts:31 | No partner has two conversations. |
| `ConversationsRoute.EveryMessageFiled` | app/api/messages/conversations/route.ts:28-55 | Every message is in the conversation with its partner. |
| `ConversationsRoute.ConversationsCoverMessages` | app/api/messages/conversations/route.ts:55-63 | The conversations' message lists add up to the number of messages. |
| `ConversationsRoute.GroupKeepsNewestFirst` | app/api/messages/conversations/route.ts:55 | A conversation keeps the input's newest-first order. |
| `ConversationsRoute.LastMessageIsNewest` | app/api/messages/conversations/route.ts:21-48 | In the route's result, lastMessage is the newest message of its conversation. |
| `Middleware.Subdomain` | middleware.ts:9-23 | Skipped hosts, hosts with fewer than three labels and reserved first labels yield nothing. Otherwise the result is the text before the first dot. |
| `Middleware.Handle` | middleware.ts:4-32 | A missing or skipped host, or one with fewer than two dots, passes through. A rewrite happens iff there is a creator subdomain, and the path becomes "/c/" + subdomain + path. |
| `Middleware.RewriteSplitsBack` | middleware.ts:27 | The subdomain and the original path can be read back out of the rewritten path. |
| `Auth.FindByEmail` | lib/auth.ts:21-23 | The first demo user with the email, or none. |
| `Auth.Authorize` | lib/auth.ts:14-37 | A missing field or a password other than "demo" gives nothing. A user comes back iff some demo user has the email, and it is a copy of that user. |
| `Auth.DemoUsersSignIn` | lib/auth.ts:20-33 | Every demo user signs in with its own email and "demo", getting its own record. |
| `Auth.Jwt` | lib/auth.ts:41-48 | With a user, the token receives its id, role and status. Without one, the token is returned unchanged. |
| `Auth.SessionCallback` | lib/auth.ts:49-56 | When the session has a user, that user receives the token's id, role and status. |
| `Auth.SignIn` | lib/auth.ts:14-56 | After a successful sign-in, the session carries that user's id, role and status. |
| `DemoData.GetDemoUser` | lib/demo-data.ts:279-282 | The user under the lower-cased role. Unknown roles give the fan user. |
| `DemoData.IsDemoMode` | lib/demo-data.ts:285-287 | Always true. |
| `DemoData.GetDemoUserIgnoresCase` | lib/demo-data.ts:280 | Any spelling of a role finds the same user as its lower-case form. |
| `DemoData.RoleRoundTrip` | lib/demo-data.ts:5-34 | Looking a demo user up by its own role finds that user. |
| `DemoData.DemoUsersListed` | lib/demo-data.ts:5-34 | The table and its listing of values hold the same users. |
| `DemoData.DemoUsersDistinct` | lib/demo-data.ts:5-34 | No two demo users share an email or an id. |
| `Strings.ParseIntOfIntToString` | lib/content-protection.ts:27-45 | parseInt reads back every integer that toString writes. |
| `Strings.ParseIntIgnoresTail` | lib/content-protection.ts:45 | parseInt of the digits of n followed by a tail that starts with a non-digit reads n. After a lone 0 the tail must not start with 'x' or 'X', which would switch to hexadecimal. |
| `Strings.Split` | middleware.ts:14 | One more part than separators. No part contains the separator. Joining the parts gives back the host. |
| `Strings.Contains` | middleware.ts:9 | True iff the word occurs at some position. |
| `Strings.ToLower` | lib/demo-data.ts:280 | Same length, with every character mapped by the ASCII lower-case map. |
| `Strings.ToLowerIdempotent` | lib/demo-data.ts:280 | Lower-casing twice is lower-casing once. |
| `Sorting.SortBy` | app/api/ai/churn-risk/route.ts:63 | The result is a permutation of the input, sorted by the key, and stable: the elements with any one key keep their input order. |
| `Sorting.InsertStable` | app/api/ai/churn-risk/route.ts:63 | Inserting into a sorted list puts the new element after every element with its key, and moves no element past another with the same key. |
| `Grouping.Select` | lib/ai.ts:219-220 | Each element satisfying the test, as many times as it occurs, and nothing else. |
| `Grouping.SelectAppend` | lib/ai.ts:219-220 | Selecting from a concatenation is selecting from each part, in order: the selection keeps input order. |
| `Grouping.GroupAppend` | app/api/messages/conversations/route.ts:26-52 | The group of a concatenation is the group of the first part followed by the group of the second. |
| `Grouping.Keys` | app/api/messages/conversations/route.ts:26-52 | The distinct keys, one for every element. |
| `Grouping.GroupNonEmpty` | app/api/messages/conversations/route.ts:31 | A key's group is non-empty iff some element has that key. |
| `Grouping.KeysPartitionTotal` | app/api/analytics/revenue/route.ts:44-54 | Summing the groups of all keys gives the total of all elements. |

## Left out

- User interface: pages, components, layout and styling are not part of this model.
- HMAC-SHA-256 is a parameter `mac(secret, message)`. It is deterministic, with nothing else known about it.
- `GenerateSignedUrl` takes a whole number of seconds for `expiresIn`. A fractional value, which gives an `expires` text with a decimal point, is not modelled.
- The URL of `generateSignedUrl` is modelled by its four query values. Percent-encoding and the base URL from the environment are not modelled.
- Money and scores are exact reals. Floating-point drift in `* 0.8`, the commission split and the percentages is not modelled.
- `Utils.FormatNumber` does not model the one-decimal text `toFixed(1)` produces: it gives the scaled value and the suffix.
- `formatCurrency` (Intl formatting) is not modelled.
- Concurrency is not modelled. Each handler runs alone, so the check-then-act gaps in the stream and unlock routes are not modelled.
- Days are whole 24-hour periods of epoch milliseconds. The revenue start date ignores daylight-saving shifts in `setDate`, and chart dates are day indices rather than ISO date strings.
- `Strings.ToLower` maps only ASCII letters. Unicode case mapping is not modelled.
- `DemoData.GetDemoUser` does not model keys inherited from the JavaScript object prototype, such as "constructor".
- The Stripe signature check (`constructWebhookEvent`) is an oracle: the event comes in already parsed, or as `None` when the check throws.
- The `catch` branches that answer 500 are reached in two places. One is a store update on a missing row, which throws. The other is the revenue route: an unparsable `days` makes the start date invalid, so the transaction query fails (`RevenueRoute.Get`). The model store raises no other errors.
- Conversations are values. A later push into the same record is modelled by rebuilding it, which leaves aliasing out.
- The middleware `config.matcher` is not modelled: the routing layer applies it before the middleware runs.
- NextAuth `pages`, `session` and `secret` settings are not modelled.
- The other demo tables (wallets, content, revenue chart, at-risk list) are display data and are not part of this model.
- Database sorts are stable, so rows with equal timestamps keep insertion order. The real database does not promise an order for such ties.
- The churn factor strings and the campaign texts are modelled as the datatypes `Factor` and `CampaignKind`, rendered by `FactorText`, `ActionText` and `MessageText`.
- The random engagement flag is the parameter `engaged`, indexed by call order.
- `Compliance.GenerateConsentForm` takes its two `Date.now()` readings as two parameters. Nothing relates them, just as in the source.
- FindByPaymentId returns the first matching row in insertion order. The source's `findFirst` has no `orderBy`, so the database may return any row with that payment id when there are several.
- TokensTextParses is stated for non-negative amounts only. Payment amounts in cents are never negative.
- TokensText writes the exact decimal value of cents/10. JavaScript's floating-point `amount * 10` can print digits beyond the first decimal, such as "11.000000000000002" for 110 cents, and that is not modelled.
- Randomised or stubbed helpers are not modelled: `checkGeofence`, `generateKYCLink`, `verifyKYCStatus`, `generate2257Record`, `validateConsentSignature`, `checkCopyrightViolation`, `generateAgeVerificationChallenge`, `moderateContent`, `getRecommendations`, `extractVibrantColor`, `detectVPN`, `getGeolocation` and `triggerHaptic`.
- Also not modelled: `generateWatermarkText`, `generateDRMKey`, `encryptContent` and `decryptContent` (date strings, random bytes and AES), and `generateSignedUrl` of lib/utils.ts (`btoa`).

=== FILE: ai.dfy ===
/**
 * The heuristics of lib/ai.ts: an additive churn score with thresholds, the retention
 * campaign chosen by risk level, and keyword-count sentiment with a clamped score.
 * The clock and the random engagement coin are parameters.
 */
module Ai {
  import opened Wrappers
  import opened Strings
  import opened Store
  import opened Grouping

  // ---------------------------------------------------------------------------
  // predictChurnRisk
  // ---------------------------------------------------------------------------

  datatype Risk = Low | Medium | High

  datatype ChurnAssessment = ChurnAssessment(risk: Risk, score: int, factors: seq<Factor>)

  const StaleLoginWeight: int := 30
  const NewSubscriberWeight: int := 20
  const LowEngagementWeight: int := 25
  const RenewalSoonWeight: int := 25

  /** `subscription.findUnique({ id })`: the row with that id, if any. */
  function FindSubscription(subscriptions: seq<Subscription>, id: string): (r: Option<Subscription>)
    ensures r.Some? ==> r.value in subscriptions && r.value.id == id
    ensures r.None? ==> forall i :: 0 <= i < |subscriptions| ==> subscriptions[i].id != id
  {
    if subscriptions == [] then None
    else if subscriptions[0].id == id then Some(subscriptions[0])
    else FindSubscription(subscriptions[1..], id)
  }

  /** Whole days from `from` to `to`, rounded down (`Math.floor` of the millisecond difference). */
  function WholeDays(from: Millis, to: Millis): (d: int)
    ensures d * MillisPerDay <= to - from < (d + 1) * MillisPerDay
  {
    (to - from) / MillisPerDay
  }

  /** The four signals the score adds up, each with the day count it was read from. */
  datatype ChurnSignals = ChurnSignals(daysSinceLogin: int, subscriptionAge: int, engaged: bool, daysUntilRenewal: int)

  /** A missing last login, or a missing expiry, counts as 30 days. */
  function SignalsOf(s: Subscription, now: Millis, engaged: bool): ChurnSignals {
    ChurnSignals(
      if s.fan.lastLogin.Some? then WholeDays(s.fan.lastLogin.value, now) else 30,
      WholeDays(s.createdAt, now),
      engaged,
      if s.expiresAt.Some? then WholeDays(now, s.expiresAt.value) else 30)
  }

  predicate StaleLogin(g: ChurnSignals) { g.daysSinceLogin > 7 }
  predicate NewSubscriber(g: ChurnSignals) { g.subscriptionAge < 7 }
  predicate LowEngagement(g: ChurnSignals) { !g.engaged }
  predicate RenewalSoon(g: ChurnSignals) { g.daysUntilRenewal < 3 }

  function Weight(triggered: bool, w: int): int { if triggered then w else 0 }

  /** The score is the sum of the weights of the triggered signals. */
  function Score(g: ChurnSignals): int {
    Weight(StaleLogin(g), StaleLoginWeight) + Weight(NewSubscriber(g), NewSubscriberWeight)
    + Weight(LowEngagement(g), LowEngagementWeight) + Weight(RenewalSoon(g), RenewalSoonWeight)
  }

  /** How many of the four signals are triggered. */
  function Triggered(g: ChurnSignals): (n: nat)
    ensures n <= 4
  {
    (if StaleLogin(g) then 1 else 0) + (if NewSubscriber(g) then 1 else 0)
    + (if LowEngagement(g) then 1 else 0) + (if RenewalSoon(g) then 1 else 0)
  }

  /**
   * A risk factor: the signal it reports and, for the two day-count signals, the count.
   * The string `predictChurnRisk` pushes for it is `FactorText`.
   */
  datatype Factor = NoRecentLogin(days: int) | NewSubscription | LowEngagementFactor | RenewalDue(days: int)

  /** The message `predictChurnRisk` pushes for a factor. */
  function FactorText(f: Factor): string {
    match f
    case NoRecentLogin(days) => "No login in " + IntToString(days) + " days"
    case NewSubscription => "New subscriber (< 7 days)"
    case LowEngagementFactor => "Low engagement with content"
    case RenewalDue(days) => "Renewal in " + IntToString(days) + " days"
  }

  /** One factor per triggered signal, in the order the signals are examined. */
  function Factors(g: ChurnSignals): seq<Factor> {
    (if StaleLogin(g) then [NoRecentLogin(g.daysSinceLogin)] else [])
    + (if NewSubscriber(g) then [NewSubscription] else [])
    + (if LowEngagement(g) then [LowEngagementFactor] else [])
    + (if RenewalSoon(g) then [RenewalDue(g.daysUntilRenewal)] else [])
  }

  /** 70 and above is high, 40 to 69 medium, below 40 low. */
  function RiskOf(score: int): (r: Risk)
    ensures r == High <==> score >= 70
    ensures r == Medium <==> 40 <= score < 70
    ensures r == Low <==> score < 40
  {
    if score >= 70 then High else if score >= 40 then Medium else Low
  }

  /**
   * What `predictChurnRisk` answers for a subscription id: an unknown subscription is
   * low risk with score 0 and no factors; a known one is scored from its signals.
   */
  function Assessment(subscriptions: seq<Subscription>, subscriptionId: string, now: Millis, engaged: bool)
    : (a: ChurnAssessment)
    ensures 0 <= a.score <= 100 && |a.factors| <= 4
    ensures a.risk == RiskOf(a.score)
    ensures FindSubscription(subscriptions, subscriptionId).None? ==> a == ChurnAssessment(Low, 0, [])
    ensures FindSubscription(subscriptions, subscriptionId).Some? ==>
              var g := SignalsOf(FindSubscription(subscriptions, subscriptionId).value, now, engaged);
              a.score == Score(g) && a.factors == Factors(g)
  {
    match FindSubscription(subscriptions, subscriptionId)
    case None => ChurnAssessment(Low, 0, [])
    case Some(s) =>
      var g := SignalsOf(s, now, engaged);
      ChurnAssessment(RiskOf(Score(g)), Score(g), Factors(g))
  }

  /** The assessment, accumulated one signal at a time. */
  method PredictChurnRisk(subscriptions: seq<Subscription>, subscriptionId: string, now: Millis, engaged: bool)
    returns (a: ChurnAssessment)
    ensures a == Assessment(subscriptions, subscriptionId, now, engaged)
  {
    var found := FindSubscription(subscriptions, subscriptionId);
    if found.None? {
      return ChurnAssessment(Low, 0, []);
    }
    var g := SignalsOf(found.value, now, engaged);
    var factors: seq<Factor> := [];
    var riskScore := 0;
    if g.daysSinceLogin > 7 {
      riskScore := riskScore + StaleLoginWeight;
      factors := factors + [NoRecentLogin(g.daysSinceLogin)];
    }
    assert factors == (if StaleLogin(g) then [NoRecentLogin(g.daysSinceLogin)] else []);
    if g.subscriptionAge < 7 {
      riskScore := riskScore + NewSubscriberWeight;
      factors := factors + [NewSubscription];
    }
    assert factors == (if StaleLogin(g) then [NoRecentLogin(g.daysSinceLogin)] else [])
                      + (if NewSubscriber(g) then [NewSubscription] else []);
    if !g.engaged {
      riskScore := riskScore + LowEngagementWeight;
      factors := factors + [LowEngagementFactor];
    }
    assert factors == (if StaleLogin(g) then [NoRecentLogin(g.daysSinceLogin)] else [])
                      + (if NewSubscriber(g) then [NewSubscription] else [])
                      + (if LowEngagement(g) then [LowEngagementFactor] else []);
    if g.daysUntilRenewal < 3 {
      riskScore := riskScore + RenewalSoonWeight;
      factors := factors + [RenewalDue(g.daysUntilRenewal)];
    }
    assert riskScore == Score(g) && factors == Factors(g);
    var risk: Risk;
    if riskScore >= 70 {
      risk := High;
    } else if riskScore >= 40 {
      risk := Medium;
    } else {
      risk := Low;
    }
    a := ChurnAssessment(risk, riskScore, factors);
  }

  /**
   * Every triggered signal contributes one factor, and with these weights the level is
   * the number of factors: three or more is high, exactly two medium, at most one low.
   */
  lemma {:induction false} RiskCountsFactors(g: ChurnSignals)
    ensures |Factors(g)| == Triggered(g)
    ensures 0 <= Score(g) <= 100
    ensures RiskOf(Score(g)) == High <==> Triggered(g) >= 3
    ensures RiskOf(Score(g)) == Medium <==> Triggered(g) == 2
    ensures RiskOf(Score(g)) == Low <==> Triggered(g) <= 1
  {
  }

  // ---------------------------------------------------------------------------
  // generateRetentionCampaign
  // ---------------------------------------------------------------------------

  /**
   * The three suggestions. A campaign's `action` and `message` strings are fixed by its
   * kind and are spelled out by `ActionText` and `MessageText`.
   */
  datatype CampaignKind = ExclusiveOffer | PersonalMessage | KeepEngaging

  datatype Campaign = Campaign(kind: CampaignKind, discount: Option<int>)

  const RetentionDiscount: int := 20

  /** The `action` field of a campaign of this kind. */
  function ActionText(k: CampaignKind): string {
    match k
    case ExclusiveOffer => "Send exclusive content + 20% discount"
    case PersonalMessage => "Send personalized message"
    case KeepEngaging => "Continue engagement"
  }

  /** The `message` field of a campaign of this kind. */
  function MessageText(k: CampaignKind): string {
    match k
    case ExclusiveOffer => "We miss you! Here's exclusive content and 20% off your next month"
    case PersonalMessage => "Check out this new content made just for fans like you!"
    case KeepEngaging => "Keep up the great content!"
  }

  /** The suggestion for a risk level; only high risk comes with the 20% discount. The factors are not read. */
  function GenerateRetentionCampaign(risk: Risk, factors: seq<Factor>): (c: Campaign)
    ensures c.discount.Some? <==> risk == High
    ensures c.discount.Some? ==> c.discount.value == RetentionDiscount
    ensures c.kind == ExclusiveOffer <==> risk == High
  {
    match risk
    case High => Campaign(ExclusiveOffer, Some(RetentionDiscount))
    case Medium => Campaign(PersonalMessage, None)
    case Low => Campaign(KeepEngaging, None)
  }

  /** The factors are passed but never read: only the level decides the campaign. */
  lemma CampaignIgnoresFactors(risk: Risk, f1: seq<Factor>, f2: seq<Factor>)
    ensures GenerateRetentionCampaign(risk, f1) == GenerateRetentionCampaign(risk, f2)
  {
  }

  /** Different levels get different action texts, so the action names the level. */
  lemma CampaignActionsDistinct(r1: Risk, r2: Risk, f1: seq<Factor>, f2: seq<Factor>)
    requires r1 != r2
    ensures ActionText(GenerateRetentionCampaign(r1, f1).kind) != ActionText(GenerateRetentionCampaign(r2, f2).kind)
  {
  }

  // ---------------------------------------------------------------------------
  // analyzeSentiment
  // ---------------------------------------------------------------------------

  datatype Sentiment = Positive | Neutral | Negative

  datatype SentimentResult = SentimentResult(sentiment: Sentiment, score: real, keywords: seq<string>)

  const PositiveWords: seq<string> := ["love", "amazing", "great", "awesome", "beautiful", "perfect"]
  const NegativeWords: seq<string> := ["hate", "bad", "terrible", "awful", "worst"]

  /** `words.filter(w => text.includes(w))`: the listed words that occur, in list order. */
  function Matching(words: seq<string>, text: string): (m: seq<string>)
    ensures |m| <= |words|
    ensures forall i :: 0 <= i < |m| ==> m[i] in words && Contains(text, m[i])
    ensures forall i :: 0 <= i < |words| && Contains(text, words[i]) ==> words[i] in m
    ensures forall w :: multiset(m)[w] == if Contains(text, w) then multiset(words)[w] else 0
  {
    Select(words, w => Contains(text, w))
  }

  /** Filtering a concatenation filters each part. */
  lemma {:induction false} MatchingAppend(a: seq<string>, b: seq<string>, text: string)
    ensures Matching(a + b, text) == Matching(a, text) + Matching(b, text)
  {
    SelectAppend(a, b, w => Contains(text, w));
  }

  /** `Math.max(0, Math.min(1, x))`. */
  function Clamp(x: real): (r: real)
    ensures 0.0 <= r <= 1.0
    ensures 0.0 <= x <= 1.0 ==> r == x
  {
    if x > 1.0 then 1.0 else if x < 0.0 then 0.0 else x
  }

  /**
   * The score for `pc` matched positive words and `nc` matched negative ones: 0.7 plus a
   * tenth per positive word when they outnumber the negative ones, 0.3 minus a tenth per
   * negative word in the opposite case, 0.5 on a tie, clamped to [0,1].
   */
  function SentimentScore(pc: nat, nc: nat): (score: real)
    ensures 0.0 <= score <= 1.0
    ensures pc > nc ==> score >= 0.8
    ensures nc > pc ==> score <= 0.2
    ensures pc == nc <==> score == 0.5
  {
    if pc > nc then Clamp(0.7 + pc as real * 0.1)
    else if nc > pc then Clamp(0.3 - nc as real * 0.1)
    else 0.5
  }

  /** The label and score for the given counts, with the matched words as keywords. */
  function Rate(pc: nat, nc: nat, keywords: seq<string>): (r: SentimentResult)
    ensures r.sentiment == Positive <==> pc > nc
    ensures r.sentiment == Negative <==> nc > pc
    ensures r.sentiment == Neutral <==> pc == nc
    ensures r.score == SentimentScore(pc, nc) && r.keywords == keywords
  {
    var sentiment := if pc > nc then Positive else if nc > pc then Negative else Neutral;
    SentimentResult(sentiment, SentimentScore(pc, nc), keywords)
  }

  function AnalyzeSentiment(text: string): (r: SentimentResult)
    ensures 0.0 <= r.score <= 1.0
    ensures var lower := ToLower(text);
            var pc := |Matching(PositiveWords, lower)|;
            var nc := |Matching(NegativeWords, lower)|;
            && (r.sentiment == Positive <==> pc > nc)
            && (r.sentiment == Negative <==> nc > pc)
            && (r.sentiment == Neutral <==> pc == nc)
            && r.score == SentimentScore(pc, nc)
            && r.keywords == Matching(PositiveWords, lower) + Matching(NegativeWords, lower)
  {
    var lower := ToLower(text);
    MatchingAppend(PositiveWords, NegativeWords, lower);
    Rate(|Matching(PositiveWords, lower)|, |Matching(NegativeWords, lower)|, Matching(PositiveWords + NegativeWords, lower))
  }

  /**
   * The score and the label tell the same story: above 0.5 (at least 0.8) exactly for
   * positive text, below 0.5 (at most 0.2) exactly for negative text.
   */
  lemma {:induction false} SentimentScoreMatchesLabel(text: string)
    ensures var r := AnalyzeSentiment(text);
            && (r.sentiment == Positive ==> r.score >= 0.8)
            && (r.sentiment == Negative ==> r.score <= 0.2)
            && (r.score > 0.5 <==> r.sentiment == Positive)
            && (r.score < 0.5 <==> r.sentiment == Negative)
  {
    var lower := ToLower(text);
    var pc := |Matching(PositiveWords, lower)|;
    var nc := |Matching(NegativeWords, lower)|;
    var r := AnalyzeSentiment(text);
    if pc > nc {
      assert 0.7 + pc as real * 0.1 >= 0.8;
    } else if nc > pc {
      assert 0.3 - nc as real * 0.1 <= 0.2;
    }
  }
}

=== FILE: auth.dfy ===
/**
 * The sign-in configuration of lib/auth.ts: the demo credential check `authorize`, and
 * the `jwt` and `session` callbacks that copy the user's id, role and status into the
 * token and from the token into the session.
 */
module Auth {
  import opened Wrappers
  import opened DemoData

  /** The submitted form; either field may be missing. */
  datatype Credentials = Credentials(email: Option<string>, password: Option<string>)

  /** The user object `authorize` returns. */
  datatype AuthUser = AuthUser(id: string, email: string, username: string, role: string, status: string)

  const DemoPassword: string := "demo"

  /** `!credentials?.email || !credentials?.password`: absent or empty. */
  predicate Missing(s: Option<string>) { s.None? || s.value == "" }

  /** `Object.values(DEMO_USERS).find(u => u.email === email)`: the first user with that email. */
  function FindByEmail(users: seq<DemoUser>, email: string): (r: Option<nat>)
    ensures r.Some? ==> r.value < |users| && users[r.value].email == email
    ensures r.Some? ==> forall j :: 0 <= j < r.value ==> users[j].email != email
    ensures r.None? ==> forall j :: 0 <= j < |users| ==> users[j].email != email
  {
    if users == [] then None
    else if users[0].email == email then Some(0)
    else match FindByEmail(users[1..], email)
      case None => None
      case Some(i) => Some(i + 1)
  }

  function Copy(u: DemoUser): AuthUser {
    AuthUser(u.id, u.email, u.username, u.role, u.status)
  }

  /**
   * A user comes back exactly when both fields are given, the password is "demo" and a
   * demo user has the given email; it carries that user's fields.
   */
  function Authorize(credentials: Option<Credentials>): (r: Option<AuthUser>)
    ensures credentials.None? || Missing(credentials.value.email) || Missing(credentials.value.password) ==> r.None?
    ensures credentials.Some? && credentials.value.password != Some(DemoPassword) ==> r.None?
    ensures r.Some? <==> && credentials.Some? && !Missing(credentials.value.email)
                         && credentials.value.password == Some(DemoPassword)
                         && exists i :: 0 <= i < |DemoUserList| && DemoUserList[i].email == credentials.value.email.value
    ensures r.Some? ==> exists i :: 0 <= i < |DemoUserList| && r.value == Copy(DemoUserList[i])
                                   && DemoUserList[i].email == credentials.value.email.value
  {
    if credentials.None? || Missing(credentials.value.email) || Missing(credentials.value.password) then None
    else if credentials.value.password.value != DemoPassword then None
    else match FindByEmail(DemoUserList, credentials.value.email.value)
      case None => None
      case Some(i) => Some(Copy(DemoUserList[i]))
  }

  /** Every demo user can sign in with its own email and the demo password. */
  lemma DemoUsersSignIn(k: string)
    requires k in DemoUsers
    ensures Authorize(Some(Credentials(Some(DemoUsers[k].email), Some(DemoPassword)))) == Some(Copy(DemoUsers[k]))
  {
    DemoUsersListed();
    DemoUsersDistinct();
    var u := DemoUsers[k];
    var i :| 0 <= i < |DemoUserList| && DemoUserList[i] == u;
    assert u.email != "";
    var r := FindByEmail(DemoUserList, u.email);
    assert r.Some?;
    assert DemoUserList[r.value] == u;
  }

  /** The JWT: the fields the callbacks write; absent until the first sign-in writes them. */
  class Token {
    var id: Option<string>
    var role: Option<string>
    var status: Option<string>

    constructor ()
      ensures id.None? && role.None? && status.None?
    {
      id, role, status := None, None, None;
    }
  }

  /** `session.user`: the fields the session callback writes (`token.id as string` keeps an absent value absent). */
  class SessionUserFields {
    var id: Option<string>
    var role: Option<string>
    var status: Option<string>

    constructor ()
      ensures id.None? && role.None? && status.None?
    {
      id, role, status := None, None, None;
    }
  }

  class Session {
    var user: SessionUserFields?

    constructor (user: SessionUserFields?)
      ensures this.user == user
    {
      this.user := user;
    }
  }

  /** The `jwt` callback: with a user, copy its id, role and status into the token; return the token. */
  method Jwt(token: Token, user: Option<AuthUser>) returns (result: Token)
    modifies token
    ensures result == token
    ensures user.Some? ==> token.id == Some(user.value.id) && token.role == Some(user.value.role)
                           && token.status == Some(user.value.status)
    ensures user.None? ==> unchanged(token)
  {
    if user.Some? {
      token.id := Some(user.value.id);
      token.role := Some(user.value.role);
      token.status := Some(user.value.status);
    }
    return token;
  }

  /** The `session` callback: when the session has a user, copy the token's id, role and status into it. */
  method SessionCallback(session: Session, token: Token) returns (result: Session)
    modifies session.user
    ensures result == session && session.user == old(session.user)
    ensures session.user != null ==> session.user.id == token.id && session.user.role == token.role
                                     && session.user.status == token.status
  {
    var user := session.user;
    if user != null {
      user.id := token.id;
      user.role := token.role;
      user.status := token.status;
    }
    return session;
  }

  /**
   * A sign-in from end to end: a demo user who signs in with the demo password ends up
   * with a session that carries that user's id, role and status.
   */
  method SignIn(credentials: Option<Credentials>, token: Token, session: Session) returns (user: Option<AuthUser>)
    requires session.user != null
    modifies token, session.user
    ensures user == Authorize(credentials)
    ensures user.Some? ==> session.user.id == Some(user.value.id) && session.user.role == Some(user.value.role)
                           && session.user.status == Some(user.value.status)
  {
    user := Authorize(credentials);
    var t := Jwt(token, user);
    var s := SessionCallback(session, t);
  }
}

=== FILE: churn_risk.dfy ===
/**
 * GET /api/ai/churn-risk: score every active subscription of the signed-in creator,
 * keep the high and medium risks, order them by score (highest first) and return the
 * first ten together with the counts.
 */
module ChurnRiskRoute {
  import opened Wrappers
  import opened Http
  import opened Store
  import opened Sorting
  import opened Grouping
  import opened Ai

  datatype AtRiskEntry = AtRiskEntry(
    subscriberId: string,
    username: string,
    risk: Risk,
    score: int,
    factors: seq<Factor>,
    suggestedAction: Campaign)

  datatype ChurnReport = ChurnReport(totalSubscribers: nat, atRiskCount: nat, atRiskSubscribers: seq<AtRiskEntry>)

  const TopCount: nat := 10

  /** `subscription.findMany({ creatorId, active: true })`, in table order. */
  function ActiveSubscriptions(subscriptions: seq<Subscription>, creatorProfileId: string): (r: seq<Subscription>)
    ensures |r| <= |subscriptions|
    ensures forall i :: 0 <= i < |r| ==> r[i] in subscriptions && r[i].active && r[i].creatorId == creatorProfileId
    ensures forall s :: s in subscriptions && s.active && s.creatorId == creatorProfileId ==> s in r
    ensures forall s :: multiset(r)[s] == if s.active && s.creatorId == creatorProfileId then multiset(subscriptions)[s] else 0
  {
    Select(subscriptions, (s: Subscription) => s.active && s.creatorId == creatorProfileId)
  }

  predicate AtRisk(r: Risk) { r == High || r == Medium }

  /** The entry pushed for subscription `s` with its assessment `a`, if `a` is at risk. */
  function EntryFor(s: Subscription, a: ChurnAssessment): (e: seq<AtRiskEntry>)
    ensures |e| <= 1
    ensures |e| == 1 <==> AtRisk(a.risk)
    ensures |e| == 1 ==> e[0].risk == a.risk && e[0].score == a.score && e[0].factors == a.factors
                         && e[0].subscriberId == s.fanId && e[0].username == s.fan.username
                         && e[0].suggestedAction == GenerateRetentionCampaign(a.risk, a.factors)
  {
    if AtRisk(a.risk) then
      [AtRiskEntry(s.fanId, s.fan.username, a.risk, a.score, a.factors, GenerateRetentionCampaign(a.risk, a.factors))]
    else []
  }

  /** The positions in `subs` whose assessment, with that position's engagement coin, is high or medium. */
  ghost function AtRiskPositions(table: seq<Subscription>, subs: seq<Subscription>, engaged: nat -> bool, now: Millis)
    : set<nat>
  {
    set i: nat | i < |subs| && AtRisk(Assessment(table, subs[i].id, now, engaged(i)).risk)
  }

  /** One more subscription adds its position exactly when it is at risk. */
  lemma AtRiskPositionsSnoc(table: seq<Subscription>, subs: seq<Subscription>, engaged: nat -> bool, now: Millis)
    requires subs != []
    ensures var n := |subs| - 1;
            |AtRiskPositions(table, subs, engaged, now)|
            == |AtRiskPositions(table, subs[..n], engaged, now)|
               + (if AtRisk(Assessment(table, subs[n].id, now, engaged(n)).risk) then 1 else 0)
  {
    var n := |subs| - 1;
    var before := AtRiskPositions(table, subs[..n], engaged, now);
    var after := AtRiskPositions(table, subs, engaged, now);
    var added: set<nat> := if AtRisk(Assessment(table, subs[n].id, now, engaged(n)).risk) then {n} else {};
    forall i: nat
      ensures i in after <==> i in before + added
    {
      if i < n {
        assert subs[..n][i] == subs[i];
      }
    }
    assert after == before + added;
    assert n !in before;
  }

  /**
   * The at-risk list the loop builds over `subs`, in subscription order; the i-th
   * assessment uses the i-th engagement coin. Every at-risk subscription has its entry,
   * and there is one entry per at-risk subscription.
   */
  function AtRiskList(table: seq<Subscription>, subs: seq<Subscription>, engaged: nat -> bool, now: Millis)
    : (r: seq<AtRiskEntry>)
    ensures |r| <= |subs|
    ensures forall k :: 0 <= k < |r| ==> AtRisk(r[k].risk) && 40 <= r[k].score <= 100
    ensures forall k :: 0 <= k < |r| ==> r[k].suggestedAction == GenerateRetentionCampaign(r[k].risk, r[k].factors)
    ensures forall i :: 0 <= i < |subs| && AtRisk(Assessment(table, subs[i].id, now, engaged(i)).risk) ==>
              EntryFor(subs[i], Assessment(table, subs[i].id, now, engaged(i)))[0] in r
    ensures |r| == |AtRiskPositions(table, subs, engaged, now)|
  {
    if subs == [] then
      assert AtRiskPositions(table, subs, engaged, now) == {};
      []
    else
      var n := |subs| - 1;
      var before := AtRiskList(table, subs[..n], engaged, now);
      AtRiskPositionsSnoc(table, subs, engaged, now);
      CompleteSnoc(table, subs, engaged, now, before);
      EntriesSnoc(before, subs[n], Assessment(table, subs[n].id, now, engaged(n)));
      before + EntryFor(subs[n], Assessment(table, subs[n].id, now, engaged(n)))
  }

  /** Appending the entry of one more assessment keeps every entry at risk, scored and with its campaign. */
  lemma EntriesSnoc(before: seq<AtRiskEntry>, s: Subscription, a: ChurnAssessment)
    requires 0 <= a.score <= 100 && a.risk == RiskOf(a.score)
    requires forall k :: 0 <= k < |before| ==> AtRisk(before[k].risk) && 40 <= before[k].score <= 100
    requires forall k :: 0 <= k < |before| ==> before[k].suggestedAction == GenerateRetentionCampaign(before[k].risk, before[k].factors)
    ensures var after := before + EntryFor(s, a);
            && (forall k :: 0 <= k < |after| ==> AtRisk(after[k].risk) && 40 <= after[k].score <= 100)
            && (forall k :: 0 <= k < |after| ==> after[k].suggestedAction == GenerateRetentionCampaign(after[k].risk, after[k].factors))
  {
  }

  /** Completeness carries over from the first `n` subscriptions to all `n + 1`. */
  lemma CompleteSnoc(table: seq<Subscription>, subs: seq<Subscription>, engaged: nat -> bool, now: Millis,
                     before: seq<AtRiskEntry>)
    requires subs != []
    requires var init := subs[..|subs| - 1];
             forall i :: 0 <= i < |init| && AtRisk(Assessment(table, init[i].id, now, engaged(i)).risk) ==>
               EntryFor(init[i], Assessment(table, init[i].id, now, engaged(i)))[0] in before
    ensures var n := |subs| - 1;
            var after := before + EntryFor(subs[n], Assessment(table, subs[n].id, now, engaged(n)));
            forall i :: 0 <= i < |subs| && AtRisk(Assessment(table, subs[i].id, now, engaged(i)).risk) ==>
              EntryFor(subs[i], Assessment(table, subs[i].id, now, engaged(i)))[0] in after
  {
    var n := |subs| - 1;
    var init := subs[..n];
    assert forall i :: 0 <= i < n ==> init[i] == subs[i];
  }

  /** After `i` turns the loop holds the at-risk list of the first `i` subscriptions. */
  ghost predicate Built(table: seq<Subscription>, subs: seq<Subscription>, i: nat, engaged: nat -> bool,
                        now: Millis, atRisk: seq<AtRiskEntry>)
    requires i <= |subs|
  {
    atRisk == AtRiskList(table, subs[..i], engaged, now)
  }

  /** One turn of the loop: appending the entry for the next subscription extends the list by one subscription. */
  lemma AtRiskListStep(table: seq<Subscription>, subs: seq<Subscription>, i: nat, engaged: nat -> bool, now: Millis,
                       a: ChurnAssessment, before: seq<AtRiskEntry>, after: seq<AtRiskEntry>)
    requires i < |subs|
    requires Built(table, subs, i, engaged, now, before)
    requires a == Assessment(table, subs[i].id, now, engaged(i))
    requires after == before + EntryFor(subs[i], a)
    ensures Built(table, subs, i + 1, engaged, now, after)
  {
    var p := subs[..i + 1];
    assert p[..i] == subs[..i] && p[i] == subs[i];
    AtRiskListSnoc(table, p, engaged, now);
  }

  lemma AtRiskListSnoc(table: seq<Subscription>, p: seq<Subscription>, engaged: nat -> bool, now: Millis)
    requires p != []
    ensures var n := |p| - 1;
            AtRiskList(table, p, engaged, now)
            == AtRiskList(table, p[..n], engaged, now) + EntryFor(p[n], Assessment(table, p[n].id, now, engaged(n)))
  {
  }

  /** Sorting key: descending score. */
  function NegScore(e: AtRiskEntry): int { -e.score }

  function Min(a: nat, b: nat): nat { if a < b then a else b }

  /** The `for` loop: assess each subscription in turn and push the high and medium risks. */
  method CollectAtRisk(table: seq<Subscription>, subs: seq<Subscription>, engaged: nat -> bool, now: Millis)
    returns (atRisk: seq<AtRiskEntry>)
    ensures atRisk == AtRiskList(table, subs, engaged, now)
  {
    atRisk := [];
    var i := 0;
    while i < |subs|
      invariant 0 <= i <= |subs|
      invariant Built(table, subs, i, engaged, now, atRisk)
    {
      var subscription := subs[i];
      var a := PredictChurnRisk(table, subscription.id, now, engaged(i));
      ghost var before := atRisk;
      if a.risk == High || a.risk == Medium {
        var campaign := GenerateRetentionCampaign(a.risk, a.factors);
        atRisk := atRisk + [AtRiskEntry(subscription.fanId, subscription.fan.username, a.risk, a.score, a.factors, campaign)];
      }
      AtRiskListStep(table, subs, i, engaged, now, a, before, atRisk);
      i := i + 1;
    }
    assert subs[..i] == subs;
  }

  method Get(db: Database, session: Option<SessionUser>, engaged: nat -> bool, now: Millis)
    returns (r: Response<ChurnReport>)
    ensures session.None? || session.value.role != "CREATOR" ==> r == Error(401, "Unauthorized")
    ensures session.Some? && session.value.role == "CREATOR" && session.value.id !in db.creatorProfiles ==>
              r == Error(404, "Creator profile not found")
    ensures r.Ok? <==> session.Some? && session.value.role == "CREATOR" && session.value.id in db.creatorProfiles
    ensures r.Ok? ==>
              var subs := ActiveSubscriptions(db.subscriptions, db.creatorProfiles[session.value.id]);
              var atRisk := AtRiskList(db.subscriptions, subs, engaged, now);
              var sorted := SortBy(atRisk, NegScore);
              && r.body.totalSubscribers == |subs|
              && r.body.atRiskCount == |atRisk|
              && r.body.atRiskSubscribers == sorted[..Min(TopCount, |sorted|)]
    ensures r.Ok? ==>
              var out := r.body.atRiskSubscribers;
              && |out| <= TopCount
              && (forall i, j :: 0 <= i < j < |out| ==> out[i].score >= out[j].score)
              && (forall k :: 0 <= k < |out| ==> AtRisk(out[k].risk))
  {
    if session.None? || session.value.role != "CREATOR" {
      return Error(401, "Unauthorized");
    }
    if session.value.id !in db.creatorProfiles {
      return Error(404, "Creator profile not found");
    }
    var profileId := db.creatorProfiles[session.value.id];
    var table := db.subscriptions;
    var subs := ActiveSubscriptions(table, profileId);
    var atRisk := CollectAtRisk(table, subs, engaged, now);
    var sorted := SortBy(atRisk, NegScore);
    var top := sorted[..Min(TopCount, |sorted|)];
    TopIsOrderedAtRisk(atRisk);
    r := Ok(ChurnReport(|subs|, |atRisk|, top));
  }

  /** The cut keeps the order and only at-risk entries. */
  lemma TopIsOrderedAtRisk(atRisk: seq<AtRiskEntry>)
    requires forall k :: 0 <= k < |atRisk| ==> AtRisk(atRisk[k].risk)
    ensures var sorted := SortBy(atRisk, NegScore);
            var top := sorted[..Min(TopCount, |sorted|)];
            && (forall i, j :: 0 <= i < j < |top| ==> top[i].score >= top[j].score)
            && (forall k :: 0 <= k < |top| ==> AtRisk(top[k].risk))
  {
    var sorted := SortBy(atRisk, NegScore);
    forall k | 0 <= k < |sorted|
      ensures AtRisk(sorted[k].risk)
    {
      assert sorted[k] in multiset(atRisk);
    }
  }

  /**
   * The first ten are the ten highest: every at-risk entry left out of the response
   * scores no more than any entry in it.
   */
  lemma TopDominates(atRisk: seq<AtRiskEntry>)
    ensures var sorted := SortBy(atRisk, NegScore);
            var top := sorted[..Min(TopCount, |sorted|)];
            forall j, k :: |top| <= j < |sorted| && 0 <= k < |top| ==> sorted[j].score <= top[k].score
  {
  }
}

=== FILE: compliance.dfy ===
/**
 * The age check, consent-form descriptor and DMCA takedown of lib/compliance.ts.
 */
module Compliance {
  import opened Wrappers
  import opened Strings
  import opened Store
  import Utils
  import ContentProtection

  // ---------------------------------------------------------------------------
  // isValidAge(dateOfBirth, minimumAge = 18)
  // ---------------------------------------------------------------------------

  const DefaultMinimumAge: int := 18

  /** Whole years from `birth` to `today`: the year difference, less one before the birthday. */
  function Age(today: Utils.CalendarDate, birth: Utils.CalendarDate): (age: int)
    ensures Utils.OnOrBefore(Utils.Anniversary(birth, age), today)
    ensures !Utils.OnOrBefore(Utils.Anniversary(birth, age + 1), today)
  {
    var age := today.year - birth.year;
    var monthDiff := today.month - birth.month;
    if monthDiff < 0 || (monthDiff == 0 && today.day < birth.day) then age - 1 else age
  }

  /** Old enough iff the `minimumAge`-th birthday is on or before today (a birthday today counts). */
  function IsValidAge(today: Utils.CalendarDate, birth: Utils.CalendarDate, minimumAge: int): (valid: bool)
    ensures valid <==> Utils.OnOrBefore(Utils.Anniversary(birth, minimumAge), today)
  {
    Age(today, birth) >= minimumAge
  }

  /** The check of lib/utils.ts and this one at the default age answer alike on every input. */
  lemma UtilsAgreesAtDefault(today: Utils.CalendarDate, birth: Utils.CalendarDate)
    ensures Utils.IsValidAge(today, birth) == IsValidAge(today, birth, DefaultMinimumAge)
  {
  }

  /** Passing a stricter minimum passes every laxer one. */
  lemma ValidAgeMonotone(today: Utils.CalendarDate, birth: Utils.CalendarDate, m: int, m': int)
    requires m' <= m && IsValidAge(today, birth, m)
    ensures IsValidAge(today, birth, m')
  {
  }

  // ---------------------------------------------------------------------------
  // generateConsentForm
  // ---------------------------------------------------------------------------

  const ConsentFormValidity: int := 7 * MillisPerDay
  const ConsentFormBase: string := "https://forms.goodtimez.com/consent/"
  const ConsentIdPrefix: string := "consent_"

  datatype ConsentForm = ConsentForm(formId: string, formUrl: string, expiresAt: Millis)

  /**
   * The form id is the first clock reading; the URL ends with it; the form expires seven
   * days after the second reading. The source reads `Date.now()` once for each, so the two
   * are separate parameters and nothing ties them to each other.
   */
  function GenerateConsentForm(idClock: Millis, expiryClock: Millis): (f: ConsentForm)
    ensures StartsWith(f.formId, ConsentIdPrefix)
    ensures ParseInt(f.formId[|ConsentIdPrefix|..]) == Some(idClock)
    ensures StartsWith(f.formUrl, ConsentFormBase) && EndsWith(f.formUrl, f.formId)
    ensures f.expiresAt - expiryClock == 7 * 24 * 60 * 60 * 1000
  {
    var formId := ConsentIdPrefix + IntToString(idClock);
    assert formId[|ConsentIdPrefix|..] == IntToString(idClock);
    ParseIntOfIntToString(idClock);
    var formUrl := ConsentFormBase + formId;
    assert formUrl[..|ConsentFormBase|] == ConsentFormBase;
    assert formUrl[|formUrl| - |formId|..] == formId;
    ConsentForm(formId, formUrl, expiryClock + ConsentFormValidity)
  }

  // ---------------------------------------------------------------------------
  // processDMCATakedown
  // ---------------------------------------------------------------------------

  datatype TakedownResult = TakedownResult(success: bool, takedownId: string)

  /**
   * Records a PENDING takedown (with the id the store assigns), then makes the content
   * PRIVATE. When the content does not exist the update throws: the record stays and
   * the caller gets no result.
   */
  method ProcessDmcaTakedown(db: Database, contentId: string, reportedUrl: string, reportedBy: string,
                             takedownId: string) returns (r: Option<TakedownResult>)
    modifies db
    ensures db.takedowns == old(db.takedowns) + [Takedown(takedownId, contentId, reportedUrl, reportedBy, TAKEDOWN_PENDING)]
    ensures contentId in old(db.contents) ==>
              && db.contents == old(db.contents)[contentId := old(db.contents)[contentId].(visibility := PRIVATE)]
              && r == Some(TakedownResult(true, takedownId))
    ensures contentId !in old(db.contents) ==> db.contents == old(db.contents) && r.None?
    ensures unchanged(db`subscriptions, db`purchases, db`wallets, db`transactions)
    ensures unchanged(db`users, db`messages, db`creatorProfiles)
  {
    db.takedowns := db.takedowns + [Takedown(takedownId, contentId, reportedUrl, reportedBy, TAKEDOWN_PENDING)];
    if contentId !in db.contents {
      return None;
    }
    db.contents := db.contents[contentId := db.contents[contentId].(visibility := PRIVATE)];
    r := Some(TakedownResult(true, takedownId));
  }

  /**
   * After a takedown only the creator still sees the content: everybody else is denied
   * with "Access denied", whatever their subscriptions or purchases.
   */
  lemma TakedownHidesContent(contents: map<string, Content>, subscriptions: seq<Subscription>,
                             purchases: seq<Purchase>, contentId: string, userId: string, now: Millis)
    requires contentId in contents
    ensures var hidden := contents[contentId := contents[contentId].(visibility := PRIVATE)];
            var access := ContentProtection.CheckContentAccess(hidden, subscriptions, purchases, userId, contentId, now);
            && (userId == contents[contentId].creatorId ==> access == ContentProtection.Granted)
            && (userId != contents[contentId].creatorId ==> access == ContentProtection.Denied("Access denied"))
  {
  }
}

=== FILE: content_protection.dfy ===
/**
 * Signed, expiring content URLs and the entitlement decision for one (user, content)
 * pair, plus the view counters a granted stream bumps.
 */
module ContentProtection {
  import opened Wrappers
  import opened Strings
  import opened Store

  /** HMAC-SHA-256 (hex digest) of a message under a secret: deterministic, otherwise unknown. */
  type Mac = (string, string) -> string

  const FallbackSecret: string := "fallback-secret"

  /** Lifetime of a signed URL when the caller gives none, in seconds. */
  const DefaultExpiresIn: int := 3600

  /** `process.env.NEXTAUTH_SECRET || "fallback-secret"`: an unset or empty variable falls back. */
  function SigningSecret(env: Option<string>): (secret: string)
    ensures secret != ""
    ensures env.Some? && env.value != "" ==> secret == env.value
    ensures env.None? || env.value == "" ==> secret == FallbackSecret
  {
    if env.Some? && env.value != "" then env.value else FallbackSecret
  }

  /** The signed message: the three fields joined by ':' with no escaping. */
  function SignedMessage(contentId: string, userId: string, expiresAt: string): string {
    contentId + ":" + userId + ":" + expiresAt
  }

  /** The query parameters of a signed stream URL: id, user, expires, signature. */
  datatype SignedUrl = SignedUrl(contentId: string, userId: string, expires: string, signature: string)

  /**
   * generateSignedUrl: the URL expires `expiresIn` seconds after `now` (milliseconds), and
   * its signature is the MAC of the joined fields, with the expiry written in decimal.
   */
  function GenerateSignedUrl(mac: Mac, secret: string, contentId: string, userId: string,
                             expiresIn: int, now: Millis): (url: SignedUrl)
    ensures url.contentId == contentId && url.userId == userId
    ensures ParseInt(url.expires) == Some(now + expiresIn * 1000)
    ensures url.signature == mac(secret, SignedMessage(contentId, userId, url.expires))
  {
    var expiresAt := now + expiresIn * 1000;
    ParseIntOfIntToString(expiresAt);
    var expires := IntToString(expiresAt);
    SignedUrl(contentId, userId, expires, mac(secret, SignedMessage(contentId, userId, expires)))
  }

  /**
   * verifySignedUrl: false once `now` is past the expiry that parseInt reads from
   * `expiresAt`; otherwise true exactly when the signature is the MAC of the joined raw
   * fields. When parseInt yields NaN the comparison with `now` is false, so only the
   * signature is checked.
   */
  function VerifySignedUrl(mac: Mac, secret: string, contentId: string, userId: string,
                           expiresAt: string, signature: string, now: Millis): (valid: bool)
    ensures valid ==> signature == mac(secret, SignedMessage(contentId, userId, expiresAt))
    ensures ParseInt(expiresAt).Some? && now > ParseInt(expiresAt).value ==> !valid
    ensures ParseInt(expiresAt).Some? && now <= ParseInt(expiresAt).value ==>
              (valid <==> signature == mac(secret, SignedMessage(contentId, userId, expiresAt)))
    ensures ParseInt(expiresAt).None? ==>
              (valid <==> signature == mac(secret, SignedMessage(contentId, userId, expiresAt)))
  {
    var expiry := ParseInt(expiresAt);
    if expiry.Some? && now > expiry.value then false
    else signature == mac(secret, SignedMessage(contentId, userId, expiresAt))
  }

  /** A freshly generated URL verifies at every instant up to its expiry, and at no later one. */
  lemma VerifyGenerated(mac: Mac, secret: string, contentId: string, userId: string,
                        expiresIn: int, now: Millis, later: Millis)
    ensures var url := GenerateSignedUrl(mac, secret, contentId, userId, expiresIn, now);
            (VerifySignedUrl(mac, secret, url.contentId, url.userId, url.expires, url.signature, later)
             <==> later <= now + expiresIn * 1000)
  {
  }

  /**
   * The ':' join is ambiguous: moving a ':' between the content id and the user id leaves
   * the signed message unchanged, so a URL signed for one pair verifies for the other.
   */
  lemma SeparatorAmbiguity(mac: Mac, secret: string, a: string, b: string, c: string,
                           expiresAt: string, signature: string, now: Millis)
    ensures SignedMessage(a + ":" + b, c, expiresAt) == SignedMessage(a, b + ":" + c, expiresAt)
    ensures VerifySignedUrl(mac, secret, a + ":" + b, c, expiresAt, signature, now)
         == VerifySignedUrl(mac, secret, a, b + ":" + c, expiresAt, signature, now)
  {
    assert SignedMessage(a + ":" + b, c, expiresAt) == SignedMessage(a, b + ":" + c, expiresAt);
  }

  /**
   * The expiry check reads only the leading number of `expires`, while the signature
   * covers the whole string: "<n><tail>" expires at n but must carry the MAC of the
   * message that ends in "<n><tail>".
   */
  lemma ExpiryReadsNumericPrefix(mac: Mac, secret: string, contentId: string, userId: string,
                                 n: nat, tail: string, signature: string, now: Millis)
    requires tail != [] && !IsDigit(tail[0]) && (n == 0 ==> tail[0] != 'x' && tail[0] != 'X')
    ensures VerifySignedUrl(mac, secret, contentId, userId, NatToString(n) + tail, signature, now)
            <==> (now <= n
                  && signature == mac(secret, SignedMessage(contentId, userId, NatToString(n) + tail)))
  {
    ParseIntIgnoresTail(n, tail);
  }

  // ---------------------------------------------------------------------------
  // checkContentAccess
  // ---------------------------------------------------------------------------

  /** `{hasAccess, reason?}`: a grant carries no reason. */
  datatype AccessResult = AccessResult(hasAccess: bool, reason: Option<string>)

  const Granted: AccessResult := AccessResult(true, None)

  function Denied(reason: string): AccessResult { AccessResult(false, Some(reason)) }

  /** The subscription filter: this fan, this creator, active, expiring strictly after now. */
  predicate ActiveSubscription(s: Subscription, fanId: string, creatorId: string, now: Millis) {
    s.fanId == fanId && s.creatorId == creatorId && s.active
    && s.expiresAt.Some? && s.expiresAt.value > now
  }

  function FindActiveSubscription(subscriptions: seq<Subscription>, fanId: string,
                                  creatorId: string, now: Millis): (r: Option<Subscription>)
    ensures r.Some? <==> exists i :: 0 <= i < |subscriptions|
                            && ActiveSubscription(subscriptions[i], fanId, creatorId, now)
    ensures r.Some? ==> ActiveSubscription(r.value, fanId, creatorId, now)
  {
    if subscriptions == [] then None
    else if ActiveSubscription(subscriptions[0], fanId, creatorId, now) then Some(subscriptions[0])
    else
      var r := FindActiveSubscription(subscriptions[1..], fanId, creatorId, now);
      assert forall i :: 1 <= i < |subscriptions| ==> subscriptions[i] == subscriptions[1..][i - 1];
      r
  }

  /** The purchase filter: this fan, this content item, unlocked. */
  predicate UnlockedPurchase(p: Purchase, fanId: string, contentId: string) {
    p.fanId == fanId && p.contentId == contentId && p.unlocked
  }

  /** `findFirst`: the earliest unlocked purchase of `contentId` by `fanId`, by its index. */
  function FindUnlockedPurchase(purchases: seq<Purchase>, fanId: string, contentId: string): (r: Option<nat>)
    ensures r.Some? ==> r.value < |purchases| && UnlockedPurchase(purchases[r.value], fanId, contentId)
    ensures r.Some? ==> forall j :: 0 <= j < r.value ==> !UnlockedPurchase(purchases[j], fanId, contentId)
    ensures r.None? ==> forall j :: 0 <= j < |purchases| ==> !UnlockedPurchase(purchases[j], fanId, contentId)
  {
    if purchases == [] then None
    else if UnlockedPurchase(purchases[0], fanId, contentId) then Some(0)
    else match FindUnlockedPurchase(purchases[1..], fanId, contentId)
      case Some(i) => Some(i + 1)
      case None => None
  }

  /** `content.viewLimit && purchase.viewCount >= content.viewLimit`: a null or zero limit never binds. */
  predicate ViewLimitReached(c: Content, p: Purchase) {
    c.viewLimit.Some? && c.viewLimit.value != 0 && p.viewCount >= c.viewLimit.value
  }

  /**
   * checkContentAccess, first match wins: a missing item is "Content not found"; the
   * creator always gets in; PUBLIC lets anyone in; SUBSCRIBERS needs an active
   * subscription; PPV needs an unlocked purchase whose view count is under a set limit;
   * anything else (PRIVATE) is "Access denied". Every denial carries a reason.
   */
  function CheckContentAccess(contents: map<string, Content>, subscriptions: seq<Subscription>,
                              purchases: seq<Purchase>, userId: string, contentId: string,
                              now: Millis): (r: AccessResult)
    ensures r.hasAccess <==> r.reason.None?
    ensures !r.hasAccess ==> r.reason.value in {"Content not found", "Subscription required",
                                                "Purchase required", "View limit reached", "Access denied"}
    ensures contentId !in contents ==> r == Denied("Content not found")
    ensures contentId in contents && contents[contentId].creatorId == userId ==> r == Granted
    ensures contentId in contents && contents[contentId].creatorId != userId ==>
      var c := contents[contentId];
      match c.visibility
      case PUBLIC => r == Granted
      case SUBSCRIBERS =>
        r == if exists i :: 0 <= i < |subscriptions|
                 && ActiveSubscription(subscriptions[i], userId, c.creatorId, now)
             then Granted else Denied("Subscription required")
      case PPV =>
        r == if forall j :: 0 <= j < |purchases| ==> !UnlockedPurchase(purchases[j], userId, contentId)
             then Denied("Purchase required")
             else if ViewLimitReached(c, purchases[FindUnlockedPurchase(purchases, userId, contentId).value])
             then Denied("View limit reached")
             else Granted
      case PRIVATE => r == Denied("Access denied")
  {
    if contentId !in contents then Denied("Content not found")
    else
      var c := contents[contentId];
      if c.creatorId == userId then Granted
      else if c.visibility == PUBLIC then Granted
      else if c.visibility == SUBSCRIBERS then
        if FindActiveSubscription(subscriptions, userId, c.creatorId, now).Some? then Granted
        else Denied("Subscription required")
      else if c.visibility == PPV then
        match FindUnlockedPurchase(purchases, userId, contentId)
        case Some(i) => if ViewLimitReached(c, purchases[i]) then Denied("View limit reached") else Granted
        case None => Denied("Purchase required")
      else Denied("Access denied")
  }

  // ---------------------------------------------------------------------------
  // trackContentView
  // ---------------------------------------------------------------------------

  predicate PurchaseOf(p: Purchase, fanId: string, contentId: string) {
    p.fanId == fanId && p.contentId == contentId
  }

  /** `purchase.updateMany({fanId, contentId}, viewCount += 1)`: locked or not, every match counts a view. */
  function CountView(purchases: seq<Purchase>, fanId: string, contentId: string): (r: seq<Purchase>)
    ensures |r| == |purchases|
    ensures forall i :: 0 <= i < |purchases| ==>
              r[i] == if PurchaseOf(purchases[i], fanId, contentId)
                      then purchases[i].(viewCount := purchases[i].viewCount + 1)
                      else purchases[i]
  {
    if purchases == [] then []
    else
      var p := purchases[0];
      [if PurchaseOf(p, fanId, contentId) then p.(viewCount := p.viewCount + 1) else p]
        + CountView(purchases[1..], fanId, contentId)
  }

  /**
   * trackContentView: one more view on every purchase row of (user, content), then one
   * more on the item's total. Updating a missing item throws after the purchase rows
   * have been updated; `ok` is false then.
   */
  method TrackContentView(db: Database, userId: string, contentId: string) returns (ok: bool)
    modifies db
    ensures db.purchases == CountView(old(db.purchases), userId, contentId)
    ensures ok <==> contentId in old(db.contents)
    ensures ok ==> db.contents == old(db.contents)[contentId :=
              old(db.contents)[contentId].(currentViews := old(db.contents)[contentId].currentViews + 1)]
    ensures !ok ==> db.contents == old(db.contents)
    ensures unchanged(db`subscriptions, db`wallets, db`transactions, db`users)
    ensures unchanged(db`messages, db`takedowns, db`creatorProfiles)
  {
    db.purchases := CountView(db.purchases, userId, contentId);
    if contentId !in db.contents {
      return false;
    }
    var c := db.contents[contentId];
    db.contents := db.contents[contentId := c.(currentViews := c.currentViews + 1)];
    return true;
  }

  /**
   * A tracked view is charged to the purchase the view-limit check reads: the first
   * unlocked purchase stays first and its count goes up by exactly one.
   */
  lemma {:induction false} CountViewAdvancesCheckedPurchase(purchases: seq<Purchase>, fanId: string, contentId: string)
    requires FindUnlockedPurchase(purchases, fanId, contentId).Some?
    ensures var i := FindUnlockedPurchase(purchases, fanId, contentId).value;
            var after := CountView(purchases, fanId, contentId);
            FindUnlockedPurchase(after, fanId, contentId) == Some(i)
            && after[i] == purchases[i].(viewCount := purchases[i].viewCount + 1)
  {
    if !UnlockedPurchase(purchases[0], fanId, contentId) {
      CountViewAdvancesCheckedPurchase(purchases[1..], fanId, contentId);
      var after := CountView(purchases, fanId, contentId);
      assert after[1..] == CountView(purchases[1..], fanId, contentId);
    }
  }

  /**
   * The view limit binds: when the checked purchase is one view short of a set limit,
   * a granted PPV view followed by its tracking leaves the fan at "View limit reached".
   */
  lemma LastAllowedView(contents: map<string, Content>, subscriptions: seq<Subscription>,
                        purchases: seq<Purchase>, userId: string, contentId: string, now: Millis)
    requires contentId in contents
    requires contents[contentId].creatorId != userId && contents[contentId].visibility == PPV
    requires contents[contentId].viewLimit.Some? && contents[contentId].viewLimit.value != 0
    requires FindUnlockedPurchase(purchases, userId, contentId).Some?
    requires purchases[FindUnlockedPurchase(purchases, userId, contentId).value].viewCount + 1
             == contents[contentId].viewLimit.value
    ensures CheckContentAccess(contents, subscriptions, purchases, userId, contentId, now) == Granted
    ensures CheckContentAccess(contents, subscriptions, CountView(purchases, userId, contentId),
                               userId, contentId, now) == Denied("View limit reached")
  {
    CountViewAdvancesCheckedPurchase(purchases, userId, contentId);
  }
}

=== FILE: content_stream.dfy ===
/**
 * GET /api/content/stream: a chain of guards, each answering with an error and
 * changing nothing, and on success one view tracked and the delivery details returned.
 */
module ContentStreamRoute {
  import opened Wrappers
  import opened Http
  import opened Store
  import opened ContentProtection

  /** The query parameters `id`, `user`, `expires` and `signature`, each possibly absent. */
  datatype StreamParams = StreamParams(
    id: Option<string>, user: Option<string>, expires: Option<string>, signature: Option<string>)

  /** The success body: where to fetch the bytes and how they are protected. */
  datatype StreamBody = StreamBody(url: string, watermark: bool, drm: bool)

  /** A query value is truthy when present and non-empty. */
  predicate Present(v: Option<string>) { v.Some? && v.value != "" }

  predicate AllPresent(params: StreamParams) {
    Present(params.id) && Present(params.user) && Present(params.expires) && Present(params.signature)
  }

  /** `reason || "Access denied"`. */
  function DenialMessage(access: AccessResult): string {
    if access.reason.Some? && access.reason.value != "" then access.reason.value else "Access denied"
  }

  /**
   * The guards in source order: session, parameters, user match, signature and expiry,
   * entitlement, content lookup. `Ok(c)` means every guard passed and `c` is the item.
   */
  function CheckRequest(session: Option<SessionUser>, params: StreamParams,
                        contents: map<string, Content>, subscriptions: seq<Subscription>,
                        purchases: seq<Purchase>, mac: Mac, secretEnv: Option<string>,
                        now: Millis): (r: Response<Content>)
    ensures session.None? ==> r == Error(401, "Unauthorized")
    ensures session.Some? && !AllPresent(params) ==> r == Error(400, "Invalid parameters")
    ensures session.Some? && AllPresent(params) && session.value.id != params.user.value ==>
              r == Error(403, "User mismatch")
    ensures session.Some? && AllPresent(params) && session.value.id == params.user.value
            && !VerifySignedUrl(mac, SigningSecret(secretEnv), params.id.value, params.user.value,
                                params.expires.value, params.signature.value, now) ==>
              r == Error(403, "Invalid or expired URL")
    ensures r.Ok? ==>
              && session.Some? && AllPresent(params) && session.value.id == params.user.value
              && VerifySignedUrl(mac, SigningSecret(secretEnv), params.id.value, params.user.value,
                                 params.expires.value, params.signature.value, now)
              && CheckContentAccess(contents, subscriptions, purchases, params.user.value,
                                    params.id.value, now).hasAccess
              && params.id.value in contents && r.body == contents[params.id.value]
    ensures r.Error? && r.status == 403 && r.error !in {"User mismatch", "Invalid or expired URL"} ==>
              var access := CheckContentAccess(contents, subscriptions, purchases, params.user.value,
                                               params.id.value, now);
              !access.hasAccess && r.error == DenialMessage(access)
    ensures session.Some? && AllPresent(params) && session.value.id == params.user.value
            && VerifySignedUrl(mac, SigningSecret(secretEnv), params.id.value, params.user.value,
                               params.expires.value, params.signature.value, now) ==>
              var access := CheckContentAccess(contents, subscriptions, purchases, params.user.value,
                                               params.id.value, now);
              r == if access.hasAccess then Ok(contents[params.id.value]) else Error(403, DenialMessage(access))
    // A missing item is already refused by the entitlement check, so the 404 is never sent.
    ensures r.Error? ==> r.status != 404
  {
    if session.None? then Error(401, "Unauthorized")
    else if !AllPresent(params) then Error(400, "Invalid parameters")
    else
      var contentId, userId := params.id.value, params.user.value;
      if session.value.id != userId then Error(403, "User mismatch")
      else if !VerifySignedUrl(mac, SigningSecret(secretEnv), contentId, userId,
                               params.expires.value, params.signature.value, now) then
        Error(403, "Invalid or expired URL")
      else
        var access := CheckContentAccess(contents, subscriptions, purchases, userId, contentId, now);
        if !access.hasAccess then Error(403, DenialMessage(access))
        else if contentId !in contents then Error(404, "Content not found")
        else Ok(contents[contentId])
  }

  /** The denial reason is never empty, so the "Access denied" fallback never replaces it. */
  lemma DenialKeepsReason(access: AccessResult)
    requires access.reason.Some? && access.reason.value in {"Content not found", "Subscription required",
               "Purchase required", "View limit reached", "Access denied"}
    ensures DenialMessage(access) == access.reason.value
  {
  }

  /**
   * The handler: a failed guard returns its error with the store untouched; on success
   * the view is tracked and the item's file URL, watermark and DRM flags are returned.
   */
  method Get(db: Database, session: Option<SessionUser>, params: StreamParams, mac: Mac,
             secretEnv: Option<string>, now: Millis) returns (r: Response<StreamBody>)
    modifies db
    ensures var check := CheckRequest(session, params, old(db.contents), old(db.subscriptions),
                                      old(db.purchases), mac, secretEnv, now);
            && (check.Error? ==> r == Error(check.status, check.error) && unchanged(db))
            && (check.Ok? ==>
                  var c := check.body;
                  var contentId := params.id.value;
                  && r == Ok(StreamBody(c.originalFileUrl, c.watermarkEnabled, c.drmEnabled))
                  && db.purchases == CountView(old(db.purchases), params.user.value, contentId)
                  && db.contents == old(db.contents)[contentId := c.(currentViews := c.currentViews + 1)])
    ensures unchanged(db`subscriptions, db`wallets, db`transactions, db`users)
    ensures unchanged(db`messages, db`takedowns, db`creatorProfiles)
  {
    var check := CheckRequest(session, params, db.contents, db.subscriptions, db.purchases,
                              mac, secretEnv, now);
    if check.Error? {
      return Error(check.status, check.error);
    }
    var content := check.body;
    var ok := TrackContentView(db, params.user.value, params.id.value);
    r := Ok(StreamBody(content.originalFileUrl, content.watermarkEnabled, content.drmEnabled));
  }
}

=== FILE: conversations.dfy ===
/**
 * GET /api/messages/conversations: the signed-in user's latest hundred messages, grouped
 * by the other party into conversations, each with its newest message and the number of
 * messages the user has received and not read.
 */
module ConversationsRoute {
  import opened Wrappers
  import opened Http
  import opened Store
  import opened Sorting
  import opened Grouping

  datatype Conversation = Conversation(
    partnerId: string,
    partnerName: string,
    partnerAvatar: Option<string>,
    lastMessage: Message,
    unreadCount: nat,
    messages: seq<Message>)

  const PageSize: nat := 100

  predicate Involves(m: Message, userId: string) { m.senderId == userId || m.recipientId == userId }

  /** `where: { OR: [{ senderId: userId }, { recipientId: userId }] }`, in table order. */
  function Involving(msgs: seq<Message>, userId: string): (r: seq<Message>)
    ensures forall i :: 0 <= i < |r| ==> Involves(r[i], userId)
    ensures multiset(r) <= multiset(msgs)
  {
    if msgs == [] then []
    else
      assert msgs == [msgs[0]] + msgs[1..];
      (if Involves(msgs[0], userId) then [msgs[0]] else []) + Involving(msgs[1..], userId)
  }

  /** The query leaves none of the user's messages out: each occurs as often as in the table. */
  lemma {:induction false} InvolvingKeepsAll(msgs: seq<Message>, userId: string, m: Message)
    requires Involves(m, userId)
    ensures multiset(Involving(msgs, userId))[m] == multiset(msgs)[m]
  {
    if msgs != [] {
      assert msgs == [msgs[0]] + msgs[1..];
      InvolvingKeepsAll(msgs[1..], userId, m);
    }
  }

  /** Sorting key of `orderBy: { createdAt: "desc" }`: newest first. */
  function Newest(m: Message): int { -m.createdAt }

  function Min(a: nat, b: nat): nat { if a < b then a else b }

  /** The messages involving the user, newest first. */
  function NewestInvolving(msgs: seq<Message>, userId: string): (s: seq<Message>)
    ensures multiset(s) == multiset(Involving(msgs, userId))
    ensures |s| == |Involving(msgs, userId)|
    ensures forall i :: 0 <= i < |s| ==> Involves(s[i], userId)
    ensures forall i, j :: 0 <= i < j < |s| ==> s[j].createdAt <= s[i].createdAt
  {
    var sorted := SortBy(Involving(msgs, userId), Newest);
    SortedNewestFirst(sorted);
    SortedInvolving(msgs, userId, sorted);
    assert |multiset(sorted)| == |multiset(Involving(msgs, userId))|;
    sorted
  }

  /** The messages the route reads: those involving the user, newest first, at most a hundred. */
  function Recent(msgs: seq<Message>, userId: string): (r: seq<Message>)
    ensures |r| == Min(PageSize, |Involving(msgs, userId)|)
    ensures forall i :: 0 <= i < |r| ==> Involves(r[i], userId)
    ensures multiset(r) <= multiset(msgs)
    ensures forall i, j :: 0 <= i < j < |r| ==> r[j].createdAt <= r[i].createdAt
    ensures |Involving(msgs, userId)| <= PageSize ==> multiset(r) == multiset(Involving(msgs, userId))
  {
    var sorted := NewestInvolving(msgs, userId);
    var n := Min(PageSize, |sorted|);
    TakeNewest(sorted, n, userId);
    sorted[..n]
  }

  /**
   * The hundred kept are the newest: a message of the user's that is left out (or a copy
   * of it beyond those kept) is no newer than any kept one.
   */
  lemma RecentKeepsNewest(msgs: seq<Message>, userId: string)
    ensures var r := Recent(msgs, userId);
            forall m, k :: multiset(r)[m] < multiset(Involving(msgs, userId))[m] && 0 <= k < |r| ==>
              m.createdAt <= r[k].createdAt
  {
    var sorted := NewestInvolving(msgs, userId);
    var n := Min(PageSize, |sorted|);
    assert Recent(msgs, userId) == sorted[..n];
    LeftOutIsOlder(sorted, n, Involving(msgs, userId));
  }

  /** Cutting a newest-first list after `n` leaves out nothing newer than what it keeps. */
  lemma LeftOutIsOlder(s: seq<Message>, n: nat, all: seq<Message>)
    requires n <= |s|
    requires multiset(s) == multiset(all)
    requires forall i, j :: 0 <= i < j < |s| ==> s[j].createdAt <= s[i].createdAt
    ensures forall m, k :: multiset(s[..n])[m] < multiset(all)[m] && 0 <= k < |s[..n]| ==> m.createdAt <= s[..n][k].createdAt
  {
    assert s == s[..n] + s[n..];
    forall m, k | multiset(s[..n])[m] < multiset(s)[m] && 0 <= k < n
      ensures m.createdAt <= s[..n][k].createdAt
    {
      assert m in multiset(s[n..]);
      var j :| 0 <= j < |s[n..]| && s[n..][j] == m;
      assert s[n + j] == m;
    }
  }

  /** A prefix of a newest-first run of the user's messages is one too, and all of it when it is as long. */
  lemma TakeNewest(s: seq<Message>, n: nat, userId: string)
    requires n <= |s|
    requires forall i :: 0 <= i < |s| ==> Involves(s[i], userId)
    requires forall i, j :: 0 <= i < j < |s| ==> s[j].createdAt <= s[i].createdAt
    ensures forall i :: 0 <= i < n ==> Involves(s[..n][i], userId)
    ensures forall i, j :: 0 <= i < j < n ==> s[..n][j].createdAt <= s[..n][i].createdAt
    ensures multiset(s[..n]) <= multiset(s)
    ensures n == |s| ==> multiset(s[..n]) == multiset(s)
  {
    assert s == s[..n] + s[n..];
  }

  lemma SortedNewestFirst(s: seq<Message>)
    requires SortedBy(s, Newest)
    ensures forall i, j :: 0 <= i < j < |s| ==> s[j].createdAt <= s[i].createdAt
  {
    forall i, j | 0 <= i < j < |s|
      ensures s[j].createdAt <= s[i].createdAt
    {
      assert Newest(s[i]) <= Newest(s[j]);
    }
  }

  lemma SortedInvolving(msgs: seq<Message>, userId: string, s: seq<Message>)
    requires multiset(s) == multiset(Involving(msgs, userId))
    ensures forall i :: 0 <= i < |s| ==> Involves(s[i], userId)
  {
    forall i | 0 <= i < |s|
      ensures Involves(s[i], userId)
    {
      var inv := Involving(msgs, userId);
      assert s[i] in multiset(inv);
      var k :| 0 <= k < |inv| && inv[k] == s[i];
    }
  }

  /** `message.senderId === userId ? message.recipientId : message.senderId`. */
  function Partner(m: Message, userId: string): string {
    if m.senderId == userId then m.recipientId else m.senderId
  }

  function PartnerOf(userId: string): Message -> string {
    m => Partner(m, userId)
  }

  /** `partner?.username || "Unknown"`: a missing user or an empty name reads "Unknown". */
  function PartnerName(users: map<string, User>, partnerId: string): (name: string)
    ensures name == "Unknown" <==> partnerId !in users || users[partnerId].username in {"", "Unknown"}
    ensures name != "Unknown" ==> name == users[partnerId].username
  {
    if partnerId in users && users[partnerId].username != "" then users[partnerId].username else "Unknown"
  }

  /** A string that JavaScript treats as true: present and non-empty. */
  predicate Truthy(s: Option<string>) { s.Some? && s.value != "" }

  /** `fanProfile?.avatar || creatorProfile?.avatar || null`. */
  function PartnerAvatar(users: map<string, User>, partnerId: string): (avatar: Option<string>)
    ensures avatar.None? || avatar.value != ""
    ensures avatar.Some? <==> partnerId in users && (Truthy(users[partnerId].fanAvatar) || Truthy(users[partnerId].creatorAvatar))
    ensures partnerId in users && Truthy(users[partnerId].fanAvatar) ==> avatar == users[partnerId].fanAvatar
    ensures partnerId in users && !Truthy(users[partnerId].fanAvatar) && Truthy(users[partnerId].creatorAvatar) ==>
              avatar == users[partnerId].creatorAvatar
  {
    if partnerId !in users then None
    else if Truthy(users[partnerId].fanAvatar) then users[partnerId].fanAvatar
    else if Truthy(users[partnerId].creatorAvatar) then users[partnerId].creatorAvatar
    else None
  }

  /** A message the user received and has not read. */
  predicate UnreadFor(m: Message, userId: string) { m.recipientId == userId && !m.read }

  function UnreadCount(msgs: seq<Message>, userId: string): (n: nat)
    ensures n <= |msgs|
  {
    if msgs == [] then 0
    else UnreadCount(msgs[..|msgs| - 1], userId) + if UnreadFor(msgs[|msgs| - 1], userId) then 1 else 0
  }

  /** No unread message counts zero; all unread counts them all. */
  lemma {:induction false} UnreadCountExtremes(msgs: seq<Message>, userId: string)
    ensures UnreadCount(msgs, userId) == 0 <==> forall i :: 0 <= i < |msgs| ==> !UnreadFor(msgs[i], userId)
    ensures UnreadCount(msgs, userId) == |msgs| <==> forall i :: 0 <= i < |msgs| ==> UnreadFor(msgs[i], userId)
  {
    if msgs != [] {
      var init := msgs[..|msgs| - 1];
      UnreadCountExtremes(init, userId);
      assert forall i :: 0 <= i < |init| ==> init[i] == msgs[i];
    }
  }

  /** The record for `partnerId` whose messages, in input order, are `g`: the first one is `lastMessage`. */
  function Record(userId: string, users: map<string, User>, partnerId: string, g: seq<Message>): Conversation
    requires |g| > 0
  {
    Conversation(partnerId, PartnerName(users, partnerId), PartnerAvatar(users, partnerId), g[0], UnreadCount(g, userId), g)
  }

  /** The conversation with `partnerId` over `msgs`. */
  function ConversationWith(userId: string, users: map<string, User>, msgs: seq<Message>, partnerId: string): Conversation
    requires |Group(msgs, PartnerOf(userId), partnerId)| > 0
  {
    Record(userId, users, partnerId, Group(msgs, PartnerOf(userId), partnerId))
  }

  function Build(userId: string, users: map<string, User>, msgs: seq<Message>, partners: seq<string>)
    : (cs: seq<Conversation>)
    requires forall j :: 0 <= j < |partners| ==> |Group(msgs, PartnerOf(userId), partners[j])| > 0
    ensures |cs| == |partners|
    ensures forall j :: 0 <= j < |partners| ==> cs[j] == ConversationWith(userId, users, msgs, partners[j])
  {
    seq(|partners|, j requires 0 <= j < |partners| => ConversationWith(userId, users, msgs, partners[j]))
  }

  /** One conversation per partner, in the order partners first occur in `msgs`. */
  function Conversations(userId: string, users: map<string, User>, msgs: seq<Message>): (cs: seq<Conversation>)
    ensures |cs| == |Keys(msgs, PartnerOf(userId))|
  {
    var partners := Keys(msgs, PartnerOf(userId));
    forall j | 0 <= j < |partners|
      ensures |Group(msgs, PartnerOf(userId), partners[j])| > 0
    {
      KeyHasGroup(msgs, PartnerOf(userId), partners[j]);
    }
    Build(userId, users, msgs, partners)
  }

  /** The record `conversationsMap.set` stores for a partner met for the first time. */
  function Opened(users: map<string, User>, partnerId: string, message: Message): Conversation {
    Conversation(partnerId, PartnerName(users, partnerId), PartnerAvatar(users, partnerId), message, 0, [])
  }

  /** `conversation.messages.push(message)`, then the unread increment. */
  function Pushed(c: Conversation, message: Message, userId: string): Conversation {
    var c' := c.(messages := c.messages + [message]);
    if UnreadFor(message, userId) then c'.(unreadCount := c'.unreadCount + 1) else c'
  }

  /** Pushing a message onto a conversation's record gives the record of the longer list. */
  lemma PushExtends(userId: string, users: map<string, User>, partnerId: string, g: seq<Message>, x: Message)
    requires |g| > 0
    ensures Pushed(Record(userId, users, partnerId, g), x, userId) == Record(userId, users, partnerId, g + [x])
  {
    UnreadSnoc(g, x, userId);
    assert (g + [x])[0] == g[0];
  }

  lemma UnreadSnoc(g: seq<Message>, x: Message, userId: string)
    ensures UnreadCount(g + [x], userId) == UnreadCount(g, userId) + if UnreadFor(x, userId) then 1 else 0
  {
    assert (g + [x])[..|g|] == g;
  }

  /** Opening a record for a new partner and pushing the message gives the record of that one message. */
  lemma OpenStartsConversation(userId: string, users: map<string, User>, partnerId: string, x: Message)
    ensures Pushed(Opened(users, partnerId, x), x, userId) == Record(userId, users, partnerId, [x])
  {
    assert [] + [x] == [x];
    assert [x][..0] == [];
  }

  /**
   * The loop invariant after the messages `xs`: `order` lists the partners met so far,
   * first meeting first, and the map holds exactly their records, each the record of
   * that partner's messages among `xs`.
   */
  ghost predicate Filed(userId: string, users: map<string, User>, xs: seq<Message>,
                  convs: map<string, Conversation>, order: seq<string>)
  {
    && order == Keys(xs, PartnerOf(userId))
    && (forall p :: p in convs <==> p in order)
    && (forall p :: p in convs ==> |Group(xs, PartnerOf(userId), p)| > 0)
    && (forall p :: p in convs ==> convs[p] == ConversationWith(userId, users, xs, p))
  }

  /** The map after one turn of the loop body: open the partner's record if it has none, then push. */
  function Turn(convs: map<string, Conversation>, users: map<string, User>, x: Message, userId: string)
    : map<string, Conversation>
  {
    var p := Partner(x, userId);
    var started := if p in convs then convs else convs[p := Opened(users, p, x)];
    started[p := Pushed(started[p], x, userId)]
  }

  /** The insertion order after one turn: a new partner goes to the end. */
  function TurnOrder(order: seq<string>, convs: map<string, Conversation>, x: Message, userId: string): seq<string> {
    var p := Partner(x, userId);
    if p in convs then order else order + [p]
  }

  /** One partner's entry after a turn is the record of that partner's messages, the new one included. */
  lemma TurnAt(userId: string, users: map<string, User>, xs: seq<Message>, x: Message,
               convs: map<string, Conversation>, q: string)
    requires q in convs ==> |Group(xs, PartnerOf(userId), q)| > 0
    requires q in convs ==> convs[q] == ConversationWith(userId, users, xs, q)
    requires q !in convs ==> Group(xs, PartnerOf(userId), q) == []
    ensures q in Turn(convs, users, x, userId) ==> |Group(xs + [x], PartnerOf(userId), q)| > 0
    ensures q in Turn(convs, users, x, userId) ==>
              Turn(convs, users, x, userId)[q] == ConversationWith(userId, users, xs + [x], q)
  {
    var p := Partner(x, userId);
    assert PartnerOf(userId)(x) == p;
    GroupSnoc(xs, x, PartnerOf(userId), q);
    var g := Group(xs, PartnerOf(userId), q);
    if q in Turn(convs, users, x, userId) {
      if q != p {
        assert g + [] == g;
      } else if p in convs {
        PushExtends(userId, users, p, g, x);
      } else {
        assert g + [x] == [x];
        OpenStartsConversation(userId, users, p, x);
      }
    }
  }

  /** A turn adds the partner to the map's keys exactly when it adds it to the order. */
  lemma TurnKeys(convs: map<string, Conversation>, order: seq<string>, users: map<string, User>,
                 x: Message, userId: string)
    requires forall p :: p in convs <==> p in order
    ensures forall q :: q in Turn(convs, users, x, userId) <==> q in TurnOrder(order, convs, x, userId)
  {
    var p := Partner(x, userId);
    var next, nextOrder := Turn(convs, users, x, userId), TurnOrder(order, convs, x, userId);
    assert next.Keys == convs.Keys + {p};
    forall q
      ensures q in nextOrder <==> q in order || q == p
    {
    }
  }

  /** One turn of the `for` loop keeps the map equal to the conversations of the messages seen. */
  lemma TurnStep(userId: string, users: map<string, User>, xs: seq<Message>, x: Message,
                 convs: map<string, Conversation>, order: seq<string>)
    requires Filed(userId, users, xs, convs, order)
    ensures Filed(userId, users, xs + [x], Turn(convs, users, x, userId), TurnOrder(order, convs, x, userId))
  {
    assert PartnerOf(userId)(x) == Partner(x, userId);
    KeysSnoc(xs, x, PartnerOf(userId));
    TurnKeys(convs, order, users, x, userId);
    var next := Turn(convs, users, x, userId);
    forall q | q in next
      ensures |Group(xs + [x], PartnerOf(userId), q)| > 0
      ensures next[q] == ConversationWith(userId, users, xs + [x], q)
    {
      if q !in convs {
        UnlistedKeyHasNoGroup(xs, PartnerOf(userId), q);
      }
      TurnAt(userId, users, xs, x, convs, q);
    }
  }

  /** The `for` loop over the messages and `Array.from(conversationsMap.values())`. */
  method GroupByPartner(userId: string, users: map<string, User>, msgs: seq<Message>)
    returns (conversations: seq<Conversation>)
    ensures conversations == Conversations(userId, users, msgs)
  {
    var convs: map<string, Conversation> := map[];
    var order: seq<string> := [];
    var i := 0;
    assert msgs[..i] == [];
    while i < |msgs|
      invariant 0 <= i <= |msgs|
      invariant Filed(userId, users, msgs[..i], convs, order)
    {
      var message := msgs[i];
      var partnerId := Partner(message, userId);
      PrefixSnoc(msgs, i);
      TurnStep(userId, users, msgs[..i], message, convs, order);
      ghost var next, nextOrder := Turn(convs, users, message, userId), TurnOrder(order, convs, message, userId);
      if partnerId !in convs {
        convs := convs[partnerId := Opened(users, partnerId, message)];
        order := order + [partnerId];
      }
      convs := convs[partnerId := Pushed(convs[partnerId], message, userId)];
      assert convs == next && order == nextOrder;
      i := i + 1;
    }
    assert msgs[..i] == msgs;
    ValuesInOrder(userId, users, msgs, convs, order);
    conversations := Values(convs, order);
  }

  /** `Map.prototype.values()`: the stored records in insertion order. */
  function Values(convs: map<string, Conversation>, order: seq<string>): (cs: seq<Conversation>)
    requires forall j :: 0 <= j < |order| ==> order[j] in convs
    ensures |cs| == |order|
    ensures forall j :: 0 <= j < |order| ==> cs[j] == convs[order[j]]
  {
    seq(|order|, j requires 0 <= j < |order| => convs[order[j]])
  }

  lemma ValuesInOrder(userId: string, users: map<string, User>, msgs: seq<Message>,
                      convs: map<string, Conversation>, order: seq<string>)
    requires Filed(userId, users, msgs, convs, order)
    ensures forall j :: 0 <= j < |order| ==> order[j] in convs
    ensures Values(convs, order) == Conversations(userId, users, msgs)
  {
    forall j | 0 <= j < |order|
      ensures order[j] in convs
    {
      var p := order[j];
      assert p in order;
    }
  }

  /**
   * The handler: 401 without a session; otherwise the conversations of the user's
   * hundred newest messages. The store never throws, so the 500 branch is not reached.
   */
  method Get(db: Database, session: Option<SessionUser>) returns (r: Response<seq<Conversation>>)
    ensures session.None? ==> r == Error(401, "Unauthorized")
    ensures session.Some? ==>
              r == Ok(Conversations(session.value.id, db.users, Recent(db.messages, session.value.id)))
  {
    if session.None? {
      return Error(401, "Unauthorized");
    }
    var userId := session.value.id;
    var messages := Recent(db.messages, userId);
    var conversations := GroupByPartner(userId, db.users, messages);
    r := Ok(conversations);
  }

  // ---------------------------------------------------------------------------
  // Properties of the grouping
  // ---------------------------------------------------------------------------

  /** The `j`-th conversation is the record of the `j`-th partner's non-empty group. */
  lemma ConversationAt(userId: string, users: map<string, User>, msgs: seq<Message>, j: nat)
    requires j < |Keys(msgs, PartnerOf(userId))|
    ensures var p := Keys(msgs, PartnerOf(userId))[j];
            var g := Group(msgs, PartnerOf(userId), p);
            && |g| > 0
            && Conversations(userId, users, msgs)[j] == Record(userId, users, p, g)
  {
    KeyHasGroup(msgs, PartnerOf(userId), Keys(msgs, PartnerOf(userId))[j]);
  }

  /**
   * Each conversation is non-empty, opens with its `lastMessage`, counts its unread
   * messages and holds only messages exchanged with its partner.
   */
  lemma ConversationsWellFormed(userId: string, users: map<string, User>, msgs: seq<Message>, j: nat)
    requires j < |Conversations(userId, users, msgs)|
    ensures var c := Conversations(userId, users, msgs)[j];
            && |c.messages| > 0
            && c.lastMessage == c.messages[0]
            && c.unreadCount == UnreadCount(c.messages, userId)
            && (forall k :: 0 <= k < |c.messages| ==> Partner(c.messages[k], userId) == c.partnerId)
  {
    ConversationAt(userId, users, msgs, j);
    var p := Keys(msgs, PartnerOf(userId))[j];
    var g := Group(msgs, PartnerOf(userId), p);
    forall k | 0 <= k < |g|
      ensures Partner(g[k], userId) == p
    {
      assert PartnerOf(userId)(g[k]) == p;
    }
  }

  /** No partner has two conversations. */
  lemma PartnersDistinct(userId: string, users: map<string, User>, msgs: seq<Message>)
    ensures var cs := Conversations(userId, users, msgs);
            forall j, k :: 0 <= j < k < |cs| ==> cs[j].partnerId != cs[k].partnerId
  {
    var cs := Conversations(userId, users, msgs);
    var partners := Keys(msgs, PartnerOf(userId));
    forall j, k | 0 <= j < k < |cs|
      ensures cs[j].partnerId != cs[k].partnerId
    {
      ConversationAt(userId, users, msgs, j);
      ConversationAt(userId, users, msgs, k);
    }
  }

  /** Every message is filed under the conversation with its partner. */
  lemma EveryMessageFiled(userId: string, users: map<string, User>, msgs: seq<Message>, i: nat)
    requires i < |msgs|
    ensures var cs := Conversations(userId, users, msgs);
            exists j :: 0 <= j < |cs| && cs[j].partnerId == Partner(msgs[i], userId) && msgs[i] in cs[j].messages
  {
    var key := PartnerOf(userId);
    var partners := Keys(msgs, key);
    GroupContains(msgs, key, i);
    var p := key(msgs[i]);
    assert p in partners;
    var j :| 0 <= j < |partners| && partners[j] == p;
    ConversationAt(userId, users, msgs, j);
  }

  /** Total number of messages over a list of conversations. */
  function MessageCount(cs: seq<Conversation>): nat {
    if cs == [] then 0 else |cs[0].messages| + MessageCount(cs[1..])
  }

  lemma {:induction false} BuildCountsGroups(userId: string, users: map<string, User>, msgs: seq<Message>,
                                             partners: seq<string>)
    requires forall j :: 0 <= j < |partners| ==> |Group(msgs, PartnerOf(userId), partners[j])| > 0
    ensures MessageCount(Build(userId, users, msgs, partners)) as real
            == GroupTotals(partners, msgs, PartnerOf(userId), One)
  {
    if partners != [] {
      var cs := Build(userId, users, msgs, partners);
      assert cs[1..] == Build(userId, users, msgs, partners[1..]);
      BuildCountsGroups(userId, users, msgs, partners[1..]);
      TotalOfOnes(Group(msgs, PartnerOf(userId), partners[0]));
    }
  }

  /** No message is lost or counted twice: the conversations hold exactly as many messages as were read. */
  lemma ConversationsCoverMessages(userId: string, users: map<string, User>, msgs: seq<Message>)
    ensures MessageCount(Conversations(userId, users, msgs)) == |msgs|
  {
    var key := PartnerOf(userId);
    var partners := Keys(msgs, key);
    forall j | 0 <= j < |partners|
      ensures |Group(msgs, key, partners[j])| > 0
    {
      KeyHasGroup(msgs, key, partners[j]);
    }
    BuildCountsGroups(userId, users, msgs, partners);
    KeysPartitionTotal(msgs, key, One);
    TotalOfOnes(msgs);
  }

  lemma {:induction false} GroupKeepsNewestFirst(xs: seq<Message>, key: Message -> string, k: string)
    requires forall i, j :: 0 <= i < j < |xs| ==> xs[j].createdAt <= xs[i].createdAt
    ensures forall i, j :: 0 <= i < j < |Group(xs, key, k)| ==> Group(xs, key, k)[j].createdAt <= Group(xs, key, k)[i].createdAt
  {
    if xs != [] {
      var init := xs[..|xs| - 1];
      var last := xs[|xs| - 1];
      assert forall i :: 0 <= i < |init| ==> init[i] == xs[i];
      GroupKeepsNewestFirst(init, key, k);
      GroupMembers(init, key, k);
      var g := Group(init, key, k);
      forall i | 0 <= i < |g|
        ensures last.createdAt <= g[i].createdAt
      {
        var j :| 0 <= j < |init| && init[j] == g[i];
      }
      var g' := g + (if key(last) == k then [last] else []);
      assert Group(xs, key, k) == g';
      forall i, j | 0 <= i < j < |g'|
        ensures g'[j].createdAt <= g'[i].createdAt
      {
        assert g'[i] == g[i];
        if j < |g| {
          assert g'[j] == g[j];
          assert g[j].createdAt <= g[i].createdAt;
        } else {
          assert g'[j] == last;
        }
      }
    }
  }

  /** When the messages come newest first, each conversation's `lastMessage` is its newest. */
  lemma LastMessageIsNewestOf(userId: string, users: map<string, User>, msgs: seq<Message>, j: nat)
    requires forall a, b :: 0 <= a < b < |msgs| ==> msgs[b].createdAt <= msgs[a].createdAt
    requires j < |Conversations(userId, users, msgs)|
    ensures var c := Conversations(userId, users, msgs)[j];
            forall k :: 0 <= k < |c.messages| ==> c.messages[k].createdAt <= c.lastMessage.createdAt
  {
    ConversationAt(userId, users, msgs, j);
    var p := Keys(msgs, PartnerOf(userId))[j];
    GroupKeepsNewestFirst(msgs, PartnerOf(userId), p);
    var g := Group(msgs, PartnerOf(userId), p);
    forall k | 0 < k < |g|
      ensures g[k].createdAt <= g[0].createdAt
    {
    }
  }

  /** In the route's result `lastMessage` is the newest message of its conversation. */
  lemma LastMessageIsNewest(userId: string, users: map<string, User>, msgs: seq<Message>, j: nat)
    requires j < |Conversations(userId, users, Recent(msgs, userId))|
    ensures var c := Conversations(userId, users, Recent(msgs, userId))[j];
            forall k :: 0 <= k < |c.messages| ==> c.messages[k].createdAt <= c.lastMessage.createdAt
  {
    LastMessageIsNewestOf(userId, users, Recent(msgs, userId), j);
  }
}

=== FILE: demo_data.dfy ===
/**
 * The demo user table of lib/demo-data.ts, the role lookup `getDemoUser` and the
 * demo-mode flag. The other demo tables are display data and are not part of this model.
 */
module DemoData {
  import opened Wrappers
  import opened Strings

  /** `DEMO_MODE`. */
  const DemoMode: bool := true

  datatype DemoUser = DemoUser(id: string, email: string, username: string, role: string, status: string)

  const Fan: DemoUser := DemoUser("demo_fan_1", "fan@demo.com", "DemoFan", "FAN", "ACTIVE")
  const Creator: DemoUser := DemoUser("demo_creator_1", "creator@demo.com", "DemoCreator", "CREATOR", "ACTIVE")
  const Brand: DemoUser := DemoUser("demo_brand_1", "brand@demo.com", "DemoBrand", "BRAND", "ACTIVE")
  const Admin: DemoUser := DemoUser("demo_admin_1", "admin@demo.com", "DemoAdmin", "ADMIN", "ACTIVE")

  /** `DEMO_USERS`, by key. */
  const DemoUsers: map<string, DemoUser> := map["fan" := Fan, "creator" := Creator, "brand" := Brand, "admin" := Admin]

  /** `Object.values(DEMO_USERS)`: the users in the order the object literal lists them. */
  const DemoUserList: seq<DemoUser> := [Fan, Creator, Brand, Admin]

  /** `DEMO_USERS[role.toLowerCase()] || DEMO_USERS.fan`. */
  function GetDemoUser(role: string): (u: DemoUser)
    ensures ToLower(role) in DemoUsers ==> u == DemoUsers[ToLower(role)]
    ensures ToLower(role) !in DemoUsers ==> u == Fan
    ensures u in DemoUserList
  {
    var roleKey := ToLower(role);
    if roleKey in DemoUsers then DemoUsers[roleKey] else Fan
  }

  /** `DEMO_MODE || process.env.NEXT_PUBLIC_DEMO_MODE === "true"`: the constant makes it true whatever the environment says. */
  function IsDemoMode(envDemoMode: Option<string>): (on: bool)
    ensures on
  {
    DemoMode || envDemoMode == Some("true")
  }

  /** The lookup ignores case: any spelling of a role finds the same user as its lower-case form. */
  lemma GetDemoUserIgnoresCase(role: string)
    ensures GetDemoUser(role) == GetDemoUser(ToLower(role))
  {
    ToLowerIdempotent(role);
  }

  /** Each demo user's role is the upper-case form of its key. */
  lemma LowerRoles()
    ensures ToLower(Fan.role) == "fan" && ToLower(Creator.role) == "creator"
    ensures ToLower(Brand.role) == "brand" && ToLower(Admin.role) == "admin"
  {
    LowerRole("FAN", "fan");
    LowerRole("CREATOR", "creator");
    LowerRole("BRAND", "brand");
    LowerRole("ADMIN", "admin");
  }

  /** `role.toLowerCase()` is `key` when the two agree letter by letter. */
  lemma LowerRole(role: string, key: string)
    requires |role| == |key| && forall i :: 0 <= i < |role| ==> LowerChar(role[i]) == key[i]
    ensures ToLower(role) == key
  {
  }

  /** So looking a demo user up by its own role finds that user. */
  lemma RoleRoundTrip(k: string)
    requires k in DemoUsers
    ensures GetDemoUser(DemoUsers[k].role) == DemoUsers[k]
  {
    LowerRoles();
    assert k == "fan" || k == "creator" || k == "brand" || k == "admin";
  }

  /** The table and the listing hold the same users. */
  lemma DemoUsersListed()
    ensures forall k :: k in DemoUsers ==> DemoUsers[k] in DemoUserList
    ensures forall i :: 0 <= i < |DemoUserList| ==> DemoUserList[i] in DemoUsers.Values
  {
    assert DemoUsers["fan"] == Fan && DemoUsers["creator"] == Creator;
    assert DemoUsers["brand"] == Brand && DemoUsers["admin"] == Admin;
  }

  /** No two demo users share an email or an id. */
  lemma DemoUsersDistinct()
    ensures forall i, j :: 0 <= i < j < |DemoUserList| ==> DemoUserList[i].email != DemoUserList[j].email
    ensures forall i, j :: 0 <= i < j < |DemoUserList| ==> DemoUserList[i].id != DemoUserList[j].id
  {
    assert Fan.email[0] == 'f' && Creator.email[0] == 'c' && Brand.email[0] == 'b' && Admin.email[0] == 'a';
    assert Fan.id[5] == 'f' && Creator.id[5] == 'c' && Brand.id[5] == 'b' && Admin.id[5] == 'a';
  }
}

=== FILE: message_unlock.dfy ===
/**
 * POST /api/messages/unlock: pay for a pay-per-view message with tokens. The payer is
 * the `userId` named in the request body; the session is only checked for presence.
 * The steps are separate store writes, in this order: debit the payer, credit the
 * sender 80%, append the two transaction rows.
 */
module MessageUnlockRoute {
  import opened Wrappers
  import opened Http
  import opened Store

  /** The creator's share of a PPV message price. */
  const CreatorShare: real := 0.8

  /** `message.price || 0`: a null or zero price is 0. */
  function PriceOf(m: Message): real {
    if m.price.Some? then m.price.value else 0.0
  }

  /** `prisma.message.findUnique({id})`. */
  function FindMessage(messages: seq<Message>, id: string): (r: Option<Message>)
    ensures r.Some? ==> r.value in messages && r.value.id == id
    ensures r.None? ==> forall i :: 0 <= i < |messages| ==> messages[i].id != id
  {
    if messages == [] then None
    else if messages[0].id == id then Some(messages[0])
    else FindMessage(messages[1..], id)
  }

  predicate Present(v: Option<string>) { v.Some? && v.value != "" }

  /**
   * Everything checked before the first write: session, body fields, the message, its
   * PPV flag and the payer's balance. `Ok(m)` means the unlock of `m` goes ahead.
   */
  function CheckUnlock(session: Option<SessionUser>, messageId: Option<string>, userId: Option<string>,
                       messages: seq<Message>, wallets: map<string, Wallet>): (r: Response<Message>)
    ensures session.None? ==> r == Error(401, "Unauthorized")
    ensures session.Some? && !(Present(messageId) && Present(userId)) ==>
              r == Error(400, "Missing required fields")
    ensures (session.Some? && Present(messageId) && Present(userId)
             && FindMessage(messages, messageId.value).None?) ==>
              r == Error(404, "Message not found")
    ensures (session.Some? && Present(messageId) && Present(userId)
             && FindMessage(messages, messageId.value).Some?
             && !FindMessage(messages, messageId.value).value.isPPV) ==>
              r == Error(400, "Message is not PPV")
    ensures (session.Some? && Present(messageId) && Present(userId)
             && FindMessage(messages, messageId.value).Some?
             && FindMessage(messages, messageId.value).value.isPPV
             && (userId.value !in wallets
                 || wallets[userId.value].tokenBalance < PriceOf(FindMessage(messages, messageId.value).value))) ==>
              r == Error(400, "Insufficient tokens")
    ensures r.Ok? <==>
              && session.Some? && Present(messageId) && Present(userId)
              && FindMessage(messages, messageId.value).Some?
              && FindMessage(messages, messageId.value).value.isPPV
              && userId.value in wallets
              && wallets[userId.value].tokenBalance >= PriceOf(FindMessage(messages, messageId.value).value)
    ensures r.Ok? ==> r.body == FindMessage(messages, messageId.value).value
  {
    if session.None? then Error(401, "Unauthorized")
    else if !(Present(messageId) && Present(userId)) then Error(400, "Missing required fields")
    else match FindMessage(messages, messageId.value)
      case None => Error(404, "Message not found")
      case Some(m) =>
        if !m.isPPV then Error(400, "Message is not PPV")
        else if userId.value !in wallets || wallets[userId.value].tokenBalance < PriceOf(m) then
          Error(400, "Insufficient tokens")
        else Ok(m)
  }

  /** The two rows `createMany` appends: the payer's PURCHASE of the price, the sender's TIP of 80%. */
  function UnlockRows(payer: string, m: Message, now: Millis): (rows: seq<Transaction>)
    ensures |rows| == 2
    ensures forall i :: 0 <= i < 2 ==>
              rows[i].status == COMPLETED && rows[i].currency == TOKENS
              && rows[i].paymentId.None? && rows[i].createdAt == now
    ensures rows[0].userId == payer && rows[0].txType == PURCHASE && rows[0].amount == PriceOf(m)
    ensures rows[1].userId == m.senderId && rows[1].txType == TIP
    ensures rows[1].amount == PriceOf(m) * CreatorShare
    ensures forall i :: 0 <= i < 2 ==> rows[i].paymentMethod.None?
    ensures rows[0].description == Some("Unlocked PPV message")
    ensures rows[1].description == Some("PPV message earnings")
  {
    [ Transaction(payer, PURCHASE, COMPLETED, PriceOf(m), TOKENS, None, None, Some("Unlocked PPV message"), now),
      Transaction(m.senderId, TIP, COMPLETED, PriceOf(m) * CreatorShare, TOKENS, None, None,
                  Some("PPV message earnings"), now) ]
  }

  datatype UnlockBody = UnlockBody(success: bool, message: string)

  /**
   * The handler. A failed check changes nothing. Otherwise the payer is debited the
   * price; if the sender has no wallet the credit throws and the route answers 500 with
   * the debit already written and no rows appended; else the sender is credited 80% and
   * the two rows are appended.
   */
  method Post(db: Database, session: Option<SessionUser>, messageId: Option<string>,
              userId: Option<string>, now: Millis) returns (r: Response<UnlockBody>)
    modifies db
    ensures var check := CheckUnlock(session, messageId, userId, old(db.messages), old(db.wallets));
            && (check.Error? ==> r == Error(check.status, check.error) && unchanged(db))
            && (check.Ok? ==>
                  var m := check.body;
                  var price := PriceOf(m);
                  var debited := AddTokens(old(db.wallets), userId.value, -price);
                  if m.senderId in debited then
                    && db.wallets == AddTokens(debited, m.senderId, price * CreatorShare)
                    && db.transactions == old(db.transactions) + UnlockRows(userId.value, m, now)
                    && r == Ok(UnlockBody(true, "Message unlocked successfully"))
                  else
                    && db.wallets == debited
                    && db.transactions == old(db.transactions)
                    && r == Error(500, "Failed to unlock message"))
    ensures unchanged(db`contents, db`subscriptions, db`purchases, db`users)
    ensures unchanged(db`messages, db`takedowns, db`creatorProfiles)
  {
    var check := CheckUnlock(session, messageId, userId, db.messages, db.wallets);
    if check.Error? {
      return Error(check.status, check.error);
    }
    var m := check.body;
    var payer := userId.value;
    var price := PriceOf(m);
    // Deduct tokens from the payer named in the body.
    db.wallets := AddTokens(db.wallets, payer, -price);
    // Credit the sender; Prisma throws when the sender has no wallet.
    if m.senderId !in db.wallets {
      return Error(500, "Failed to unlock message");
    }
    db.wallets := AddTokens(db.wallets, m.senderId, price * CreatorShare);
    db.transactions := db.transactions + UnlockRows(payer, m, now);
    r := Ok(UnlockBody(true, "Message unlocked successfully"));
  }

  /**
   * What a completed unlock does to the two balances: the payer loses exactly the price
   * and stays non-negative, the sender gains 80% of it, every other wallet is untouched;
   * when the payer is the sender the net change is minus 20%.
   */
  lemma UnlockBalances(wallets: map<string, Wallet>, payer: string, sender: string, price: real)
    requires payer in wallets && sender in wallets
    requires wallets[payer].tokenBalance >= price
    ensures var after := AddTokens(AddTokens(wallets, payer, -price), sender, price * CreatorShare);
            && after.Keys == wallets.Keys
            && (payer != sender ==>
                  && after[payer].tokenBalance == wallets[payer].tokenBalance - price
                  && after[payer].tokenBalance >= 0.0
                  && after[sender].tokenBalance == wallets[sender].tokenBalance + price * CreatorShare)
            && (payer == sender ==>
                  after[payer].tokenBalance == wallets[payer].tokenBalance - price * (1.0 - CreatorShare))
            && (forall u :: u in wallets && u != payer && u != sender ==> after[u] == wallets[u])
  {
  }
}

=== FILE: middleware.dfy ===
/**
 * The request middleware of middleware.ts: a request to a creator's subdomain
 * (`tulika.goodtimez.com/feed`) is served by the creator route (`/c/tulika/feed`);
 * deployment previews, local hosts, bare domains and the reserved subdomains pass through.
 */
module Middleware {
  import opened Wrappers
  import opened Strings

  /** `NextResponse.next()` or `NextResponse.rewrite(url)` with the new pathname. */
  datatype Outcome = Next | Rewrite(pathname: string)

  const CreatorRoutePrefix: string := "/c/"

  /** `request.headers.get('host') || ''`. */
  function HostOf(host: Option<string>): string {
    if host.None? then "" else host.value
  }

  /** Hosts that are never rewritten: deployment previews and local development. */
  predicate Skipped(hostname: string) {
    Contains(hostname, ".vercel.app") || Contains(hostname, "localhost")
  }

  predicate Reserved(name: string) { name == "www" || name == "api" || name == "admin" }

  /** The first dot-separated label of a host with at least three labels, if it names a creator. */
  function Subdomain(hostname: string): (sub: Option<string>)
    ensures sub.Some? <==> !Skipped(hostname) && Count(hostname, '.') >= 2 && !Reserved(Split(hostname, '.')[0])
    ensures sub.Some? ==> '.' !in sub.value && !Reserved(sub.value)
    ensures sub.Some? ==> IndexOf(hostname, '.').Some? && sub.value == hostname[..IndexOf(hostname, '.').value]
  {
    if Skipped(hostname) then None
    else
      var parts := Split(hostname, '.');
      if |parts| >= 3 && !Reserved(parts[0]) then Some(parts[0]) else None
  }

  /**
   * The middleware: a creator subdomain becomes the path prefix `/c/<subdomain>`, and the
   * original path stays, unchanged, at the end of the rewritten one.
   */
  function Handle(host: Option<string>, pathname: string): (o: Outcome)
    ensures host.None? ==> o == Next
    ensures Skipped(HostOf(host)) ==> o == Next
    ensures Count(HostOf(host), '.') < 2 ==> o == Next
    ensures o.Rewrite? <==> Subdomain(HostOf(host)).Some?
    ensures o.Rewrite? ==> o.pathname == CreatorRoutePrefix + Subdomain(HostOf(host)).value + pathname
    ensures o.Rewrite? ==> StartsWith(o.pathname, CreatorRoutePrefix) && EndsWith(o.pathname, pathname)
  {
    var hostname := HostOf(host);
    match Subdomain(hostname)
    case None => Next
    case Some(sub) =>
      var p := CreatorRoutePrefix + sub + pathname;
      assert p[..|CreatorRoutePrefix|] == CreatorRoutePrefix;
      assert p[|p| - |pathname|..] == pathname;
      Rewrite(p)
  }

  /**
   * The rewrite can be undone: the segment after `/c/` up to the next `/` is the
   * subdomain, and what follows it is the original path, whenever that path is empty
   * or starts with `/`.
   */
  lemma RewriteSplitsBack(host: Option<string>, pathname: string)
    requires Handle(host, pathname).Rewrite?
    requires pathname == [] || pathname[0] == '/'
    ensures var p := Handle(host, pathname).pathname;
            var sub := Subdomain(HostOf(host)).value;
            && p[|CreatorRoutePrefix|..|CreatorRoutePrefix| + |sub|] == sub
            && p[|CreatorRoutePrefix| + |sub|..] == pathname
            && (pathname != [] ==> p[|CreatorRoutePrefix| + |sub|] == '/')
  {
    var sub := Subdomain(HostOf(host)).value;
    var p := CreatorRoutePrefix + sub + pathname;
    assert p[|CreatorRoutePrefix|..|CreatorRoutePrefix| + |sub|] == sub;
    assert p[|CreatorRoutePrefix| + |sub|..] == pathname;
  }
}

=== FILE: revenue.dfy ===
/**
 * GET /api/analytics/revenue: the signed-in creator's completed earnings over the last
 * `days` days, grouped by calendar day (UTC) for the chart and split by source.
 */
module RevenueRoute {
  import opened Wrappers
  import opened Http
  import opened Strings
  import opened Store
  import opened Sorting
  import opened Grouping
  import opened RevenueChart

  datatype Share = Share(amount: real, percentage: real)

  datatype Breakdown = Breakdown(subscriptions: Share, ppv: Share, tips: Share)

  datatype RevenueReport = RevenueReport(chartData: seq<ChartPoint>, breakdown: Breakdown, total: real)

  /** Per-source sums of the counted rows. */
  datatype SourceTotals = SourceTotals(subscriptions: real, ppv: real, tips: real)

  const DefaultDays: string := "30"

  /** `parseInt(searchParams.get("days") || "30")`: an absent or empty parameter means 30. */
  function DaysOf(param: Option<string>): (days: Option<int>)
    ensures param.None? || param.value == "" ==> days == Some(30)
    ensures param.Some? && param.value != "" ==> days == ParseInt(param.value)
  {
    assert ParseInt(DefaultDays) == Some(30) by {
      ParseIntOfIntToString(30);
      assert IntToString(30) == DefaultDays;
    }
    ParseInt(if param.None? || param.value == "" then DefaultDays else param.value)
  }

  /** `startDate.setDate(startDate.getDate() - days)`, taking every day as 24 hours. */
  function StartDate(now: Millis, days: int): Millis {
    now - days * MillisPerDay
  }

  predicate IsRevenue(t: TxType) { t == TIP || t == SUBSCRIPTION || t == PURCHASE }

  /** The `where` of the query: the user's COMPLETED earnings created at or after `start`. */
  predicate Counted(tx: Transaction, userId: string, start: Millis) {
    tx.userId == userId && IsRevenue(tx.txType) && tx.status == COMPLETED && tx.createdAt >= start
  }

  function Filter(txs: seq<Transaction>, userId: string, start: Millis): (r: seq<Transaction>)
    ensures |r| <= |txs|
    ensures forall i :: 0 <= i < |r| ==> Counted(r[i], userId, start) && r[i] in txs
    ensures forall i :: 0 <= i < |txs| && Counted(txs[i], userId, start) ==> txs[i] in r
    ensures forall tx :: multiset(r)[tx] == if Counted(tx, userId, start) then multiset(txs)[tx] else 0
  {
    Select(txs, tx => Counted(tx, userId, start))
  }

  function CreatedAt(tx: Transaction): int { tx.createdAt }

  /** The rows the route reads, oldest first. */
  function RevenueRows(txs: seq<Transaction>, userId: string, start: Millis): (rows: seq<Transaction>)
    ensures forall i :: 0 <= i < |rows| ==> Counted(rows[i], userId, start)
    ensures multiset(rows) == multiset(Filter(txs, userId, start))
    ensures SortedBy(rows, CreatedAt)
  {
    var rows := SortBy(Filter(txs, userId, start), CreatedAt);
    forall i | 0 <= i < |rows|
      ensures Counted(rows[i], userId, start)
    {
      assert rows[i] in multiset(Filter(txs, userId, start));
    }
    rows
  }


  function SubscriptionAmount(tx: Transaction): real { if tx.txType == SUBSCRIPTION then tx.amount else 0.0 }
  function PpvAmount(tx: Transaction): real { if tx.txType == PURCHASE then tx.amount else 0.0 }
  function TipAmount(tx: Transaction): real { if tx.txType == TIP then tx.amount else 0.0 }

  /** The second `forEach`: each row's amount goes to the bucket of its type. */
  method SumBySource(rows: seq<Transaction>) returns (b: SourceTotals)
    ensures b.subscriptions == Total(rows, SubscriptionAmount)
    ensures b.ppv == Total(rows, PpvAmount)
    ensures b.tips == Total(rows, TipAmount)
  {
    var subscriptions, ppv, tips := 0.0, 0.0, 0.0;
    var i := 0;
    while i < |rows|
      invariant 0 <= i <= |rows|
      invariant subscriptions == Total(rows[..i], SubscriptionAmount)
      invariant ppv == Total(rows[..i], PpvAmount)
      invariant tips == Total(rows[..i], TipAmount)
    {
      var tx := rows[i];
      SourceStep(rows, i);
      if tx.txType == SUBSCRIPTION {
        subscriptions := subscriptions + tx.amount;
      } else if tx.txType == PURCHASE {
        ppv := ppv + tx.amount;
      } else if tx.txType == TIP {
        tips := tips + tx.amount;
      }
      i := i + 1;
    }
    assert rows[..i] == rows;
    b := SourceTotals(subscriptions, ppv, tips);
  }

  /** One more row adds its amount to its own bucket's total and nothing to the others. */
  lemma SourceStep(rows: seq<Transaction>, i: nat)
    requires i < |rows|
    ensures Total(rows[..i + 1], SubscriptionAmount) == Total(rows[..i], SubscriptionAmount) + SubscriptionAmount(rows[i])
    ensures Total(rows[..i + 1], PpvAmount) == Total(rows[..i], PpvAmount) + PpvAmount(rows[i])
    ensures Total(rows[..i + 1], TipAmount) == Total(rows[..i], TipAmount) + TipAmount(rows[i])
  {
    PrefixSnoc(rows, i);
    TotalSnoc(rows[..i], rows[i], SubscriptionAmount);
    TotalSnoc(rows[..i], rows[i], PpvAmount);
    TotalSnoc(rows[..i], rows[i], TipAmount);
  }

  /** `total > 0 ? amount / total * 100 : 0`. */
  function Percentage(amount: real, total: real): real {
    if total > 0.0 then amount / total * 100.0 else 0.0
  }

  function ShareOf(amount: real, total: real): Share { Share(amount, Percentage(amount, total)) }

  /**
   * The handler: 401 unless a creator is signed in, 404 without a creator profile, 500
   * when `days` is not a number (the start date is invalid and the query fails).
   */
  method Get(db: Database, session: Option<SessionUser>, daysParam: Option<string>, now: Millis)
    returns (r: Response<RevenueReport>)
    ensures session.None? || session.value.role != "CREATOR" ==> r == Error(401, "Unauthorized")
    ensures session.Some? && session.value.role == "CREATOR" && session.value.id !in db.creatorProfiles ==>
              r == Error(404, "Creator profile not found")
    ensures (session.Some? && session.value.role == "CREATOR" && session.value.id in db.creatorProfiles
             && DaysOf(daysParam).None?) ==> r == Error(500, "Failed to fetch analytics")
    ensures r.Ok? <==> session.Some? && session.value.role == "CREATOR" && session.value.id in db.creatorProfiles
                       && DaysOf(daysParam).Some?
    ensures r.Ok? ==>
              var rows := RevenueRows(db.transactions, session.value.id, StartDate(now, DaysOf(daysParam).value));
              && r.body.chartData == ChartData(rows)
              && r.body.total == Total(rows, Amount)
              && ChartSum(r.body.chartData) == r.body.total
              && r.body.breakdown.subscriptions.amount == Total(rows, SubscriptionAmount)
              && r.body.breakdown.ppv.amount == Total(rows, PpvAmount)
              && r.body.breakdown.tips.amount == Total(rows, TipAmount)
    ensures r.Ok? ==>
              var b := r.body.breakdown;
              && b.subscriptions.percentage == Percentage(b.subscriptions.amount, r.body.total)
              && b.ppv.percentage == Percentage(b.ppv.amount, r.body.total)
              && b.tips.percentage == Percentage(b.tips.amount, r.body.total)
  {
    if session.None? || session.value.role != "CREATOR" {
      return Error(401, "Unauthorized");
    }
    var days := DaysOf(daysParam);
    if session.value.id !in db.creatorProfiles {
      return Error(404, "Creator profile not found");
    }
    if days.None? {
      return Error(500, "Failed to fetch analytics");
    }
    var rows := RevenueRows(db.transactions, session.value.id, StartDate(now, days.value));
    var chartData := GroupByDate(rows);
    var sums := SumBySource(rows);
    var total := sums.subscriptions + sums.ppv + sums.tips;
    SourcesPartitionTotal(rows);
    ChartSumIsTotal(rows);
    r := Ok(RevenueReport(
      chartData,
      Breakdown(ShareOf(sums.subscriptions, total), ShareOf(sums.ppv, total), ShareOf(sums.tips, total)),
      total));
  }

  /** Every counted row lands in exactly one source bucket, so the buckets add up to the whole. */
  lemma {:induction false} SourcesPartitionTotal(rows: seq<Transaction>)
    requires forall i :: 0 <= i < |rows| ==> IsRevenue(rows[i].txType)
    ensures Total(rows, SubscriptionAmount) + Total(rows, PpvAmount) + Total(rows, TipAmount) == Total(rows, Amount)
  {
    if rows != [] {
      SourcesPartitionTotal(rows[..|rows| - 1]);
    }
  }


  /** When there is revenue the three percentages add up to 100. */
  lemma PercentagesSumTo100(subscriptions: real, ppv: real, tips: real)
    requires subscriptions + ppv + tips > 0.0
    ensures var total := subscriptions + ppv + tips;
            Percentage(subscriptions, total) + Percentage(ppv, total) + Percentage(tips, total) == 100.0
  {
    var total := subscriptions + ppv + tips;
    assert subscriptions / total + ppv / total + tips / total == total / total;
  }
}

=== FILE: revenue_chart.dfy ===
/**
 * The chart half of GET /api/analytics/revenue: counted rows summed per UTC day, in the
 * order the days first occur, and the proof that the chart shows every amount once.
 */
module RevenueChart {
  import opened Store
  import opened Grouping

  /** One chart point: the UTC day (days since the epoch) and that day's revenue. */
  datatype ChartPoint = ChartPoint(day: int, revenue: real)

  /** `createdAt.toISOString().split("T")[0]`, as the number of the UTC day. */
  function DayOf(tx: Transaction): int { tx.createdAt / MillisPerDay }

  function Amount(tx: Transaction): real { tx.amount }

  /** What one day contributes to the chart: the sum of that day's amounts. */
  function DayRevenue(rows: seq<Transaction>, day: int): real {
    Total(Group(rows, DayOf, day), Amount)
  }

  function Points(days: seq<int>, rows: seq<Transaction>): (pts: seq<ChartPoint>)
    ensures |pts| == |days|
    ensures forall j :: 0 <= j < |days| ==> pts[j] == ChartPoint(days[j], DayRevenue(rows, days[j]))
  {
    seq(|days|, j requires 0 <= j < |days| => ChartPoint(days[j], DayRevenue(rows, days[j])))
  }

  /** One point per day with revenue, in the order the days first occur. */
  function ChartData(rows: seq<Transaction>): seq<ChartPoint> {
    Points(Keys(rows, DayOf), rows)
  }

  function ChartSum(pts: seq<ChartPoint>): real {
    if pts == [] then 0.0 else pts[0].revenue + ChartSum(pts[1..])
  }

  lemma DayRevenueSnoc(xs: seq<Transaction>, x: Transaction, d: int)
    ensures DayRevenue(xs + [x], d) == DayRevenue(xs, d) + (if DayOf(x) == d then x.amount else 0.0)
  {
    GroupSnoc(xs, x, DayOf, d);
    var g := Group(xs, DayOf, d);
    if DayOf(x) == d {
      TotalSnoc(g, x, Amount);
    } else {
      assert g + [] == g;
    }
  }

  lemma DayRevenueAbsent(xs: seq<Transaction>, d: int)
    requires d !in Keys(xs, DayOf)
    ensures DayRevenue(xs, d) == 0.0
  {
    UnlistedKeyHasNoGroup(xs, DayOf, d);
  }

  /** `revenueByDate[date] = (revenueByDate[date] || 0) + Number(tx.amount)`. */
  function AddToDay(revenueByDate: map<int, real>, tx: Transaction): map<int, real> {
    var date := DayOf(tx);
    revenueByDate[date := (if date in revenueByDate then revenueByDate[date] else 0.0) + tx.amount]
  }

  /** A new key goes to the end of the insertion order; an existing one keeps its place. */
  function NoteDay(dates: seq<int>, tx: Transaction): seq<int> {
    if DayOf(tx) in dates then dates else dates + [DayOf(tx)]
  }

  /**
   * One step of the `forEach`: after adding row `i` to its day, the keys are still the
   * days seen so far in first-occurrence order and each maps to that day's revenue.
   */
  lemma TallyStep(rows: seq<Transaction>, i: nat, m: map<int, real>, dates: seq<int>)
    requires i < |rows|
    requires dates == Keys(rows[..i], DayOf)
    requires forall d :: d in m <==> d in dates
    requires forall d :: d in m ==> m[d] == DayRevenue(rows[..i], d)
    ensures NoteDay(dates, rows[i]) == Keys(rows[..i + 1], DayOf)
    ensures forall d :: d in AddToDay(m, rows[i]) <==> d in NoteDay(dates, rows[i])
    ensures forall d :: d in AddToDay(m, rows[i]) ==> AddToDay(m, rows[i])[d] == DayRevenue(rows[..i + 1], d)
  {
    var xs, x := rows[..i], rows[i];
    PrefixSnoc(rows, i);
    KeysSnoc(xs, x, DayOf);
    var m' := AddToDay(m, x);
    forall d | d in m'
      ensures m'[d] == DayRevenue(xs + [x], d)
    {
      DayRevenueSnoc(xs, x, d);
      if d == DayOf(x) && d !in m {
        DayRevenueAbsent(xs, d);
      }
    }
  }

  /**
   * The `forEach` that accumulates `revenueByDate`. A plain object keeps its (non-numeric)
   * keys in insertion order; `dates` records that order.
   */
  method AccumulateByDate(rows: seq<Transaction>) returns (revenueByDate: map<int, real>, dates: seq<int>)
    ensures dates == Keys(rows, DayOf)
    ensures forall d :: d in revenueByDate <==> d in dates
    ensures forall d :: d in revenueByDate ==> revenueByDate[d] == DayRevenue(rows, d)
  {
    revenueByDate := map[];
    dates := [];
    var i := 0;
    assert rows[..i] == [];
    while i < |rows|
      invariant 0 <= i <= |rows|
      invariant dates == Keys(rows[..i], DayOf)
      invariant forall d :: d in revenueByDate <==> d in dates
      invariant forall d :: d in revenueByDate ==> revenueByDate[d] == DayRevenue(rows[..i], d)
    {
      TallyStep(rows, i, revenueByDate, dates);
      revenueByDate := AddToDay(revenueByDate, rows[i]);
      dates := NoteDay(dates, rows[i]);
      i := i + 1;
    }
    assert rows[..i] == rows;
  }

  /** The chart: the per-day sums, as `Object.entries` lists them. */
  method GroupByDate(rows: seq<Transaction>) returns (chart: seq<ChartPoint>)
    ensures chart == ChartData(rows)
  {
    var revenueByDate, dates := AccumulateByDate(rows);
    ChartFromTotals(rows, revenueByDate, dates);
    chart := Entries(revenueByDate, dates);
  }

  /** `Object.entries(revenueByDate).map(...)`: one point per key, in insertion order. */
  function Entries(revenueByDate: map<int, real>, dates: seq<int>): (pts: seq<ChartPoint>)
    requires forall j :: 0 <= j < |dates| ==> dates[j] in revenueByDate
    ensures |pts| == |dates|
    ensures forall j :: 0 <= j < |dates| ==> pts[j] == ChartPoint(dates[j], revenueByDate[dates[j]])
  {
    seq(|dates|, j requires 0 <= j < |dates| => ChartPoint(dates[j], revenueByDate[dates[j]]))
  }

  lemma ChartFromTotals(rows: seq<Transaction>, m: map<int, real>, dates: seq<int>)
    requires dates == Keys(rows, DayOf)
    requires forall d :: d in m <==> d in dates
    requires forall d :: d in m ==> m[d] == DayRevenue(rows, d)
    ensures forall j :: 0 <= j < |dates| ==> dates[j] in m
    ensures Entries(m, dates) == ChartData(rows)
  {
    forall j | 0 <= j < |dates|
      ensures dates[j] in m
    {
      var d := dates[j];
      assert d in dates;
    }
  }

  lemma {:induction false} PointsSumToGroupTotals(days: seq<int>, rows: seq<Transaction>)
    ensures ChartSum(Points(days, rows)) == GroupTotals(days, rows, DayOf, Amount)
  {
    if days != [] {
      assert Points(days, rows)[1..] == Points(days[1..], rows);
      PointsSumToGroupTotals(days[1..], rows);
    }
  }

  /** The chart shows every counted amount exactly once: its points add up to the total. */
  lemma ChartSumIsTotal(rows: seq<Transaction>)
    ensures ChartSum(ChartData(rows)) == Total(rows, Amount)
  {
    PointsSumToGroupTotals(Keys(rows, DayOf), rows);
    KeysPartitionTotal(rows, DayOf, Amount);
  }
}

=== FILE: sorting.dfy ===
/**
 * Ordering of query results and arrays: `Array.prototype.sort` with a numeric comparator
 * and Prisma's `orderBy` are modelled by one stable insertion sort on an integer key
 * (a descending order is an ascending order on the negated key).
 */
module Sorting {
  import opened Grouping

  ghost predicate SortedBy<T>(s: seq<T>, key: T -> int) {
    forall i, j :: 0 <= i < j < |s| ==> key(s[i]) <= key(s[j])
  }

  /** Puts `x` after every element of `s` whose key is not larger, so equal keys keep their order. */
  function Insert<T>(s: seq<T>, x: T, key: T -> int): (r: seq<T>)
    ensures |r| == |s| + 1
    ensures multiset(r) == multiset(s) + multiset{x}
  {
    if s == [] then [x]
    else if key(s[0]) <= key(x) then
      assert s == [s[0]] + s[1..];
      [s[0]] + Insert(s[1..], x, key)
    else
      [x] + s
  }

  lemma {:induction false} InsertLowerBound<T>(s: seq<T>, x: T, key: T -> int, lo: int)
    requires forall i :: 0 <= i < |s| ==> lo <= key(s[i])
    requires lo <= key(x)
    ensures forall j :: 0 <= j < |Insert(s, x, key)| ==> lo <= key(Insert(s, x, key)[j])
  {
    if s != [] && key(s[0]) <= key(x) {
      InsertLowerBound(s[1..], x, key, lo);
    }
  }

  /** Inserting into a sorted list keeps it sorted. */
  lemma {:induction false} InsertSorted<T>(s: seq<T>, x: T, key: T -> int)
    requires SortedBy(s, key)
    ensures SortedBy(Insert(s, x, key), key)
  {
    if s != [] && key(s[0]) <= key(x) {
      InsertSorted(s[1..], x, key);
      InsertLowerBound(s[1..], x, key, key(s[0]));
    }
  }

  lemma SortedTail<T>(s: seq<T>, key: T -> int)
    requires s != [] && SortedBy(s, key)
    ensures SortedBy(s[1..], key)
  {
    forall i, j | 0 <= i < j < |s| - 1
      ensures key(s[1..][i]) <= key(s[1..][j])
    {
      assert s[1..][i] == s[i + 1] && s[1..][j] == s[j + 1];
    }
  }

  /** In a sorted list, `x` goes after every element with its key, so each key's elements keep their order. */
  lemma {:induction false} InsertStable<T>(s: seq<T>, x: T, key: T -> int, k: int)
    requires SortedBy(s, key)
    ensures Group(Insert(s, x, key), key, k) == Group(s, key, k) + (if key(x) == k then [x] else [])
  {
    if s == [] {
      GroupSingleton(x, key, k);
    } else if key(s[0]) <= key(x) {
      SortedTail(s, key);
      InsertStable(s[1..], x, key, k);
      InsertAfterFront(s, x, key, k);
    } else {
      InsertBeforeAll(s, x, key, k);
    }
  }

  /** `x` passes the first element: that element stays at the front of its group. */
  lemma InsertAfterFront<T>(s: seq<T>, x: T, key: T -> int, k: int)
    requires s != [] && key(s[0]) <= key(x)
    requires Group(Insert(s[1..], x, key), key, k) == Group(s[1..], key, k) + (if key(x) == k then [x] else [])
    ensures Group(Insert(s, x, key), key, k) == Group(s, key, k) + (if key(x) == k then [x] else [])
  {
    var rest := Insert(s[1..], x, key);
    assert Insert(s, x, key) == [s[0]] + rest;
    GroupCons(s[0], rest, key, k);
    GroupFront(s, key, k);
    var front, tail := (if key(s[0]) == k then [s[0]] else []), Group(s[1..], key, k);
    var last := if key(x) == k then [x] else [];
    Regroup(Group(Insert(s, x, key), key, k), front, Group(rest, key, k), tail, last, Group(s, key, k));
  }

  /** `x` goes first: no element of a sorted list after it shares its key. */
  lemma InsertBeforeAll<T>(s: seq<T>, x: T, key: T -> int, k: int)
    requires SortedBy(s, key)
    requires s != [] && key(s[0]) > key(x)
    ensures Group(Insert(s, x, key), key, k) == Group(s, key, k) + (if key(x) == k then [x] else [])
  {
    assert Insert(s, x, key) == [x] + s;
    GroupCons(x, s, key, k);
    if key(x) == k {
      assert forall i :: 0 <= i < |s| ==> key(s[0]) <= key(s[i]);
      GroupAbsent(s, key, k);
    }
  }

  /** Inserting the next element into a stable sort of the elements before it gives a stable sort of all of them. */
  lemma InsertKeepsGroups<T>(sorted: seq<T>, init: seq<T>, x: T, key: T -> int)
    requires SortedBy(sorted, key)
    requires forall k :: Group(sorted, key, k) == Group(init, key, k)
    ensures forall k :: Group(Insert(sorted, x, key), key, k) == Group(init + [x], key, k)
  {
    forall k
      ensures Group(Insert(sorted, x, key), key, k) == Group(init + [x], key, k)
    {
      InsertStable(sorted, x, key, k);
      GroupSnoc(init, x, key, k);
    }
  }

  /**
   * The input in non-decreasing key order; the sort is stable: the elements with any one
   * key come out in the order they went in.
   */
  function SortBy<T>(s: seq<T>, key: T -> int): (r: seq<T>)
    ensures |r| == |s|
    ensures multiset(r) == multiset(s)
    ensures SortedBy(r, key)
    ensures forall k :: Group(r, key, k) == Group(s, key, k)
  {
    if s == [] then []
    else
      assert s == s[..|s| - 1] + [s[|s| - 1]];
      var sorted := SortBy(s[..|s| - 1], key);
      InsertSorted(sorted, s[|s| - 1], key);
      InsertKeepsGroups(sorted, s[..|s| - 1], s[|s| - 1], key);
      Insert(sorted, s[|s| - 1], key)
  }
}

/**
 * Grouping a list by a key in the order the keys are first met, as a JavaScript `Map`
 * or a plain object with non-numeric keys iterates: each key once, in insertion order.
 */
module Grouping {

  /** A prefix one longer is the shorter prefix and the next element. */
  lemma PrefixSnoc<T>(s: seq<T>, i: nat)
    requires i < |s|
    ensures s[..i + 1] == s[..i] + [s[i]]
  {
  }

  predicate Distinct<K(==)>(ks: seq<K>) {
    forall i, j :: 0 <= i < j < |ks| ==> ks[i] != ks[j]
  }

  /**
   * The elements of `xs` that satisfy `p`, in input order: `Array.prototype.filter`, and
   * a `where` clause over a table. Each kept value occurs exactly as often as in `xs`.
   */
  function Select<T(!new)>(xs: seq<T>, p: T -> bool): (r: seq<T>)
    ensures |r| <= |xs|
    ensures forall i :: 0 <= i < |r| ==> p(r[i])
    ensures forall x :: x in r <==> x in xs && p(x)
    ensures forall x :: multiset(r)[x] == if p(x) then multiset(xs)[x] else 0
  {
    if xs == [] then []
    else
      assert xs == [xs[0]] + xs[1..];
      (if p(xs[0]) then [xs[0]] else []) + Select(xs[1..], p)
  }

  /** `whole` is `front + mid + last` read either way round. */
  lemma Regroup<T>(whole: seq<T>, front: seq<T>, rest: seq<T>, mid: seq<T>, last: seq<T>, init: seq<T>)
    requires whole == front + rest && rest == mid + last && init == front + mid
    ensures whole == init + last
  {
  }

  /** Selecting from a concatenation selects from each part, the parts kept in order. */
  lemma {:induction false} SelectAppend<T(!new)>(a: seq<T>, b: seq<T>, p: T -> bool)
    ensures Select(a + b, p) == Select(a, p) + Select(b, p)
  {
    if a == [] {
      assert a + b == b;
    } else {
      var ab := a + b;
      assert ab[0] == a[0] && ab[1..] == a[1..] + b;
      SelectAppend(a[1..], b, p);
      var head := if p(a[0]) then [a[0]] else [];
      Regroup(Select(ab, p), head, Select(ab[1..], p), Select(a[1..], p), Select(b, p), Select(a, p));
    }
  }

  /** Some element of `xs` has key `k`. */
  ghost predicate HasKey<T, K>(xs: seq<T>, key: T -> K, k: K) {
    exists i :: 0 <= i < |xs| && key(xs[i]) == k
  }

  /** The keys of `xs`, each once, in order of first occurrence. */
  function Keys<T, K(==)>(xs: seq<T>, key: T -> K): (ks: seq<K>)
    ensures Distinct(ks)
    ensures forall i :: 0 <= i < |xs| ==> key(xs[i]) in ks
  {
    if xs == [] then []
    else
      var init := xs[..|xs| - 1];
      var ks := Keys(init, key);
      assert forall i :: 0 <= i < |init| ==> init[i] == xs[i];
      if key(xs[|xs| - 1]) in ks then ks else ks + [key(xs[|xs| - 1])]
  }

  /** Every listed key is the key of some element. */
  lemma {:induction false} KeysWitnessed<T, K>(xs: seq<T>, key: T -> K, k: K)
    requires k in Keys(xs, key)
    ensures HasKey(xs, key, k)
  {
    var init := xs[..|xs| - 1];
    if k in Keys(init, key) {
      KeysWitnessed(init, key, k);
      var i :| 0 <= i < |init| && key(init[i]) == k;
      assert key(xs[i]) == k;
    } else {
      assert key(xs[|xs| - 1]) == k;
    }
  }

  /** The elements of `xs` with key `k`, in input order. */
  function Group<T, K(==)>(xs: seq<T>, key: T -> K, k: K): (g: seq<T>)
    ensures |g| <= |xs|
    ensures forall i :: 0 <= i < |g| ==> key(g[i]) == k
  {
    if xs == [] then []
    else Group(xs[..|xs| - 1], key, k) + (if key(xs[|xs| - 1]) == k then [xs[|xs| - 1]] else [])
  }

  /** A group is empty exactly when no element has its key. */
  lemma {:induction false} GroupNonEmpty<T, K>(xs: seq<T>, key: T -> K, k: K)
    ensures |Group(xs, key, k)| > 0 <==> HasKey(xs, key, k)
  {
    if xs != [] {
      var init := xs[..|xs| - 1];
      GroupNonEmpty(init, key, k);
      assert forall i :: 0 <= i < |init| ==> init[i] == xs[i];
    }
  }

  /** The group of a listed key is not empty. */
  lemma KeyHasGroup<T, K>(xs: seq<T>, key: T -> K, k: K)
    requires k in Keys(xs, key)
    ensures |Group(xs, key, k)| > 0
  {
    KeysWitnessed(xs, key, k);
    GroupNonEmpty(xs, key, k);
  }

  /** A key that is not listed has an empty group. */
  lemma UnlistedKeyHasNoGroup<T, K>(xs: seq<T>, key: T -> K, k: K)
    requires k !in Keys(xs, key)
    ensures Group(xs, key, k) == []
  {
    GroupNonEmpty(xs, key, k);
  }

  /** Every element of a group comes from the list. */
  lemma {:induction false} GroupMembers<T, K>(xs: seq<T>, key: T -> K, k: K)
    ensures forall i :: 0 <= i < |Group(xs, key, k)| ==> Group(xs, key, k)[i] in xs
  {
    if xs != [] {
      var init := xs[..|xs| - 1];
      GroupMembers(init, key, k);
      assert forall i :: 0 <= i < |init| ==> init[i] == xs[i];
    }
  }

  /** Every element lands in the group of its own key. */
  lemma {:induction false} GroupContains<T, K>(xs: seq<T>, key: T -> K, i: nat)
    requires i < |xs|
    ensures xs[i] in Group(xs, key, key(xs[i]))
  {
    var init := xs[..|xs| - 1];
    if i < |xs| - 1 {
      GroupContains(init, key, i);
      assert init[i] == xs[i];
    }
  }

  /** Sum of `w` over `xs`. */
  function Total<T>(xs: seq<T>, w: T -> real): real {
    if xs == [] then 0.0 else Total(xs[..|xs| - 1], w) + w(xs[|xs| - 1])
  }

  /** Sum, over the keys `ks`, of the total of each key's group. */
  function GroupTotals<T, K(==)>(ks: seq<K>, xs: seq<T>, key: T -> K, w: T -> real): real {
    if ks == [] then 0.0 else Total(Group(xs, key, ks[0]), w) + GroupTotals(ks[1..], xs, key, w)
  }

  /** Appending one element: its key joins the key list only if it is new. */
  lemma KeysSnoc<T, K>(xs: seq<T>, x: T, key: T -> K)
    ensures Keys(xs + [x], key)
         == if key(x) in Keys(xs, key) then Keys(xs, key) else Keys(xs, key) + [key(x)]
  {
    assert (xs + [x])[..|xs|] == xs;
  }

  lemma GroupSingleton<T, K>(x: T, key: T -> K, k: K)
    ensures Group([x], key, k) == if key(x) == k then [x] else []
  {
    assert [x][..0] == [];
  }

  /** Putting `x` in front puts it at the front of its own group. */
  lemma GroupCons<T, K>(x: T, xs: seq<T>, key: T -> K, k: K)
    ensures Group([x] + xs, key, k) == (if key(x) == k then [x] else []) + Group(xs, key, k)
  {
    GroupAppend([x], xs, key, k);
    GroupSingleton(x, key, k);
  }

  lemma GroupFront<T, K>(xs: seq<T>, key: T -> K, k: K)
    requires xs != []
    ensures Group(xs, key, k) == (if key(xs[0]) == k then [xs[0]] else []) + Group(xs[1..], key, k)
  {
    assert xs == [xs[0]] + xs[1..];
    GroupCons(xs[0], xs[1..], key, k);
  }

  /** No element with key `k`: an empty group. */
  lemma GroupAbsent<T, K>(xs: seq<T>, key: T -> K, k: K)
    requires forall i :: 0 <= i < |xs| ==> key(xs[i]) != k
    ensures Group(xs, key, k) == []
  {
    GroupNonEmpty(xs, key, k);
  }

  /** The group of a concatenation is the group of each part, in order. */
  lemma {:induction false} GroupAppend<T, K>(a: seq<T>, b: seq<T>, key: T -> K, k: K)
    ensures Group(a + b, key, k) == Group(a, key, k) + Group(b, key, k)
  {
    if b == [] {
      assert a + b == a;
    } else {
      var init := b[..|b| - 1];
      assert a + b == (a + init) + [b[|b| - 1]];
      GroupAppend(a, init, key, k);
      GroupSnoc(a + init, b[|b| - 1], key, k);
    }
  }

  /** Appending one element: it joins the end of its own group and no other. */
  lemma GroupSnoc<T, K>(xs: seq<T>, x: T, key: T -> K, k: K)
    ensures Group(xs + [x], key, k) == Group(xs, key, k) + (if key(x) == k then [x] else [])
  {
    assert (xs + [x])[..|xs|] == xs;
  }

  lemma TotalSnoc<T>(xs: seq<T>, x: T, w: T -> real)
    ensures Total(xs + [x], w) == Total(xs, w) + w(x)
  {
    assert (xs + [x])[..|xs|] == xs;
  }

  lemma {:induction false} GroupTotalsOfEmpty<T, K>(ks: seq<K>, key: T -> K, w: T -> real)
    ensures GroupTotals(ks, [], key, w) == 0.0
  {
    if ks != [] {
      GroupTotalsOfEmpty(ks[1..], key, w);
    }
  }

  lemma {:induction false} GroupTotalsAppend<T, K>(ks: seq<K>, xs: seq<T>, x: T, key: T -> K, w: T -> real)
    requires Distinct(ks)
    ensures GroupTotals(ks, xs + [x], key, w)
         == GroupTotals(ks, xs, key, w) + (if key(x) in ks then w(x) else 0.0)
  {
    if ks != [] {
      assert Distinct(ks[1..]);
      GroupTotalsAppend(ks[1..], xs, x, key, w);
      var ys := xs + [x];
      assert ys[..|ys| - 1] == xs;
      var g := Group(xs, key, ks[0]);
      if key(x) == ks[0] {
        assert Group(ys, key, ks[0]) == g + [x];
        assert (g + [x])[..|g|] == g;
        assert Total(g + [x], w) == Total(g, w) + w(x);
      } else {
        assert Group(ys, key, ks[0]) == g;
      }
      assert key(x) == ks[0] ==> key(x) !in ks[1..];
      assert key(x) in ks <==> key(x) == ks[0] || key(x) in ks[1..];
    }
  }

  /** Splitting a list into groups by key and adding up the groups gives the list's total. */
  lemma {:induction false} GroupsCoverTotal<T, K>(ks: seq<K>, xs: seq<T>, key: T -> K, w: T -> real)
    requires Distinct(ks)
    requires forall i :: 0 <= i < |xs| ==> key(xs[i]) in ks
    ensures GroupTotals(ks, xs, key, w) == Total(xs, w)
  {
    if xs == [] {
      GroupTotalsOfEmpty(ks, key, w);
    } else {
      var init := xs[..|xs| - 1];
      assert xs == init + [xs[|xs| - 1]];
      GroupsCoverTotal(ks, init, key, w);
      GroupTotalsAppend(ks, init, xs[|xs| - 1], key, w);
    }
  }

  /** The totals of the groups, taken in first-occurrence key order, add up to the whole. */
  lemma KeysPartitionTotal<T, K>(xs: seq<T>, key: T -> K, w: T -> real)
    ensures GroupTotals(Keys(xs, key), xs, key, w) == Total(xs, w)
  {
    GroupsCoverTotal(Keys(xs, key), xs, key, w);
  }

  function One<T>(x: T): real { 1.0 }

  /** Weighing every element by one counts the elements. */
  lemma {:induction false} TotalOfOnes<T>(xs: seq<T>)
    ensures Total(xs, One) == |xs| as real
  {
    if xs != [] {
      TotalOfOnes(xs[..|xs| - 1]);
    }
  }
}

=== FILE: store.dfy ===
/**
 * The records the core reads and writes, and the database that holds them. The
 * shipped Prisma client is a stub returning constants; here it is an in-memory store
 * whose tables are maps (by primary key) or sequences (in insertion order, where
 * `findFirst` and `updateMany` scan them).
 */
module Store {
  import opened Wrappers

  /** Timestamps are milliseconds since the epoch, as `Date.now()` returns them. */
  type Millis = int

  const MillisPerDay: int := 24 * 60 * 60 * 1000

  datatype Visibility = PUBLIC | SUBSCRIBERS | PPV | PRIVATE

  /** A content item; `viewLimit` is nullable and, as in JavaScript, 0 means "no limit". */
  datatype Content = Content(
    creatorId: string,
    visibility: Visibility,
    viewLimit: Option<int>,
    currentViews: int,
    originalFileUrl: string,
    watermarkEnabled: bool,
    drmEnabled: bool)

  /** A user row; `status` is "ACTIVE" or "SUSPENDED"; the avatars come from the fan and creator profiles. */
  datatype User = User(
    username: string,
    role: string,
    status: string,
    lastLogin: Option<Millis>,
    fanAvatar: Option<string>,
    creatorAvatar: Option<string>)

  /** A subscription together with its fan's user row (the relation the queries `include`). */
  datatype Subscription = Subscription(
    id: string,
    fanId: string,
    creatorId: string,
    active: bool,
    createdAt: Millis,
    expiresAt: Option<Millis>,
    fan: User)

  /** A pay-per-view unlock of one content item by one fan. */
  datatype Purchase = Purchase(fanId: string, contentId: string, unlocked: bool, viewCount: int)

  /** Balances are JavaScript numbers: the 80% creator share makes them fractional. */
  datatype Wallet = Wallet(tokenBalance: real, usdBalance: real)

  datatype TxType = DEPOSIT | TIP | SUBSCRIPTION | PURCHASE
  datatype TxStatus = PENDING | COMPLETED | FAILED | DISPUTED
  datatype Currency = TOKENS | USD

  /** A ledger row; `paymentMethod`, `paymentId` and `description` are nullable columns. */
  datatype Transaction = Transaction(
    userId: string,
    txType: TxType,
    status: TxStatus,
    amount: real,
    currency: Currency,
    paymentMethod: Option<string>,
    paymentId: Option<string>,
    description: Option<string>,
    createdAt: Millis)

  /** A chat message; `price` is nullable and only meaningful when `isPPV`. */
  datatype Message = Message(
    id: string,
    senderId: string,
    recipientId: string,
    isPPV: bool,
    price: Option<real>,
    read: bool,
    createdAt: Millis)

  datatype TakedownStatus = TAKEDOWN_PENDING

  datatype Takedown = Takedown(
    id: string, contentId: string, reportedUrl: string, reportedBy: string, status: TakedownStatus)

  /** What `getServerSession` yields about the signed-in user. */
  datatype SessionUser = SessionUser(id: string, role: string)

  /** `wallet.update({userId}, tokenBalance += delta)` on an existing wallet. */
  function AddTokens(wallets: map<string, Wallet>, userId: string, delta: real): (r: map<string, Wallet>)
    requires userId in wallets
    ensures r.Keys == wallets.Keys
    ensures r[userId].tokenBalance == wallets[userId].tokenBalance + delta
    ensures r[userId].usdBalance == wallets[userId].usdBalance
    ensures forall u :: u in wallets && u != userId ==> r[u] == wallets[u]
  {
    wallets[userId := wallets[userId].(tokenBalance := wallets[userId].tokenBalance + delta)]
  }

  class Database {
    var contents: map<string, Content>      // by content id
    var subscriptions: seq<Subscription>
    var purchases: seq<Purchase>
    var wallets: map<string, Wallet>        // by user id (wallet.userId is unique)
    var transactions: seq<Transaction>
    var users: map<string, User>            // by user id
    var messages: seq<Message>
    var takedowns: seq<Takedown>
    var creatorProfiles: map<string, string> // user id -> creator profile id

    constructor ()
      ensures contents == map[] && subscriptions == [] && purchases == []
      ensures wallets == map[] && transactions == [] && users == map[]
      ensures messages == [] && takedowns == [] && creatorProfiles == map[]
    {
      contents, subscriptions, purchases := map[], [], [];
      wallets, transactions, users := map[], [], map[];
      messages, takedowns, creatorProfiles := [], [], map[];
    }
  }
}

=== FILE: strings.dfy ===
/**
 * The JavaScript string built-ins the core relies on: `Number.prototype.toString` on
 * integers, `parseInt` without a radix, `includes`, `split` on one character and
 * `toLowerCase`. Characters are UTF-16 code units; case mapping covers ASCII only.
 */
module Strings {
  import opened Wrappers

  predicate IsDigit(c: char) { '0' <= c <= '9' }

  function DigitChar(d: nat): (c: char)
    requires d < 10
    ensures IsDigit(c) && c as int - '0' as int == d
  {
    ('0' as int + d) as char
  }

  /** The decimal digits of `n`, most significant first, without leading zeros. */
  function NatToString(n: nat): (s: string)
    ensures |s| > 0
    ensures forall i :: 0 <= i < |s| ==> IsDigit(s[i])
    decreases n
  {
    if n < 10 then [DigitChar(n)] else NatToString(n / 10) + [DigitChar(n % 10)]
  }

  /** `String(n)` for an integral number: a minus sign, then the digits of |n|. */
  function IntToString(n: int): (s: string)
    ensures |s| > 0
    ensures n >= 0 ==> forall i :: 0 <= i < |s| ==> IsDigit(s[i])
    ensures n < 0 ==> s[0] == '-' && forall i :: 1 <= i < |s| ==> IsDigit(s[i])
  {
    if n < 0 then "-" + NatToString(-n) else NatToString(n)
  }

  // ---------------------------------------------------------------------------
  // parseInt(string), radix omitted
  // ---------------------------------------------------------------------------

  /**
   * The white space `parseInt` skips before the number: ECMAScript's WhiteSpace (tab,
   * vertical tab, form feed, the byte order mark and the space separators) and its
   * LineTerminator (line feed, carriage return, line and paragraph separators).
   */
  predicate IsSpace(c: char) {
    c == ' ' || c == '\t' || c == '\n' || c == '\r' || c == '\U{000B}' || c == '\U{000C}'
    || c == '\U{00A0}' || c == '\U{FEFF}' || c == '\U{1680}' || '\U{2000}' <= c <= '\U{200A}'
    || c == '\U{2028}' || c == '\U{2029}' || c == '\U{202F}' || c == '\U{205F}' || c == '\U{3000}'
  }

  /** The value of `c` as a digit in `radix` (10 or 16), if it is one. */
  function DigitValue(c: char, radix: nat): (d: Option<nat>)
    ensures d.Some? ==> d.value < radix
  {
    if '0' <= c <= '9' && (c as int - '0' as int) < radix then Some(c as int - '0' as int)
    else if radix == 16 && 'a' <= c <= 'f' then Some(c as int - 'a' as int + 10)
    else if radix == 16 && 'A' <= c <= 'F' then Some(c as int - 'A' as int + 10)
    else None
  }

  /** How many characters at the front of `s` are digits in `radix`. */
  function LeadingDigits(s: string, radix: nat): (n: nat)
    ensures n <= |s|
    ensures forall i :: 0 <= i < n ==> DigitValue(s[i], radix).Some?
    ensures n < |s| ==> DigitValue(s[n], radix).None?
  {
    if s == [] || DigitValue(s[0], radix).None? then 0 else 1 + LeadingDigits(s[1..], radix)
  }

  /** The number written by the digit string `s` in `radix`. */
  function DigitsValue(s: string, radix: nat): (v: nat)
    requires forall i :: 0 <= i < |s| ==> DigitValue(s[i], radix).Some?
  {
    if s == [] then 0
    else DigitsValue(s[..|s| - 1], radix) * radix + DigitValue(s[|s| - 1], radix).value
  }

  /** Unsigned part of parseInt: an optional "0x"/"0X" prefix selects radix 16; no digits is NaN. */
  function ParseMagnitude(s: string): Option<nat> {
    var hex := |s| >= 2 && s[0] == '0' && (s[1] == 'x' || s[1] == 'X');
    var radix := if hex then 16 else 10;
    var body := if hex then s[2..] else s;
    var n := LeadingDigits(body, radix);
    if n == 0 then None else Some(DigitsValue(body[..n], radix))
  }

  /**
   * `parseInt(s)`: skip leading white space, read an optional sign, then the longest
   * run of digits; anything after it is ignored. `None` stands for NaN.
   */
  function ParseInt(s: string): Option<int>
    decreases |s|
  {
    if s != [] && IsSpace(s[0]) then ParseInt(s[1..])
    else if s != [] && s[0] == '-' then
      match ParseMagnitude(s[1..])
      case Some(m) =>
        var v: int := -(m as int);
        Some(v)
      case None => None
    else if s != [] && s[0] == '+' then ParseMagnitude(s[1..])
    else ParseMagnitude(s)
  }

  lemma {:induction false} DigitsValueOfNat(n: nat)
    ensures DigitsValue(NatToString(n), 10) == n
    decreases n
  {
    var s := NatToString(n);
    if n >= 10 {
      DigitsValueOfNat(n / 10);
      assert s[..|s| - 1] == NatToString(n / 10);
    }
  }

  lemma LeadingDigitsOfDigits(s: string)
    requires forall i :: 0 <= i < |s| ==> DigitValue(s[i], 10).Some?
    ensures LeadingDigits(s, 10) == |s|
  {
    if s != [] {
      LeadingDigitsOfDigits(s[1..]);
    }
  }

  /** parseInt reads back exactly what toString wrote. */
  lemma ParseIntOfIntToString(n: int)
    ensures ParseInt(IntToString(n)) == Some(n)
  {
    var m: nat := if n < 0 then -n else n;
    var digits := NatToString(m);
    MagnitudeOfDigits(m);
    if n < 0 {
      var s := IntToString(n);
      assert s[0] == '-' && s[1..] == digits;
      assert ParseInt(s) == Some(-(m as int));
    } else {
      assert IsDigit(digits[0]);
      assert ParseInt(digits) == ParseMagnitude(digits);
    }
  }

  /** The unsigned reader reads a digit string as its value. */
  lemma MagnitudeOfDigits(m: nat)
    ensures ParseMagnitude(NatToString(m)) == Some(m)
  {
    var digits := NatToString(m);
    forall i | 0 <= i < |digits|
      ensures DigitValue(digits[i], 10).Some?
    {
      assert IsDigit(digits[i]);
    }
    DigitsValueOfNat(m);
    MagnitudeOfDecimal(digits);
  }

  /** A non-empty decimal digit string is read whole, in radix 10. */
  lemma MagnitudeOfDecimal(digits: string)
    requires |digits| > 0 && forall i :: 0 <= i < |digits| ==> DigitValue(digits[i], 10).Some?
    ensures ParseMagnitude(digits) == Some(DigitsValue(digits, 10))
  {
    assert !(|digits| >= 2 && digits[0] == '0' && (digits[1] == 'x' || digits[1] == 'X')) by {
      if |digits| >= 2 { assert DigitValue(digits[1], 10).Some?; }
    }
    LeadingDigitsOfDigits(digits);
    assert digits[..|digits|] == digits;
  }

  /**
   * parseInt stops at the first character that is not a digit, so a decimal string
   * followed by any such tail parses to the same number as the string alone (an 'x'
   * right after a lone "0" would instead switch to hexadecimal).
   */
  lemma ParseIntIgnoresTail(n: nat, tail: string)
    requires tail != [] && !IsDigit(tail[0]) && (n == 0 ==> tail[0] != 'x' && tail[0] != 'X')
    ensures ParseInt(NatToString(n) + tail) == Some(n)
  {
    MagnitudeIgnoresTail(n, tail);
    assert (NatToString(n) + tail)[0] == NatToString(n)[0];
    ParseIntOfDigitStart(NatToString(n) + tail);
  }

  /** The unsigned reader stops at the first non-digit after a decimal digit string. */
  lemma MagnitudeIgnoresTail(n: nat, tail: string)
    requires tail != [] && !IsDigit(tail[0]) && (n == 0 ==> tail[0] != 'x' && tail[0] != 'X')
    ensures ParseMagnitude(NatToString(n) + tail) == Some(n)
  {
    var digits := NatToString(n);
    var s := digits + tail;
    assert s[..|digits|] == digits;
    assert forall i :: 0 <= i < |digits| ==> IsDigit(s[i]) by {
      forall i | 0 <= i < |digits| ensures IsDigit(s[i]) { assert s[i] == digits[i]; }
    }
    assert s[|digits|] == tail[0];
    assert s[0] == '0' ==> s[1] != 'x' && s[1] != 'X' by {
      if n == 0 {
        assert |digits| == 1 && s[1] == tail[0];
      } else {
        NatToStringLeadsNonZero(n);
        assert s[0] == digits[0];
      }
    }
    MagnitudeOfDecimalPrefix(s, |digits|);
    DigitsValueOfNat(n);
  }

  /** Text that opens with a digit has no white space or sign for parseInt to skip. */
  lemma ParseIntOfDigitStart(s: string)
    requires s != [] && IsDigit(s[0])
    ensures ParseInt(s) == ParseMagnitude(s)
  {
  }

  /** A decimal run that does not open with "0x"/"0X" is read up to the first non-digit. */
  lemma MagnitudeOfDecimalPrefix(s: string, k: nat)
    requires 0 < k < |s|
    requires forall i :: 0 <= i < k ==> IsDigit(s[i])
    requires !IsDigit(s[k])
    requires s[0] == '0' ==> s[1] != 'x' && s[1] != 'X'
    ensures forall i :: 0 <= i < k ==> DigitValue(s[i], 10).Some?
    ensures ParseMagnitude(s) == Some(DigitsValue(s[..k], 10))
  {
    LeadingDigitsPrefix(s, k);
  }

  /** The digits of a positive number do not start with '0'. */
  lemma {:induction false} NatToStringLeadsNonZero(n: nat)
    requires n > 0
    ensures NatToString(n)[0] != '0'
    decreases n
  {
    if n >= 10 {
      NatToStringLeadsNonZero(n / 10);
      assert NatToString(n)[0] == NatToString(n / 10)[0];
    }
  }

  lemma LeadingDigitsPrefix(s: string, k: nat)
    requires k < |s|
    requires forall i :: 0 <= i < k ==> IsDigit(s[i])
    requires !IsDigit(s[k])
    ensures LeadingDigits(s, 10) == k
  {
    if k > 0 {
      LeadingDigitsPrefix(s[1..], k - 1);
    }
  }

  // ---------------------------------------------------------------------------
  // includes, endsWith, split, toLowerCase
  // ---------------------------------------------------------------------------

  predicate StartsWith(s: string, prefix: string) {
    |prefix| <= |s| && s[..|prefix|] == prefix
  }

  predicate EndsWith(s: string, suffix: string) {
    |suffix| <= |s| && s[|s| - |suffix|..] == suffix
  }

  /** `w` occurs in `s` starting at index `i`. */
  predicate OccursAt(s: string, w: string, i: nat) {
    i + |w| <= |s| && s[i..i + |w|] == w
  }

  /** `s.includes(w)`: `w` occurs in `s` at some position. */
  function Contains(s: string, w: string): (b: bool)
    ensures b <==> exists i: nat :: OccursAt(s, w, i)
    decreases |s|
  {
    if StartsWith(s, w) then
      assert OccursAt(s, w, 0);
      true
    else if s == [] then false
    else
      var r := Contains(s[1..], w);
      assert r ==> exists i: nat :: OccursAt(s, w, i) by {
        if r {
          var j: nat :| OccursAt(s[1..], w, j);
          assert s[1..][j..j + |w|] == s[j + 1..j + 1 + |w|];
          assert OccursAt(s, w, j + 1);
        }
      }
      assert (exists i: nat :: OccursAt(s, w, i)) ==> r by {
        if i: nat :| OccursAt(s, w, i) {
          assert i != 0;
          assert s[1..][i - 1..i - 1 + |w|] == s[i..i + |w|];
          assert OccursAt(s[1..], w, i - 1);
        }
      }
      r
  }

  /** Number of occurrences of `c` in `s`. */
  function Count(s: string, c: char): nat {
    if s == [] then 0 else (if s[0] == c then 1 else 0) + Count(s[1..], c)
  }

  /** Index of the first `c` in `s`, if any. */
  function IndexOf(s: string, c: char): (r: Option<nat>)
    ensures r.Some? ==> r.value < |s| && s[r.value] == c && c !in s[..r.value]
    ensures r.None? ==> c !in s
  {
    if s == [] then None
    else if s[0] == c then Some(0)
    else match IndexOf(s[1..], c)
      case Some(i) =>
        assert s[..i + 1] == [s[0]] + s[1..][..i];
        Some(i + 1)
      case None => None
  }

  /** The parts of `s` between occurrences of `sep`, glued back together. */
  function Join(parts: seq<string>, sep: char): string
    requires |parts| >= 1
  {
    if |parts| == 1 then parts[0] else parts[0] + [sep] + Join(parts[1..], sep)
  }

  /** `s.split(sep)` for a one-character separator. */
  function Split(s: string, sep: char): (parts: seq<string>)
    ensures |parts| == Count(s, sep) + 1
    ensures forall i :: 0 <= i < |parts| ==> sep !in parts[i]
    ensures Join(parts, sep) == s
    ensures IndexOf(s, sep).None? ==> parts == [s]
    ensures IndexOf(s, sep).Some? ==> parts[0] == s[..IndexOf(s, sep).value]
    decreases |s|
  {
    match IndexOf(s, sep)
    case None =>
      CountAbsent(s, sep);
      [s]
    case Some(i) =>
      var rest := Split(s[i + 1..], sep);
      CountSplit(s, sep, i);
      JoinSplit(s, sep, i, rest);
      [s[..i]] + rest
  }

  /** Gluing the part before the first separator to the rejoined rest gives the string back. */
  lemma JoinSplit(s: string, sep: char, i: nat, rest: seq<string>)
    requires i < |s| && s[i] == sep
    requires |rest| >= 1 && Join(rest, sep) == s[i + 1..]
    ensures Join([s[..i]] + rest, sep) == s
  {
    assert ([s[..i]] + rest)[1..] == rest;
    assert s == s[..i] + [sep] + s[i + 1..];
  }

  lemma CountAbsent(s: string, c: char)
    requires c !in s
    ensures Count(s, c) == 0
  {
    if s != [] {
      assert c !in s[1..];
      CountAbsent(s[1..], c);
    }
  }

  lemma CountSplit(s: string, c: char, i: nat)
    requires i < |s| && s[i] == c && c !in s[..i]
    ensures Count(s, c) == 1 + Count(s[i + 1..], c)
  {
    if i > 0 {
      assert s[1..][..i - 1] == s[..i][1..];
      assert s[1..][i..] == s[i + 1..];
      CountSplit(s[1..], c, i - 1);
    }
  }

  function LowerChar(c: char): char {
    if 'A' <= c <= 'Z' then (c as int - 'A' as int + 'a' as int) as char else c
  }

  /** `s.toLowerCase()` on ASCII letters; other characters are kept. */
  function ToLower(s: string): (r: string)
    ensures |r| == |s|
    ensures forall i :: 0 <= i < |s| ==> r[i] == LowerChar(s[i])
  {
    if s == [] then [] else [LowerChar(s[0])] + ToLower(s[1..])
  }

  /** Lower-casing twice is lower-casing once. */
  lemma ToLowerIdempotent(s: string)
    ensures ToLower(ToLower(s)) == ToLower(s)
  {
  }
}

=== FILE: stripe_webhook.dfy ===
/**
 * POST /api/webhooks/stripe: apply a payment-provider event to the ledger. Signature
 * verification of the payload is the provider library's business; the handler receives
 * either the decoded event or nothing (the library threw).
 */
module StripeWebhookRoute {
  import opened Wrappers
  import opened Http
  import opened Store
  import opened Strings

  /** The fields of a payment intent the handler reads; `amount` is in cents. */
  datatype PaymentIntent = PaymentIntent(id: string, amount: int, userId: string)

  /** The decoded event, by its `type`. */
  datatype StripeEvent =
    | PaymentIntentSucceeded(intent: PaymentIntent)
    | PaymentIntentFailed(intent: PaymentIntent)
    | ChargeDisputeCreated(charge: string)
    | Unhandled(eventType: string)

  /** The `{ received: true }` acknowledgement. */
  datatype Ack = Received

  /** Tokens bought by a deposit: one token per $0.10. */
  const TokensPerDollar: real := 10.0

  function DollarsOf(cents: int): (d: real)
    ensures d * 100.0 == cents as real
  {
    cents as real / 100.0
  }

  /** `amount / 100 * 10`: a deposit of `cents` buys `cents / 10` tokens. */
  function TokensFor(cents: int): (t: real)
    ensures t * 10.0 == cents as real
    ensures cents >= 0 ==> t >= 0.0
  {
    DollarsOf(cents) * TokensPerDollar
  }

  /** The whole tokens a deposit of `cents` buys, rounded toward zero. */
  function WholeTokens(cents: int): int {
    if cents < 0 then -((-cents) / 10) else cents / 10
  }

  /**
   * `${tokens}` for the tokens a deposit of `cents` buys, `cents / 10`: the whole tokens as
   * `String` writes an integer (JavaScript writes "-0" for a value strictly between -1 and
   * 0), then a point and the tenths digit when there is one.
   */
  function TokensText(cents: int): (s: string)
    ensures var m := if cents < 0 then -cents else cents;
            var whole := if -10 < cents < 0 then "-0" else IntToString(WholeTokens(cents));
            s == if m % 10 == 0 then whole else whole + ['.', DigitChar(m % 10)]
  {
    var m: nat := if cents < 0 then -cents else cents;
    var whole := (if cents < 0 then "-" else "") + NatToString(m / 10);
    assert -10 < cents < 0 ==> NatToString(m / 10) == "0";
    if m % 10 == 0 then whole else whole + ['.', DigitChar(m % 10)]
  }

  /** parseInt reads the text of a deposit back as the whole tokens bought. */
  lemma {:induction false} TokensTextParses(cents: int)
    requires cents >= 0
    ensures ParseInt(TokensText(cents)) == Some(cents / 10)
  {
    var digits := NatToString(cents / 10);
    if cents % 10 == 0 {
      assert TokensText(cents) == digits;
      ParseIntOfIntToString(cents / 10);
    } else {
      assert TokensText(cents) == digits + ['.', DigitChar(cents % 10)];
      ParseIntIgnoresTail(cents / 10, ['.', DigitChar(cents % 10)]);
    }
  }

  /** The row's `description`: the tokens bought on success, a fixed text on failure. */
  function DepositDescription(intent: PaymentIntent, status: TxStatus): string {
    if status == FAILED then "Payment failed" else "Purchased " + TokensText(intent.amount) + " tokens"
  }

  /**
   * The DEPOSIT row written for an intent: paid through "stripe", carrying the intent id
   * as `paymentId`.
   */
  function DepositRow(intent: PaymentIntent, status: TxStatus, now: Millis): (t: Transaction)
    ensures t.userId == intent.userId && t.txType == DEPOSIT && t.status == status
    ensures t.amount * 100.0 == intent.amount as real && t.currency == USD
    ensures t.paymentMethod == Some("stripe") && t.paymentId == Some(intent.id)
    ensures status == COMPLETED ==> t.description == Some("Purchased " + TokensText(intent.amount) + " tokens")
    ensures status == FAILED ==> t.description == Some("Payment failed")
    ensures t.createdAt == now
  {
    Transaction(intent.userId, DEPOSIT, status, DollarsOf(intent.amount), USD, Some("stripe"), Some(intent.id),
                Some(DepositDescription(intent, status)), now)
  }

  /** `transaction.findFirst({ paymentId })`: the index of the first row carrying that id. */
  function FindByPaymentId(txs: seq<Transaction>, paymentId: string): (r: Option<nat>)
    ensures r.Some? ==> r.value < |txs| && txs[r.value].paymentId == Some(paymentId)
    ensures r.Some? ==> forall j :: 0 <= j < r.value ==> txs[j].paymentId != Some(paymentId)
    ensures r.None? ==> forall j :: 0 <= j < |txs| ==> txs[j].paymentId != Some(paymentId)
  {
    if txs == [] then None
    else if txs[0].paymentId == Some(paymentId) then Some(0)
    else match FindByPaymentId(txs[1..], paymentId)
      case None => None
      case Some(i) => Some(i + 1)
  }

  /** `stripe-signature` is read with `!signature`: absent and empty are both missing. */
  predicate Present(v: Option<string>) { v.Some? && v.value != "" }

  /**
   * The handler. A missing header answers 400 before anything else; an event the library
   * could not construct, or a write that throws (no wallet to credit, no user to suspend),
   * answers 400 "Webhook handler failed", keeping the writes made before the throw.
   */
  method Post(db: Database, signature: Option<string>, event: Option<StripeEvent>, now: Millis)
    returns (r: Response<Ack>)
    modifies db
    ensures !Present(signature) ==> r == Error(400, "Missing stripe-signature header") && unchanged(db)
    ensures Present(signature) && event.None? ==> r == Error(400, "Webhook handler failed") && unchanged(db)
    ensures Present(signature) && event.Some? && event.value.PaymentIntentSucceeded? ==>
              var intent := event.value.intent;
              if intent.userId in old(db.wallets) then
                && db.wallets == AddTokens(old(db.wallets), intent.userId, TokensFor(intent.amount))
                && db.transactions == old(db.transactions) + [DepositRow(intent, COMPLETED, now)]
                && db.users == old(db.users)
                && r == Ok(Received)
              else
                unchanged(db) && r == Error(400, "Webhook handler failed")
    ensures Present(signature) && event.Some? && event.value.PaymentIntentFailed? ==>
              && db.wallets == old(db.wallets)
              && db.transactions == old(db.transactions) + [DepositRow(event.value.intent, FAILED, now)]
              && db.users == old(db.users)
              && r == Ok(Received)
    ensures Present(signature) && event.Some? && event.value.ChargeDisputeCreated? ==>
              var found := FindByPaymentId(old(db.transactions), event.value.charge);
              if found.None? then
                unchanged(db) && r == Ok(Received)
              else
                var i := found.value;
                var txs := old(db.transactions);
                && db.transactions == txs[i := txs[i].(status := DISPUTED)]
                && db.wallets == old(db.wallets)
                && if txs[i].userId in old(db.users) then
                     && db.users == old(db.users)[txs[i].userId := old(db.users)[txs[i].userId].(status := "SUSPENDED")]
                     && r == Ok(Received)
                   else
                     db.users == old(db.users) && r == Error(400, "Webhook handler failed")
    ensures Present(signature) && event.Some? && event.value.Unhandled? ==> unchanged(db) && r == Ok(Received)
    ensures unchanged(db`contents, db`subscriptions, db`purchases)
    ensures unchanged(db`messages, db`takedowns, db`creatorProfiles)
  {
    if !Present(signature) {
      return Error(400, "Missing stripe-signature header");
    }
    if event.None? {
      return Error(400, "Webhook handler failed");
    }
    match event.value {
      case PaymentIntentSucceeded(intent) =>
        if intent.userId !in db.wallets {
          return Error(400, "Webhook handler failed");
        }
        db.wallets := AddTokens(db.wallets, intent.userId, TokensFor(intent.amount));
        db.transactions := db.transactions + [DepositRow(intent, COMPLETED, now)];
      case PaymentIntentFailed(intent) =>
        db.transactions := db.transactions + [DepositRow(intent, FAILED, now)];
      case ChargeDisputeCreated(charge) =>
        var found := FindByPaymentId(db.transactions, charge);
        if found.Some? {
          var i := found.value;
          var owner := db.transactions[i].userId;
          db.transactions := db.transactions[i := db.transactions[i].(status := DISPUTED)];
          if owner !in db.users {
            return Error(400, "Webhook handler failed");
          }
          db.users := db.users[owner := db.users[owner].(status := "SUSPENDED")];
        }
      case Unhandled(_) =>
    }
    r := Ok(Received);
  }

  /**
   * A deposit row never answers a dispute for a different id: appending the row of
   * intent `pi` leaves the lookup of a charge id other than `pi` where it was. Deposits
   * store intent ids and disputes look up charge ids, so a dispute finds a deposit only
   * when the two ids coincide.
   */
  lemma {:induction false} DisputeSkipsOtherDeposits(txs: seq<Transaction>, intent: PaymentIntent,
                                                     status: TxStatus, now: Millis, charge: string)
    requires charge != intent.id
    ensures FindByPaymentId(txs + [DepositRow(intent, status, now)], charge) == FindByPaymentId(txs, charge)
  {
    if txs == [] {
      assert [] + [DepositRow(intent, status, now)] == [DepositRow(intent, status, now)];
    } else {
      assert (txs + [DepositRow(intent, status, now)])[1..] == txs[1..] + [DepositRow(intent, status, now)];
      DisputeSkipsOtherDeposits(txs[1..], intent, status, now, charge);
    }
  }

  /**
   * Redelivery: there is no lookup by payment id before the credit, so the same
   * succeeded event delivered twice credits twice and writes two rows with one id.
   */
  method DeliverTwice(db: Database, signature: Option<string>, intent: PaymentIntent, now: Millis)
    returns (first: Response<Ack>, second: Response<Ack>)
    requires Present(signature) && intent.userId in db.wallets
    modifies db
    ensures first == Ok(Received) && second == Ok(Received)
    ensures intent.userId in db.wallets
    ensures db.wallets[intent.userId].tokenBalance
            == old(db.wallets[intent.userId].tokenBalance) + 2.0 * TokensFor(intent.amount)
    ensures db.transactions == old(db.transactions) + [DepositRow(intent, COMPLETED, now), DepositRow(intent, COMPLETED, now)]
  {
    first := Post(db, signature, Some(PaymentIntentSucceeded(intent)), now);
    second := Post(db, signature, Some(PaymentIntentSucceeded(intent)), now);
  }
}

=== FILE: utils.dfy ===
/**
 * The arithmetic and classification helpers of lib/utils.ts: the commission split, the
 * 18+ age check, the magnitude suffix of `formatNumber` and the `timeAgo` buckets.
 * Numbers are exact reals; clocks are parameters.
 */
module Utils {
  import opened Wrappers
  import opened Strings
  import opened Store

  // ---------------------------------------------------------------------------
  // calculateCommission
  // ---------------------------------------------------------------------------

  datatype Commission = Commission(platformFee: real, agencyFee: real, creatorEarnings: real)

  /** `agencyRate ? … : 0`: an absent or zero agency rate charges nothing. */
  predicate HasAgency(agencyRate: Option<real>) { agencyRate.Some? && agencyRate.value != 0.0 }

  /**
   * The platform takes `rate` of the amount, the agency takes `agencyRate` of what is
   * left, the creator keeps the rest; the three parts always add up to the amount.
   */
  function CalculateCommission(amount: real, rate: real, agencyRate: Option<real>): (c: Commission)
    ensures c.platformFee + c.agencyFee + c.creatorEarnings == amount
    ensures c.platformFee == amount * rate
    ensures !HasAgency(agencyRate) ==> c.agencyFee == 0.0 && c.creatorEarnings == amount - amount * rate
    ensures HasAgency(agencyRate) ==> c.agencyFee == (amount - c.platformFee) * agencyRate.value
  {
    var platformFee := amount * rate;
    var agencyFee := if HasAgency(agencyRate) then (amount - platformFee) * agencyRate.value else 0.0;
    Commission(platformFee, agencyFee, amount - platformFee - agencyFee)
  }

  /** With a non-negative amount and rates between 0 and 1, nobody's share is negative. */
  lemma {:induction false} CommissionNonNegative(amount: real, rate: real, agencyRate: Option<real>)
    requires amount >= 0.0 && 0.0 <= rate <= 1.0
    requires agencyRate.Some? ==> 0.0 <= agencyRate.value <= 1.0
    ensures var c := CalculateCommission(amount, rate, agencyRate);
            c.platformFee >= 0.0 && c.agencyFee >= 0.0 && c.creatorEarnings >= 0.0
  {
    var c := CalculateCommission(amount, rate, agencyRate);
    var rest := amount * (1.0 - rate);
    MulNonNeg(amount, 1.0 - rate);
    MulNonNeg(amount, rate);
    assert amount - c.platformFee == rest;
    if HasAgency(agencyRate) {
      var a := agencyRate.value;
      assert c.agencyFee == rest * a;
      MulNonNeg(rest, a);
      assert c.creatorEarnings == rest * (1.0 - a);
      MulNonNeg(rest, 1.0 - a);
    }
  }

  lemma MulNonNeg(x: real, y: real)
    requires x >= 0.0 && y >= 0.0
    ensures x * y >= 0.0
  {
  }

  // ---------------------------------------------------------------------------
  // isValidAge
  // ---------------------------------------------------------------------------

  /** A local calendar date as `getFullYear`, `getMonth` and `getDate` report it. */
  datatype CalendarDate = CalendarDate(year: int, month: int, day: int)

  /** `a` is on or before `b`: year, then month, then day. */
  predicate OnOrBefore(a: CalendarDate, b: CalendarDate) {
    a.year < b.year
    || (a.year == b.year && (a.month < b.month || (a.month == b.month && a.day <= b.day)))
  }

  /** The anniversary of `birth` in the year `years` later (month and day kept as given). */
  function Anniversary(birth: CalendarDate, years: int): CalendarDate {
    CalendarDate(birth.year + years, birth.month, birth.day)
  }

  const AdultAge: int := 18

  /**
   * The year difference, less one while this year's birthday has not come, is at least
   * 18 — that is, the 18th birthday falls on or before today.
   */
  function IsValidAge(today: CalendarDate, birth: CalendarDate): (valid: bool)
    ensures valid <==> OnOrBefore(Anniversary(birth, AdultAge), today)
  {
    var age := today.year - birth.year;
    var monthDiff := today.month - birth.month;
    if monthDiff < 0 || (monthDiff == 0 && today.day < birth.day) then age - 1 >= AdultAge
    else age >= AdultAge
  }

  // ---------------------------------------------------------------------------
  // formatNumber (the suffix choice; the one-decimal rendering is not modelled)
  // ---------------------------------------------------------------------------

  datatype Suffix = Millions | Thousands | NoSuffix

  function SuffixText(s: Suffix): string {
    match s
    case Millions => "M"
    case Thousands => "K"
    case NoSuffix => ""
  }

  function Scale(s: Suffix): real {
    match s
    case Millions => 1000000.0
    case Thousands => 1000.0
    case NoSuffix => 1.0
  }

  /** The number `formatNumber` prints before its suffix, and the suffix. */
  datatype Scaled = Scaled(value: real, suffix: Suffix)

  function FormatNumber(num: real): (f: Scaled)
    ensures f.suffix == Millions <==> num >= 1000000.0
    ensures f.suffix == Thousands <==> 1000.0 <= num < 1000000.0
    ensures f.suffix == NoSuffix <==> num < 1000.0
    ensures f.value * Scale(f.suffix) == num
    ensures f.suffix != NoSuffix ==> 1.0 <= f.value
    ensures f.suffix == Thousands ==> f.value < 1000.0
  {
    if num >= 1000000.0 then Scaled(num / 1000000.0, Millions)
    else if num >= 1000.0 then Scaled(num / 1000.0, Thousands)
    else Scaled(num, NoSuffix)
  }

  // ---------------------------------------------------------------------------
  // timeAgo
  // ---------------------------------------------------------------------------

  datatype TimeUnit = Years | Months | Days | Hours | Minutes

  function UnitSeconds(u: TimeUnit): int {
    match u
    case Years => 31536000
    case Months => 2592000
    case Days => 86400
    case Hours => 3600
    case Minutes => 60
  }

  function UnitLabel(u: TimeUnit): string {
    match u
    case Years => "y"
    case Months => "mo"
    case Days => "d"
    case Hours => "h"
    case Minutes => "m"
  }

  datatype Ago = JustNow | Ago(count: int, unit: TimeUnit)

  /** `Math.floor((now - date) / 1000)`; Dafny's division by a positive divisor is the floor. */
  function ElapsedSeconds(now: Millis, date: Millis): (s: int)
    ensures s * 1000 <= now - date < (s + 1) * 1000
  {
    (now - date) / 1000
  }

  /**
   * The largest unit of which strictly more than one has elapsed, and how many whole
   * ones; a minute or less is "just now" (so are future dates).
   */
  function Bucket(seconds: int): (a: Ago)
    ensures a.JustNow? <==> seconds <= 60
    ensures a.Ago? ==> seconds > UnitSeconds(a.unit)
    ensures a.Ago? ==> forall u :: UnitSeconds(u) > UnitSeconds(a.unit) ==> seconds <= UnitSeconds(u)
    ensures a.Ago? ==> a.count >= 1
                       && a.count * UnitSeconds(a.unit) <= seconds < (a.count + 1) * UnitSeconds(a.unit)
  {
    if seconds > UnitSeconds(Years) then Ago(seconds / UnitSeconds(Years), Years)
    else if seconds > UnitSeconds(Months) then Ago(seconds / UnitSeconds(Months), Months)
    else if seconds > UnitSeconds(Days) then Ago(seconds / UnitSeconds(Days), Days)
    else if seconds > UnitSeconds(Hours) then Ago(seconds / UnitSeconds(Hours), Hours)
    else if seconds > UnitSeconds(Minutes) then Ago(seconds / UnitSeconds(Minutes), Minutes)
    else JustNow
  }

  function Render(a: Ago): (text: string)
    ensures a.JustNow? ==> text == "just now"
    ensures a.Ago? ==> |text| > 0 && (text[0] == '-' || IsDigit(text[0]))
    ensures a.Ago? ==> EndsWith(text, UnitLabel(a.unit) + " ago")
    ensures a.Ago? ==> text == IntToString(a.count) + UnitLabel(a.unit) + " ago"
  {
    match a
    case JustNow => "just now"
    case Ago(count, unit) => IntToString(count) + UnitLabel(unit) + " ago"
  }

  function TimeAgo(now: Millis, date: Millis): (text: string)
    ensures text == "just now" <==> ElapsedSeconds(now, date) <= 60
    ensures text != "just now" ==> EndsWith(text, " ago")
  {
    Render(Bucket(ElapsedSeconds(now, date)))
  }

  /** The count `timeAgo` prints reads back with `parseInt`, whatever the unit. */
  lemma {:induction false} TimeAgoCountParses(now: Millis, date: Millis)
    requires ElapsedSeconds(now, date) > 60
    ensures var a := Bucket(ElapsedSeconds(now, date));
            ParseInt(TimeAgo(now, date)) == Some(a.count)
  {
    var a := Bucket(ElapsedSeconds(now, date));
    var tail := UnitLabel(a.unit) + " ago";
    assert TimeAgo(now, date) == NatToString(a.count) + tail;
    ParseIntIgnoresTail(a.count, tail);
  }
}

=== FILE: wrappers.dfy ===
/** Optional values: JavaScript's `undefined`/`null` next to a present value. */
module Wrappers {

  datatype Option<+T> = None | Some(value: T) {

    /** The value, or `default` when absent (JavaScript's `x ?? default`). */
    function GetOr(default: T): T {
      match this
      case Some(v) => v
      case None => default
    }
  }
}

/** The shape every route handler answers with: a JSON body, or an error with an HTTP status. */
module Http {

  datatype Response<+T> = Ok(body: T) | Error(status: int, error: string)
}
